=== FILE: README.md ===
# Cerberus core, modelled in Dafny

Cerberus is a space game built on Panda3D. Its world is a galaxy of 100
star systems. A system's content is attached to the scene only while a
player is inside it, and the systems' stargates form a ring. This project
models the game logic underneath that world and proves properties about it.
Rendering, input and the network sockets are not part of the model.

- **Star-system streaming** (`galaxy.dfy`, module `StarSystems`).
  - Each `SolarSystem` keeps a player counter and a load flag.
  - Entering, leaving, loading and unloading keep `loaded == (count > 0)`.
  - The `Galaxy` builds systems 0..99 and links gate i to (i + 1) mod 100.
  - It warps the player to a chosen or a random other system.
- **Entities** (`entity.dfy`, module `Entities`).
  - The process-wide entity registry is an explicit `World` object.
  - An entity registers under its id when it is built and removes that id when destroyed.
- **Generation** (`generation.dfy`).
  - The celestial class lookup, and the `CELESTIAL_n` uid counter.
  - The effective solar-system generator.
  - The manual fallback spawner (`PLANET_MAIN`, `AST_0`..`AST_49`) and `clear_system`.
- **Ships** (`ship.dfy`, `ship_manager.dfy`).
  - Mounted shields and their summed capacity.
  - Damage that drains the shield before the hull.
  - Capped shield regeneration.
  - The horde spawner (ids 5000, 5001, ...) and the distance-tiered manager update.
- **Progression** (`skills.dfy`): the experience/level loop of a skill and its bonuses.
- **Ledger** (`ledger.dfy`): the inventory and wallet of the window manager (`add_item`, `buy_item`).
- **Overview** (`overview.dfy`, `overview_row.dfy`).
  - The `WithinRange` flag and sorted display flags.
  - Spawn ids 1, 2, ...
  - Distance units, the threat icon and the cell colours of one overview row.
- **Idle tracker** (`gamestats.dfy`): idle detection and active playtime, with the clock reading passed in.
- **Wire formats** (`wire.dfy`, `protocol.dfy`, `records.dfy` and the per-class files `component_support.dfy`, `net_core.dfy`, `entity_support.dfy`, `component_system.dfy`).
  - The datagram encoding and the position message with its client-side decoding and relay.
  - The equipment records' generic field-schema `pack`/`unpack`, with `unpack(pack(x)) == x` proved for every class.
  - `apply_to_ship`.
- **Meshes** (`geometry.dfy`): the index topology of the box and of the latitude/longitude sphere.

Imperative parts of the program are classes whose methods are proved to
apply a pure specification function to their fields. The properties are
then proved as lemmas about those functions.

Some behaviour of the code worth knowing when reading the model:

- The gates form a fixed ring: gate i leads to system (i + 1) mod 100. There is no route search.
- `player_left` clamps the player counter at zero and unloads the system.
- Warping to the current system leaves it and then enters it again.
- `systems/generation.py` defines `generate_solar_system` twice; the later definition replaces the earlier one, and only the later one is modelled.

## Model

| member | source | states |
|---|---|---|
| StarSystems.Loaded | systems/galaxy.py:69-74 | load attaches the system and keeps the counter; an already loaded system is unchanged |
| StarSystems.Unloaded | systems/galaxy.py:76-81 | unload detaches the system and keeps the counter; an already unloaded system is unchanged |
| StarSystems.AfterEnter | systems/galaxy.py:58-61 | player_entered adds exactly one player and leaves the system loaded |
| StarSystems.AfterLeave | systems/galaxy.py:63-67 | player_left removes one player; at or below zero the counter is clamped to 0 and the system unloaded, so the counter is never negative |
| StarSystems.LoadIdempotent | systems/galaxy.py:69-74 | loading twice is loading once |
| StarSystems.UnloadIdempotent | systems/galaxy.py:76-81 | unloading twice is unloading once |
| StarSystems.EnterThenLeave | systems/galaxy.py:58-67 | from a consistent state, entering then leaving restores the state exactly |
| StarSystems.RunKeepsConsistent | systems/galaxy.py:58-67 | any sequence of enter/leave calls keeps loaded == (count > 0) |
| StarSystems.FreshRunConsistent | systems/galaxy.py:23-67 | from a fresh system, after every prefix of any enter/leave sequence the system is loaded iff its counter is positive, and the counter is never negative |
| StarSystems.RunCountsBalance | systems/galaxy.py:58-67 | while no leave hits zero, the counter equals enters minus leaves |
| StarSystems.AsteroidBelt | systems/galaxy.py:38-49 | the n asteroids get ids sys_{sid}_ast_0 .. sys_{sid}_ast_{n-1}, in order |
| StarSystems.ContentShape | systems/galaxy.py:29-56 | a system's content is n + 2 bodies: the planet first, the asteroids, the stargate last |
| StarSystems.BodyIdsDiffer | systems/galaxy.py:31-52 | the planet, asteroid and gate ids of one system never coincide |
| StarSystems.ContentIdsDistinct | systems/galaxy.py:29-56 | no two bodies of a system share an entity id |
| StarSystems.SolarSystem.constructor | systems/galaxy.py:12-27 | a new system is unloaded with no players, holds the generated content, and its gate is at (250, 0, 0) with no destination yet |
| StarSystems.SolarSystem.PlayerEntered | systems/galaxy.py:58-61 | the fields change exactly as AfterEnter says |
| StarSystems.SolarSystem.PlayerLeft | systems/galaxy.py:63-67 | the fields change exactly as AfterLeave says |
| StarSystems.SolarSystem.Load | systems/galaxy.py:69-74 | the fields change exactly as Loaded says |
| StarSystems.SolarSystem.Unload | systems/galaxy.py:76-81 | the fields change exactly as Unloaded says |
| StarSystems.Range | systems/galaxy.py:91-92 | the system ids are 0..n-1 in insertion order |
| StarSystems.RingTargets | systems/galaxy.py:95-99 | with ids 0..n-1, system i's gate leads to (i + 1) mod n: the next id, and the last wraps to 0 |
| StarSystems.JumpsAround | systems/galaxy.py:95-99 | k gate jumps from s land on (s + k) mod n, so the ring reaches every system |
| StarSystems.RingIsPermutation | systems/galaxy.py:95-99 | every system is the gate target of exactly one system, its predecessor on the ring |
| StarSystems.Available | systems/galaxy.py:118 | warp_random's candidates are exactly the ids other than the current one |
| StarSystems.AvailableCount | systems/galaxy.py:117-121 | among distinct ids, only the current id (when listed) is excluded |
| StarSystems.AlwaysAnotherSystem | systems/galaxy.py:117-121 | in a galaxy of n systems at least n - 1 other systems are available |
| StarSystems.Warped | systems/galaxy.py:101-110 | a warp changes only the current and the target system's occupancy |
| StarSystems.WarpKeepsConsistent | systems/galaxy.py:101-110 | warping keeps every system's streaming invariant |
| StarSystems.WarpMovesPlayer | systems/galaxy.py:101-110 | with one player, after a warp only the target is loaded, with one player; this holds also when the target is the current system |
| StarSystems.Galaxy.constructor | systems/galaxy.py:84-99 | systems 0..99, all fresh, with no current system; the gate of system i leads to (i + 1) mod 100 |
| StarSystems.Galaxy.BuildSystems | systems/galaxy.py:91-92 | the first loop creates one fresh system per id 0..99, inserted in order |
| StarSystems.Galaxy.LinkGates | systems/galaxy.py:95-99 | the second loop links the gate of the i-th id to the next id and the last one to the first; no occupancy changes |
| StarSystems.Galaxy.LeaveSystem | systems/galaxy.py:105-106 | the current system gets player_left and no other system changes |
| StarSystems.Galaxy.EnterSystem | systems/galaxy.py:108-109 | the target gets player_entered and no other system changes |
| StarSystems.Galaxy.WarpPlayer | systems/galaxy.py:101-115 | an unknown target changes nothing; otherwise states become Warped, the target becomes current, and the player is placed at the gate plus (30, 30, 0) |
| StarSystems.Galaxy.WarpRandom | systems/galaxy.py:117-121 | with no other system nothing happens; otherwise it warps to a system other than the current one |
| Entities.ResolveId | entities/entity.py:14 | a truthy id is kept; a falsy one (None, 0, "") is replaced by the fresh UUID string; the result is never falsy |
| Entities.Unregister | entities/entity.py:63-65 | removing an id drops exactly that key and keeps every other entry |
| Entities.UnregisterIdempotent | entities/entity.py:64-65 | removing an id twice is removing it once |
| Entities.RegisterThenUnregister | entities/entity.py:48-65 | registering and then destroying under the same id leaves every other entry as it was |
| Entities.World.constructor | globals.py:47 | the registry starts empty |
| Entities.Entity.constructor | entities/entity.py:12-48 | a new entity has the resolved id, is active with hull 100/100, and is filed under its id, replacing any earlier entry |
| Entities.Entity.Destroy | entities/entity.py:56-75 | destroy removes the id key, even when another entity owns it now, and deactivates the entity and clears its root |
| Entities.Entity.GetPos | entities/entity.py:77-81 | the root's position, or the zero vector once destroyed |
| Entities.Entity.SetPos | entities/entity.py:83-90 | moves the root; does nothing once destroyed |
| Entities.Entity.GetHpr | entities/entity.py:92-96 | the root's orientation, or the zero vector once destroyed |
| Entities.DestroyTwice | entities/entity.py:64-72 | a second destroy removes nothing more and the entity stays destroyed |
| Generation.CelestialClass | systems/generation.py:40-53 | exactly "Asteroid", "Wreck", "Stargate" and "Planet" map to a class; any other name yields None |
| Generation.CelestialClassOfTypeName | systems/generation.py:44-50 | each class's name maps back to that class |
| Generation.CelestialUidInjective | systems/generation.py:61-62 | different counter values give different CELESTIAL_ uids, so uids never repeat within one generator |
| Generation.CelestialUidShape | systems/generation.py:61 | every uid handed out has the form CELESTIAL_ followed by digits |
| Generation.AsteroidIdInjective | systems/generation.py:126 | different indices give different AST_ ids |
| Generation.GenerationSystem.constructor | systems/generation.py:14-16 | the counter starts at 0 |
| Generation.GenerationSystem.GenerateCelestial | systems/generation.py:55-77 | unknown type: None, and nothing changes; known type: a fresh entity registered under CELESTIAL_{n}, the counter then goes up by 1, and the name is {type}_{n+1} |
| Generation.GenerationSystem.GenerateSolarSystem | systems/generation.py:79-91 | one Stargate then 20 Asteroids under 21 consecutive uids, the counter raised by 21, the registry's keys become exactly the old ones plus those 21 uids, and every old entry under any other key, including CELESTIAL_ uids from earlier calls, keeps its value |
| Generation.GalaxyManager.constructor | systems/generation.py:99-101 | keeps the world and the optional remote_ships map |
| Generation.GalaxyManager.SpawnAsteroid | systems/generation.py:126-130 | AST_{i} named Aszteroida-{i} at the drawn position, registered in the world and, when remote_ships exists, there too |
| Generation.GalaxyManager.SpawnAsteroids | systems/generation.py:125-130 | AST_0..AST_{n-1} registered in order, in the world and in remote_ships; the keys become exactly the old ones plus those ids, and every entry under any other key, including AST_ ids from n on, keeps its value |
| Generation.GalaxyManager.ManualSpawn | systems/generation.py:113-130 | PLANET_MAIN and AST_0..AST_49 are registered, and filed in remote_ships when that exists; in both maps the keys become exactly the old ones plus those ids, and every other entry keeps its value |
| Generation.GalaxyManager.ClearSystem | systems/generation.py:133-138 | destroying every entity of a snapshot of the keys leaves the registry empty and every registered entity inactive |
| Ships.CapacityAppend | entities/ship.py:151 | mounting one more shield adds exactly its capacity to the total |
| Ships.CapacityNonNegative | entities/ship.py:151 | non-negative capacities give a non-negative total |
| Ships.Damage | entities/ship.py:156-161 | a hit the shield can hold only drains the shield; a bigger hit empties the shield and the remainder comes off the hull, floored at 0; nothing is lost while the hull survives |
| Ships.ShieldAbsorbs | entities/ship.py:156-157 | a hit within the shield leaves the hull intact |
| Ships.ShieldHitsAdd | entities/ship.py:156-157 | two hits the shield holds equal one hit of their sum |
| Ships.RegenCapped | entities/ship.py:109-111 | regeneration never lifts the shield above its maximum and does nothing at or above it |
| Ships.RegenMonotone | entities/ship.py:109-111 | with non-negative rates and time step, regeneration never lowers the shield |
| Ships.Ship.constructor | entities/ship.py:11-44 | hull 1000/1000; the standard thruster and the basic shield mounted; after recalculation shield 0/500; the ship's entity is registered under its id |
| Ships.Ship.MountComponent | entities/ship.py:143-147 | an engine is appended to engines, a shield to shields, and anything else to neither |
| Ships.Ship.RecalculateStats | entities/ship.py:149-152 | the maximum becomes the summed capacity and the current shield is clamped to it |
| Ships.Ship.TakeDamage | entities/ship.py:154-163 | shield and hull change as Damage says, and the ship is destroyed exactly when the hull is at or below 0 afterwards; its components, maximum hull, position and orientation are unchanged |
| Ships.Ship.Destroy | entities/ship.py:165-169 | the entity is removed from the registry and deactivated; hull, position and orientation are kept |
| Ships.Ship.RegenerateShields | entities/ship.py:109-111 | the shield follows the regeneration fold over the mounted shields |
| Ships.Ship.Update | entities/ship.py:102-111 | the shield regeneration of update; nothing else changes |
| Ships.FreshShipRegen | entities/ship.py:42-44 | worked example: a freshly built ship regenerates 5 per second up to 500 |
| ShipManagement.TierOf | systems/ship_manager.py:61-66 | full update below 800 squared, shield-only from 800 squared up to below 2500 squared, untouched beyond; exactly one tier applies |
| ShipManagement.TickBounded | systems/ship_manager.py:61-66 | in every tier the shield stays within [its start, its maximum] |
| ShipManagement.ShipManager.constructor | systems/ship_manager.py:8-11 | no ships and no master model |
| ShipManagement.ShipManager.SpawnDrone | systems/ship_manager.py:39-52 | ship 5000+i named Drone-{i} at the drawn position, filed in ships and registered in the world |
| ShipManagement.ShipManager.SpawnHorde | systems/ship_manager.py:33-52 | without a master model nothing changes; otherwise ships 5000..5000+count-1 are added and registered; in both the ship map and the entity registry the keys become exactly the old ones plus those ids, and other entries are kept |
| ShipManagement.ShipManager.SpawnDrones | systems/ship_manager.py:38-52 | the loop files ids 5000..5000+count-1 in the ship map and the entity registry and nothing else, keeping every other entry |
| ShipManagement.ShipManager.Update | systems/ship_manager.py:53-66 | without a local ship no shield changes; otherwise the ships are ticked by distance tier in insertion order, and the update fails (ok false) exactly when some ship has been destroyed and lost its root, stopping at the first such ship with only the ships before it ticked; every ship's engines, shields and shield maximum are unchanged |
| ShipManagement.ShipManager.TickShip | systems/ship_manager.py:59-66 | one ship's tick: full update within 800, a 1.0 per second trickle capped at the maximum within 2500, nothing beyond; its equipment is unchanged |
| Skills.Threshold | entities/Skills.py:75-77 | the experience for the next level, (level + 1)^2 * 100, is at least 100 for a non-negative level |
| Skills.SettleLevelBounds | entities/Skills.py:66-68 | add_xp never lowers the level and never raises it above max_level |
| Skills.SettleConservesXp | entities/Skills.py:65-68 | experience before equals experience after plus the thresholds of the levels gained |
| Skills.ThresholdSumFirst | entities/Skills.py:66-67 | the first level paid for costs its own threshold |
| Skills.SettleBelowCap | entities/Skills.py:66 | below the cap, the loop stops only when the leftover is under the next threshold |
| Skills.AtCapAccumulates | entities/Skills.py:66 | at max_level, experience accumulates with no further level-ups |
| Skills.SettleKeepsXpNonNegative | entities/Skills.py:65-68 | non-negative experience stays non-negative |
| Skills.Skill.constructor | entities/Skills.py:4-59 | level 0, xp 0, max_level 5, every bonus 0.0 |
| Skills.Skill.LevelUp | entities/Skills.py:70-73 | one level more, nothing else changes |
| Skills.Skill.AddXp | entities/Skills.py:63-68 | level and xp become the outcome of the settle loop from the old level and the increased experience |
| Skills.Skill.BonusValue | entities/Skills.py:79-89 | a bonus attribute is its base times the level; a name that is not a bonus attribute gives 0.0 |
| Skills.FreshBonusesAreZero | entities/Skills.py:79-89 | with every base at 0.0, every bonus name gives 0.0 at every level |
| Skills.FreshSkillExample | entities/Skills.py:63-77 | worked example: from a fresh skill, 1500 xp reaches level 3 with 100 left |
| Stats.GameStats.constructor | systems/gamestats.py:5-12 | start and last activity at now, not idle, nothing accumulated, threshold 30 s |
| Stats.GameStats.ResetIdle | systems/gamestats.py:18-26 | when idle, the idle time beyond the threshold is added and idleness ends; the last activity becomes now, for any clock reading; when the clock has not gone backwards the invariant is kept and the accumulated idle time never decreases |
| Stats.GameStats.Update | systems/gamestats.py:28-32 | becomes idle exactly when strictly more than the threshold has passed, and never leaves idleness, for any clock reading; the invariant is kept when the clock has not gone backwards |
| Stats.GameStats.ActivePlaytime | systems/gamestats.py:34-40 | elapsed time to the first clock reading minus the accumulated idle time and, while idle, the idle excess up to the second reading; never above the elapsed time when the readings do not go backwards, and never negative when they agree |
| Ledger.Added | ui/windows.py:40-44 | a known name gains qty and keeps its category and price; a new name gets a new entry; every other entry is unchanged |
| Ledger.AddedTwice | ui/windows.py:41-42 | adding a then b to one name is adding a + b |
| Ledger.AddedKeepsKeyedByName | ui/windows.py:40-44 | every entry stays filed under its own name |
| Ledger.Bought | ui/windows.py:165-171 | with enough credits the price is paid and one unit is added; otherwise nothing changes; credits never go negative |
| Ledger.BuyAllKeepsCredits | ui/windows.py:165-168 | over any sequence of purchases at non-negative prices, the credits stay between 0 and their start |
| Ledger.AddedAllDistinct | ui/windows.py:40-44 | items with distinct names each become their own entry and nothing else is filed |
| Ledger.StartingCargoAdded | ui/windows.py:28-31 | the starting cargo is the four add_item calls in order |
| Ledger.StartingCargoNamesDistinct | ui/windows.py:28-31 | the four starting names are distinct |
| Ledger.StartingCargoEntries | ui/windows.py:28-31 | the starting inventory holds each listed item exactly as listed, and nothing else |
| Ledger.WindowManager.constructor | ui/windows.py:19-38 | 100000 credits, the four cargo entries and the three market offers |
| Ledger.WindowManager.AddItem | ui/windows.py:40-47 | the inventory becomes Added of the old one; the credits are unchanged |
| Ledger.WindowManager.BuyItem | ui/windows.py:165-171 | credits and inventory become Bought of the old ones |
| Overview.Sorted | data/overview_item.py:51 | the sorted flags are an ordered permutation of the flags |
| Overview.Insert | data/overview_item.py:51 | inserting into a sorted list keeps it sorted and adds exactly that element |
| Overview.StrLeTotal | data/overview_item.py:51 | any two strings compare one way or the other |
| Overview.StrLeTrans | data/overview_item.py:51 | string order is transitive |
| Overview.RemoveFirst | data/overview_item.py:38 | list.remove drops one occurrence when present and changes nothing otherwise |
| Overview.RangeFlagsTracksDistance | data/overview_item.py:35-38 | afterwards WithinRange is present iff the distance is below 50000, and at most once |
| Overview.RangeFlagsKeepsOthers | data/overview_item.py:35-38 | every flag other than WithinRange is kept, in order |
| Overview.RangeFlagsIdempotent | data/overview_item.py:35-38 | repeating the flag step for the same distance changes nothing more |
| Overview.Moved | data/overview_item.py:23-24 | an entry with velocity 0 keeps its position |
| Overview.OverviewItem.constructor | data/overview_item.py:7-17 | a missing flag list becomes an empty one; every given field is kept; distance 0; velocity is the passed speed |
| Overview.OverviewItem.UpdateState | data/overview_item.py:19-38 | the position moves only when moving, the distance is recorded, and the flags become RangeFlags for it |
| Overview.OverviewItem.GetDisplayData | data/overview_item.py:40-53 | after the update, the record has the sorted flags and the type's first letter as icon; an empty type fails |
| Overview.SpawnFlags | data/overview_item.py:84-86 | Attacking is only given to an enemy; Targeted follows its roll; WithinRange is never set at spawn |
| Overview.OverviewManager.constructor | data/overview_item.py:57-65 | player at the origin; entries with ids 1..num that follow the spawn rules |
| Overview.OverviewManager.SpawnOne | data/overview_item.py:69-98 | the entry gets the next id, which then goes up by 1 |
| Overview.OverviewManager.SpawnedItem | data/overview_item.py:70-97 | the entry built from the draws has the drawn type and standing, the name with its id, and the spawn flags |
| Overview.OverviewManager.InitialSpawn | data/overview_item.py:67-98 | num entries with consecutive ids in spawn order, each following the spawn rules |
| OverviewRows.FormatDistance | ui/overview_row.py:20-26 | AU from one astronomical unit on, km from 1000 m on, metres below; exactly one unit applies, and the shown value times the unit is the distance |
| OverviewRows.FormattedValueAtLeastOne | ui/overview_row.py:21-24 | outside the metre range the shown value is at least 1 |
| OverviewRows.ThreatIcon | ui/overview_row.py:92-96 | "!" iff Attacking, "X" iff Targeted, "!" first: one of "", "!", "X", "!X" |
| OverviewRows.StandingColor | ui/overview_row.py:89 | a known standing gets its own colour |
| OverviewRows.StandingColorFallback | ui/overview_row.py:89 | the background colour appears exactly for an unknown standing |
| OverviewRows.Content | ui/overview_row.py:100-107 | one cell per column of the fixed column list icon, name, distance, velocity, angular, threat |
| OverviewRows.CellColorGlows | ui/overview_row.py:109-114 | a cell glows exactly when it is the distance or the velocity cell and the entry is within range |
| OverviewRows.OverviewRow.constructor | ui/overview_row.py:29-46 | not selected, on the dimmed background, with the cells filled as update_content says |
| OverviewRows.OverviewRow.UpdateContent | ui/overview_row.py:86-114 | the standing line takes StandingColor, the cells take Content and CellColor; selection and frame are unchanged |
| OverviewRows.OverviewRow.SetSelected | ui/overview_row.py:116-121 | the highlight colour when selected, the dimmed background otherwise |
| Protocol.MessageIdsDistinct | net/protocol.py:8-10 | LOGIN, POSITION and DISCONNECT are pairwise distinct and fit the leading Uint8 |
| Protocol.PosMessage | net/protocol.py:12-20 | the position message is 27 bytes and starts with MSG_POSITION |
| Protocol.CreatePosDatagram | net/protocol.py:12-20 | a fresh datagram holding Uint8 type, Uint16 sender and Float64 x, y, z in that order |
| Protocol.Classify | net/client.py:36-42 | a type other than position is ignored; a short message is a read failure; only a full position message decodes |
| Protocol.PosMessageRoundTrip | net/protocol.py:12-20 | the client decodes the encoded message to the same sender and coordinates, whatever follows |
| Protocol.BroadcastTargets | net/server.py:36-40 | the datagram goes to exactly the clients other than the excluded one |
| Protocol.RelayedPositionReachesOthers | net/client.py:34-50 | a relayed position message reaches every connected client but its origin, and each decodes the update that was sent |
| Protocol.GameClient.constructor | net/client.py:7-12 | no updates and no relays yet |
| Protocol.GameClient.ProcessMsg | net/client.py:34-50 | only a decoded position reaches update_remote_ship, unchanged; it is relayed, excluding its origin, exactly when hosting an active server |
| Wire.LittleEndianRoundTrip | net/protocol.py:15-16 | reading back an unsigned little-endian value gives the value |
| Wire.Int32RoundTrip | components/Support.py:76 | the two's-complement pattern of an Int32 value reads back as that value |
| Wire.StringRoundTrip | components/Support.py:80 | an ASCII string's bytes read back as the string |
| Wire.ReadUintWritten | net/client.py:36-39 | an unsigned value written at a position reads back from it, whatever surrounds it |
| Wire.ReadInt32Written | components/Support.py:89 | an Int32 written at a position reads back from it |
| Wire.ReadFloat64Written | net/client.py:40-42 | a Float64 written at a position reads back from it |
| Wire.ReadStringWritten | components/Support.py:93 | a string written at a position reads back from it |
| Wire.Datagram.AddUint8 | net/protocol.py:15 | appends the one-byte encoding |
| Wire.Datagram.AddUint16 | net/protocol.py:16 | appends the two-byte little-endian encoding |
| Wire.Datagram.AddInt32 | components/Support.py:76 | appends the four-byte two's-complement encoding |
| Wire.Datagram.AddFloat64 | net/protocol.py:17-19 | appends the eight-byte bit pattern |
| Wire.Datagram.AddString | components/Support.py:80 | appends the 16-bit length prefix and the bytes |
| Wire.DatagramIterator.GetUint | net/client.py:36-39 | a read either succeeds and moves the cursor past it, or fails and leaves the cursor |
| Wire.DatagramIterator.GetInt32 | components/Support.py:89 | the same, for an Int32 |
| Wire.DatagramIterator.GetFloat64 | net/client.py:40-42 | the same, for a Float64 |
| Wire.DatagramIterator.GetString | components/Support.py:93 | the same, for a string |
| Records.Defaults | components/Support.py:59-62 | after the default loop there is one attribute per declared field |
| Records.Construct | components/Support.py:52-69 | the constructor leaves exactly the declared fields as attributes |
| Records.AppliedIgnoresUnknown | components/Support.py:65-69 | a keyword naming no attribute changes nothing (it is only warned about); method names are not represented |
| Records.AppliedKeeps | components/Support.py:65-67 | a field no keyword names keeps its default |
| Records.AppliedLast | components/Support.py:65-67 | the last keyword naming a field decides its value |
| Records.KnownOnly | net/Core.py:73-80 | from_dict keeps only keys that name declared fields |
| Records.KnownOnlyConstructs | net/Core.py:73-80 | filtering unknown keys first builds the same record as ignoring them |
| Records.EncodeValue | components/Support.py:74-80 | int, float and str fields are written; a reference is not |
| Records.ReadValue | components/Support.py:88-93 | a successful read yields a value of the field's type and moves forward |
| Records.ReadValueWritten | components/Support.py:71-93 | each typed value written reads back, whatever surrounds it |
| Records.StrictAgreesWithLenient | net/Core.py:102-119 | where the strict unpack succeeds, the lenient one reads the same fields |
| Records.ReadLenientEncoded | components/Support.py:83-96 | the lenient unpack of what pack wrote yields the written fields' names and values |
| Records.ReadStrictEncoded | net/Core.py:103-119 | the strict unpack of what pack wrote succeeds with the same fields |
| Records.AppliedEntries | components/Support.py:65-67 | applying the read fields sets each written field and leaves the rest |
| Records.RecordRoundTrip | components/Support.py:71-96 | unpack(pack(x)) == x when every field left off the wire holds its default |
| Records.ConstructEntries | components/Support.py:52-96 | constructing from the written fields rebuilds the record |
| Records.ConstructKeepsDefaults | components/Support.py:87-96 | when unpack stops early, the fields not read keep their defaults |
| Records.GetStatOfConstructed | entities/Support.py:95-97 | get_stat yields 0.0 for a name that is no field, and a field's default when no keyword set it |
| Records.ReadField | components/Support.py:87-95 | one typed read through the iterator, failing without moving the cursor |
| Records.Record.constructor | components/Support.py:52-69 | the attributes are Construct of the schema and the keywords |
| Records.Record.Pack | components/Support.py:71-80 | appends exactly the encoding of every written field, in declaration order |
| Records.UnpackLenient | components/Support.py:83-96 | reads field by field, stops at the first failure, and constructs from what was read |
| Records.UnpackStrict | net/Core.py:103-119 | fails exactly when a read fails, and otherwise constructs from the fields read |
| Records.WithReferences | net/Core.py:63-64 | the declared fields are followed by blueprint and reprocess, both None |
| Records.ReferencesRoundTrip | entities/Support.py:58-93 | for a class ending in the two references, the strict unpack of pack succeeds and rebuilds the record when both references are None |
| ComponentSupport.NothingSkipped | components/Support.py:71-80 | ShipCore, ShipSupport and ShipSystem write every field |
| ComponentSupport.ComponentRoundTrip | components/Support.py:71-96 | unpack(pack(x)) == x for every record of the three classes whose values fit the wire |
| NetCore.FromDict | net/Core.py:73-80 | from_dict builds the same record as the constructor that ignores unknown names |
| NetCore.IntFields | net/Core.py:10-53 | id and maxActiveDrones are the only int fields, so the only Int32 fields |
| NetCore.CoreBodyPlain | net/Core.py:88-96 | every field before the references is written |
| NetCore.CoreRoundTrip | net/Core.py:83-119 | the strict unpack of pack succeeds and rebuilds the record when its references are None |
| EntitySupport.SupportBodyPlain | entities/Support.py:62-67 | every field before the references is written |
| EntitySupport.SupportIntFields | entities/Support.py:8-12 | id and power_usage are the only int fields, so the only Int32 fields |
| EntitySupport.SupportRoundTrip | entities/Support.py:58-93 | unpack(pack(x)) == x for a support module whose references are None |
| ComponentSystem.SystemBodyPlain | components/System.py:61-66 | every field before the references is written |
| ComponentSystem.SystemRoundTrip | components/System.py:57-92 | unpack(pack(x)) == x for a system module whose references are None |
| ComponentSystem.ScaledTwice | components/System.py:96-97 | scaling by 1 + a then by 1 + b is scaling by (1 + a)(1 + b) |
| ComponentSystem.ApplyBonusesFrame | components/System.py:94-97 | completes iff both keys exist; no key added or removed; every other stat unchanged |
| ComponentSystem.ApplyBonusesScales | components/System.py:96-97 | max_velocity is multiplied by 1 + its bonus and agility by 1 + its bonus; on a missing key, the earlier step stays applied |
| ComponentSystem.ZeroBonusesChangeNothing | components/System.py:96-97 | with both bonuses 0 the stats are unchanged |
| ComponentSystem.ApplyBonusesCompose | components/System.py:96-97 | two systems applied in turn act as one with compounded bonuses |
| ComponentSystem.ApplyToShip | components/System.py:94-97 | the dictionary changes in place exactly as ApplyBonuses says |
| Geometry.BoxTopology | utils/geometry_utils.py:19-38 | 8 vertices and 12 triangles; every index is in 0..7, three distinct corners; triangles 2k and 2k + 1 split the quad of face k along a diagonal |
| Geometry.CreateBoxGeom | utils/geometry_utils.py:10-49 | writes the eight corners, the twelve face triangles and, per triangle i, normal i / 2, so both halves of face k get normal k |
| Geometry.RowColumn | utils/geometry_utils.py:69-77 | vertex i * n + j lies in row i, column j |
| Geometry.SphereVertices | utils/geometry_utils.py:69-77 | the vertex loop writes (rows) x (columns) vertices |
| Geometry.SphereVertexAt | utils/geometry_utils.py:69-77 | row i, column j is vertex i * num_lon + j |
| Geometry.Cell | utils/geometry_utils.py:81-84 | a quad emits two triangles, one fewer in band 0 and one fewer in the last band |
| Geometry.CellOk | utils/geometry_utils.py:81-84 | both triangles of a quad are in bounds, non-degenerate, and have at most one vertex on a pole row |
| Geometry.BandOk | utils/geometry_utils.py:80-84 | every triangle of a band is well formed |
| Geometry.BandsOk | utils/geometry_utils.py:79-84 | every triangle of the remaining bands is well formed |
| Geometry.SphereTrianglesOk | utils/geometry_utils.py:67-84 | for at least one segment, every index is below (num_lat + 1) * num_lon and the three indices are distinct; the mesh has (num_lat + 1) * num_lon vertices |
| Geometry.BandCount | utils/geometry_utils.py:80-84 | a band emits num_lon quads of one or two triangles |
| Geometry.BandsCount | utils/geometry_utils.py:79-84 | the inner bands emit two triangles per quad and the last band one |
| Geometry.SphereTriangleCount | utils/geometry_utils.py:79-84 | the sphere has num_lon * (2 * num_lat - 2) triangles |
| Geometry.LastColumnWraps | utils/geometry_utils.py:82 | the last column's quad closes the band through column 0 |
| Geometry.CreateSphereGeom | utils/geometry_utils.py:57-84 | zero segments fails (division by zero); negative gives an empty mesh; otherwise num_lat = n, num_lon = 2n, and the grid vertices and band triangles |
| Geometry.WriteSphereVertices | utils/geometry_utils.py:69-77 | the vertex loop writes SphereVertices |
| Geometry.EmitSphereTriangles | utils/geometry_utils.py:79-84 | the triangle loop emits all the bands in order |
| Geometry.EmitBand | utils/geometry_utils.py:80-84 | the inner loop emits one band's quads, column by column |

## Left out

- Panda3D scene-graph work is not modelled: node reparenting, model and texture loading, collision nodes and rays, and instancing. A system's attachment to the galaxy root is modelled as the `loaded` flag.
- Randomness is a parameter: asteroid counts and positions, random picks, spawn rolls, course corrections and UUID strings.
- Wall-clock time is a parameter: the idle tracker takes the clock reading `now`, and get_active_playtime takes its two readings as `now` and `nowAgain`.
- Stats.GameStats.ResetIdle, Stats.GameStats.Update and Stats.GameStats.ActivePlaytime: accept any clock reading, as the source does. The invariant, the growth of the accumulated idle time and the bounds on the playtime are promised only while the clock does not go backwards. With a backwards reading the source can lower the accumulated idle time, and the model does the same.
- Print logging and the destroyed-ship event message are left out.
- Vector lengths and normalisation are not modelled, because they need square roots.
  - An overview entry's speed and its distance to the player are passed in. The distance is constrained by its square.
  - The course correction is passed in as the new velocity vector.
- The two-decimal text rendering of distances, speeds and angular velocities is left out. A cell records the value and its unit.
- The trigonometric positions and normals of the sphere are not modelled. Each sphere vertex is recorded by its grid point.
- The vertex colours of the box and sphere are not modelled.
- The box writes 12 normals for 8 vertices, one per triangle, as the source does. The model reproduces this and does not judge it.
- Float64 wire values are opaque 64-bit patterns. No IEEE arithmetic is modelled.
- All float arithmetic (hull, shield, credits, xp, bonuses, distances and times) is modelled over exact reals, without IEEE rounding. Ships.Damage, Ships.ShieldAbsorbs, Ships.ShieldHitsAdd, ComponentSystem.ScaledTwice and ComponentSystem.ApplyBonusesCompose hold over reals; over Python floats the loss of a hit or a compounded bonus can differ in the last bits.
- ComponentSystem.ApplyToShip: takes the two bonuses as reals, not from the record's Float64 attributes, because the wire model keeps those as bit patterns.
- The `int()`, `float()` and `str()` coercions in `pack` are not modelled. The round trips require every written value to already have its field's type and to fit the wire: Int32 range, 64-bit pattern, ASCII string shorter than 65536 characters.
- Non-ASCII strings are not modelled. UTF-8 multi-byte encoding is left out, and strings are ASCII only.
- Skills.Skill.BonusValue: models only the 35 bonus attributes. The source tests `hasattr(self, "_" + name)`, which also finds dunder attributes such as `_module__` or `_init__`. There the source returns a repeated string or raises TypeError, where the model gives 0.0.
- Records.GetStatOfConstructed, Records.AppliedIgnoresUnknown, Records.Construct and Records.Record.constructor: cover attribute names only. `hasattr` and `getattr` would also find method and dunder names, so a keyword such as `pack=` is set on the instance by the source and shadows the method, where the model ignores it. NetCore.FromDict is unaffected, since `from_dict` keeps only dataclass fields.
- The dataclass constructor's TypeError for unknown keywords is not modelled. The network `ShipCore` calls it outside `from_dict`, and only the `from_dict` path is modelled.
- Fields named `blueprint` or `reprocess` in the body of a class are not modelled. The model assumes no such field exists besides the two references, which is true of every class here.
- StarSystems.SolarSystem.constructor, StarSystems.Galaxy.constructor, StarSystems.Galaxy.BuildSystems, Generation.GenerationSystem.GenerateCelestial and Generation.GenerationSystem.GenerateSolarSystem: build the evidently intended content. In the source the `Stargate` and `Wreck` constructors call a `load_model` method that neither they nor `Entity` define (only `Ship` has one) (entities/celestial.py:56 and :67), so they raise AttributeError. Every `SolarSystem(...)`, and therefore `Galaxy.__init__`, fails at the first stargate. `generate_celestial` for "Stargate" or "Wreck" fails after the counter bump and the registration. `generate_solar_system` fails at its first stargate.
- StarSystems.SolarSystem.constructor and StarSystems.Galaxy.constructor: the system content is kept as plain values. The source's planet, asteroid and stargate entities also register themselves in the global entity registry under `sys_<i>_planet`, `sys_<i>_ast_<j>` and `sys_<i>_gate`; the model does not touch the registry there.
- Entity.update, look_at, fire_laser, use_tractor_beam, the mining and tractor flags, Ship.load_model, setup_collision and setup_controls are left out. They are scene-graph, input or raycast work.
- `ShipManager.spawn_ships` is left out: it uses `self.game` and `self.ship_master_model`, which the class never defines.
- `setup_ship_visuals`, `spawn_player` and `load_master_model` are left out: they only attach models. The master model is a boolean.
- The first `generate_solar_system` and `spawn_debris` are left out. The first definition is replaced by the second, and `spawn_debris` uses a class that is not part of this model.
- The UI widgets, scrolling and window layout are left out. So are the market and inventory refresh calls of `add_item` and `buy_item`.
- Sockets, connection management, `connect`, `send` and `network_task` are left out. The server's client list is a sequence of connection ids, and the relay is recorded rather than sent.
- Protocol.GameClient.ProcessMsg: a read past the end stops the handler with no effect. In the source the exception propagates to the caller.
- Ship components other than engines and shields are left out. The source imports `Engine`, `Shield` and `Cargo` from a module that does not define them, so a shield is modelled as a record of capacity and recharge rate, and their `on_mount` hook, called by `mount_component`, is not modelled.
- Ships.Ship.Update: covers only the shield regeneration. The laser and tractor handling of a local ship is left out.
- StarSystems.Galaxy.WarpRandom: the random choice is the `pick` index into the candidate list.
- Integer widths: the model's integers are unbounded. Only the wire fields' ranges are stated, for Int32, Uint16 and Uint8.

=== FILE: common.dfy ===
/**
 * Helpers shared by the whole model: an Option type for Python's None, a
 * three-component vector over reals (Panda3D's Vec3), and the decimal
 * rendering of a natural number that f-strings such as "CELESTIAL_{n}" use.
 */
module Common {

  datatype Option<T> = None | Some(value: T)

  /** Panda3D Vec3, with real components. */
  datatype Vec3 = Vec3(x: real, y: real, z: real)

  const Origin: Vec3 := Vec3(0.0, 0.0, 0.0)

  function Plus(a: Vec3, b: Vec3): (r: Vec3)
    ensures r.x - a.x == b.x && r.y - a.y == b.y && r.z - a.z == b.z
  {
    Vec3(a.x + b.x, a.y + b.y, a.z + b.z)
  }

  function Minus(a: Vec3, b: Vec3): (r: Vec3)
    ensures Plus(r, b) == a
  {
    Vec3(a.x - b.x, a.y - b.y, a.z - b.z)
  }

  function Scale(a: Vec3, k: real): (r: Vec3)
    ensures k == 0.0 ==> r == Origin
    ensures k == 1.0 ==> r == a
  {
    Vec3(a.x * k, a.y * k, a.z * k)
  }

  /** Squared Euclidean length, Vec3.lengthSquared(). */
  function LengthSquared(a: Vec3): (r: real)
    ensures r >= 0.0
    ensures a == Origin ==> r == 0.0
  {
    a.x * a.x + a.y * a.y + a.z * a.z
  }

  // ---------------------------------------------------------------------------
  // Decimal rendering of naturals (Python's str(n) for n >= 0)
  // ---------------------------------------------------------------------------

  predicate IsDigit(c: char) { '0' as int <= c as int <= '9' as int }

  function DigitChar(d: nat): (c: char)
    requires d < 10
    ensures IsDigit(c) && (c as int) - ('0' as int) == d
  {
    ['0', '1', '2', '3', '4', '5', '6', '7', '8', '9'][d]
  }

  function NatToString(n: nat): (s: string)
    ensures |s| >= 1
  {
    if n < 10 then [DigitChar(n)] else NatToString(n / 10) + [DigitChar(n % 10)]
  }

  /** Reads a string of decimal digits back, most significant digit first. */
  function ParseDigits(s: string): int
  {
    if s == [] then 0
    else ParseDigits(s[..|s| - 1]) * 10 + ((s[|s| - 1] as int) - ('0' as int))
  }

  lemma {:induction false} ParseNatToString(n: nat)
    ensures ParseDigits(NatToString(n)) == n
  {
    var s := NatToString(n);
    if n >= 10 {
      ParseNatToString(n / 10);
      assert s[..|s| - 1] == NatToString(n / 10);
    }
  }

  /** Distinct numbers render as distinct strings. */
  lemma NatToStringInjective(m: nat, n: nat)
    requires NatToString(m) == NatToString(n)
    ensures m == n
  {
    ParseNatToString(m);
    ParseNatToString(n);
  }

  /** Distinct numbers behind the same prefix render as distinct strings. */
  lemma PrefixedNatInjective(prefix: string, m: nat, n: nat)
    requires prefix + NatToString(m) == prefix + NatToString(n)
    ensures m == n
  {
    var a, b := prefix + NatToString(m), prefix + NatToString(n);
    assert a[|prefix|..] == NatToString(m);
    assert b[|prefix|..] == NatToString(n);
    NatToStringInjective(m, n);
  }

  /** Arithmetic behind index grids and rings: a product grows with its factor. */
  lemma MulAtLeast(n: nat, x: int)
    requires x >= 1
    ensures n * x >= n
  {
    assert n * x == n * (x - 1) + n;
    if x > 1 { MulAtLeast(n, x - 1); }
  }

  /** Quotient and remainder are unique. */
  lemma ModUnique(a: int, n: nat, q: int, r: int)
    requires n > 0 && 0 <= r < n && a == n * q + r
    ensures a / n == q && a % n == r
  {
    var q', r' := a / n, a % n;
    assert n * q + r == n * q' + r';
    assert n * (q - q') == r' - r;
    if q - q' >= 1 {
      MulAtLeast(n, q - q');
    } else if q' - q >= 1 {
      MulAtLeast(n, q' - q);
    }
  }
}

=== FILE: component_support.dfy ===
/**
 * The three equipment classes of the components package (ShipCore,
 * ShipSupport, ShipSystem): declared fields with defaults, the constructor
 * that warns about and ignores unknown names, pack over every field, and the
 * lenient unpack that stops at the first failed read.
 */
module ComponentSupport {
  import opened Wire
  import opened Records

  /** These classes skip no field by name. */
  const NoSkip: set<string> := {}

  const ShipCoreSchema: Schema :=
    [ Field("id", IntField, IntV(-1)),
      Field("name", StrField, StrV("Ismeretlen Mag")),
      Field("description", StrField, StrV("")),
      Field("slot_type", StrField, StrV("Core")) ]
    + FloatFields([
      "dmgPlasmaCannon", "dmgMissileLauncher", "dmgRailgun", "dmgIonBlaster", "dmgDroneSwarm",
      "dmgEmpEmitter", "dmgQuantumTorpedo", "dmgSmartbomb", "dmgNaniteRepairBeam",
      "resPlasmaCannon", "resMissileLauncher", "resRailgun", "resIonBlaster", "resDroneSwarm",
      "resEmpEmitter", "resQuantumTorpedo", "resShieldGenerator", "resNaniteRepairBeam",
      "shipAgility", "shipMaxVelocity", "warpDriveStrength", "jumpDriveConsumption",
      "capacitorCapacity", "capacitorRechargeRate", "moduleCPUReduction", "modulePowergridReduction",
      "droneDamageBonus", "miningLaserYield"])

  const ShipSupportSchema: Schema :=
    [ Field("id", IntField, IntV(-1)),
      Field("name", StrField, StrV("Ismeretlen Support Modul")),
      Field("description", StrField, StrV("")),
      Field("slot_type", StrField, StrV("Support")) ]
    + FloatFields([
      "shieldBoostAmount", "armorRepairRate", "hullIntegrityBonus", "sensorRangeBonus",
      "signatureRadiusReduction"])

  const ShipSystemSchema: Schema :=
    [ Field("id", IntField, IntV(-1)),
      Field("name", StrField, StrV("Ismeretlen Rendszer")),
      Field("description", StrField, StrV("")),
      Field("slot_type", StrField, StrV("System")) ]
    + FloatFields([
      "cpuOutputBonus", "powergridOutputBonus", "targetingSpeedBonus", "scanResolutionBonus",
      "warpSpeedBonus"])

  /** Whether a schema is one of this file's three classes. */
  predicate IsComponentSchema(schema: Schema)
  {
    schema == ShipCoreSchema || schema == ShipSupportSchema || schema == ShipSystemSchema
  }

  /** Every field of the three classes is an int, a float or a string: pack writes all of them. */
  lemma {:induction false} NothingSkipped(schema: Schema)
    requires IsComponentSchema(schema)
    ensures forall i :: 0 <= i < |schema| ==> !Skipped(schema[i], NoSkip)
  {
    var header := schema[..4];
    assert forall i :: 0 <= i < 4 ==> header[i].kind != RefField;
    assert forall i :: 4 <= i < |schema| ==> schema[i].kind == FloatField;
  }

  /**
   * unpack(pack(x)) == x for every record of the three classes whose
   * values fit the wire: no premise about skipped fields is needed.
   */
  lemma ComponentRoundTrip(schema: Schema, attrs: Attrs, prefix: seq<byte>, rest: seq<byte>)
    requires IsComponentSchema(schema)
    requires Fits(schema, attrs, NoSkip) && attrs.Keys == Defaults(schema).Keys
    ensures Construct(schema, ReadLenientFrom(schema, prefix + EncodedFrom(schema, attrs, NoSkip, 0) + rest, NoSkip, |prefix|, 0)) == attrs
  {
    NothingSkipped(schema);
    RecordRoundTrip(schema, attrs, NoSkip, prefix, rest);
  }
}

=== FILE: component_system.dfy ===
/**
 * The components package's ShipSystem record: five general fields,
 * fourteen float bonuses and the two object references, packed and
 * unpacked like the other network records, and apply_to_ship, which scales
 * two entries of a ship's stat dictionary in place.
 */
module ComponentSystem {
  import opened Wire
  import opened Records

  /** The general information fields. */
  const SystemInfo: Schema := [
      Field("id", IntField, IntV(-1)),
      Field("name", StrField, StrV("")),
      Field("description", StrField, StrV("")),
      Field("rarity", StrField, StrV("Common")),
      Field("power_usage", IntField, IntV(0)) ]

  /** The bonuses: propulsion, capacitor, efficiency and survivability. */
  const SystemFloats: seq<string> := [
      "shipAgility", "shipMaxVelocity", "warpDriveStrength", "jumpDriveConsumption",
      "cloakingDeviceDuration", "capacitorCapacity", "capacitorRechargeRate", "energyEfficiency",
      "moduleCPUReduction", "modulePowergridReduction", "sensorRangeBonus", "sensorStrengthBonus",
      "signatureRadiusReduction", "electronicWarfareResistance"]

  /** The written fields, in declaration order. */
  const SystemBody: Schema := SystemInfo + FloatFields(SystemFloats)

  const SystemSchema: Schema := WithReferences(SystemBody)

  /** Every field before the references is written: none is a reference or carries a reference's name. */
  lemma SystemBodyPlain()
    ensures PlainFields(SystemBody)
  {
    var k := 0;
    while k < |SystemFloats|
      invariant k <= |SystemFloats|
      invariant forall i :: 0 <= i < k ==> SystemFloats[i] !in ReferenceNames
    {
      assert |SystemFloats[k]| != 9;
      k := k + 1;
    }
    PlainFloatFields(SystemFloats);
    assert PlainFields(SystemInfo);
    PlainConcat(SystemInfo, FloatFields(SystemFloats));
  }

  /**
   * unpack(pack(x)) == x: the strict unpack of what pack wrote succeeds and
   * rebuilds the record, provided its references are None.
   */
  lemma SystemRoundTrip(attrs: Attrs, prefix: seq<byte>, rest: seq<byte>)
    requires Fits(SystemSchema, attrs, ReferenceNames) && attrs.Keys == Defaults(SystemSchema).Keys
    requires "blueprint" in attrs && attrs["blueprint"] == NoneV
    requires "reprocess" in attrs && attrs["reprocess"] == NoneV
    ensures ReadStrictFrom(SystemSchema, prefix + EncodedFrom(SystemSchema, attrs, ReferenceNames, 0) + rest, ReferenceNames, |prefix|, 0).Some?
    ensures Construct(SystemSchema, ReadStrictFrom(SystemSchema, prefix + EncodedFrom(SystemSchema, attrs, ReferenceNames, 0) + rest,
      ReferenceNames, |prefix|, 0).value) == attrs
  {
    SystemBodyPlain();
    ReferencesRoundTrip(SystemBody, attrs, prefix, rest);
  }

  // ---- apply_to_ship ----

  /** A ship's stats, by name. */
  type ShipStats = map<string, real>

  /** The outcome of apply_to_ship: the stats afterwards, and whether it ran to the end (no KeyError). */
  datatype BonusOutcome = BonusOutcome(stats: ShipStats, complete: bool)

  /** A stat multiplied by one plus a bonus. */
  function Scaled(x: real, bonus: real): real
  {
    x * (1.0 + bonus)
  }

  /** Scaling twice is scaling once by the compounded bonus (1 + a)(1 + b) - 1. */
  lemma ScaledTwice(x: real, a: real, b: real)
    ensures Scaled(Scaled(x, a), b) == Scaled(x, (1.0 + a) * (1.0 + b) - 1.0)
  {
    assert x * (1.0 + a) * (1.0 + b) == x * ((1.0 + a) * (1.0 + b));
  }

  /**
   * apply_to_ship: max_velocity is scaled by 1 + shipMaxVelocity, then
   * agility by 1 + shipAgility. A missing key raises at that step, keeping
   * whatever the earlier step already changed.
   */
  function ApplyBonuses(stats: ShipStats, maxVelocityBonus: real, agilityBonus: real): (r: BonusOutcome)
  {
    if "max_velocity" !in stats then BonusOutcome(stats, false)
    else
      var s := stats["max_velocity" := Scaled(stats["max_velocity"], maxVelocityBonus)];
      if "agility" !in s then BonusOutcome(s, false)
      else BonusOutcome(s["agility" := Scaled(s["agility"], agilityBonus)], true)
  }

  /**
   * apply_to_ship completes exactly when both keys are present; it adds and
   * removes no key and leaves every other stat alone.
   */
  lemma ApplyBonusesFrame(stats: ShipStats, maxVelocityBonus: real, agilityBonus: real)
    ensures ApplyBonuses(stats, maxVelocityBonus, agilityBonus).complete <==> "max_velocity" in stats && "agility" in stats
    ensures ApplyBonuses(stats, maxVelocityBonus, agilityBonus).stats.Keys == stats.Keys
    ensures forall n :: n in stats && n != "max_velocity" && n != "agility" ==>
      ApplyBonuses(stats, maxVelocityBonus, agilityBonus).stats[n] == stats[n]
  {
  }

  /**
   * On completion each of the two stats is multiplied by one plus its
   * bonus; on a KeyError for agility, max_velocity is already scaled; on one
   * for max_velocity nothing has changed.
   */
  lemma ApplyBonusesScales(stats: ShipStats, maxVelocityBonus: real, agilityBonus: real)
    ensures "max_velocity" in stats ==>
      ApplyBonuses(stats, maxVelocityBonus, agilityBonus).stats["max_velocity"] == Scaled(stats["max_velocity"], maxVelocityBonus)
    ensures "agility" in stats && "max_velocity" in stats ==>
      ApplyBonuses(stats, maxVelocityBonus, agilityBonus).stats["agility"] == Scaled(stats["agility"], agilityBonus)
    ensures "max_velocity" !in stats ==> ApplyBonuses(stats, maxVelocityBonus, agilityBonus).stats == stats
  {
    assert "agility" != "max_velocity" by { assert |"agility"| != |"max_velocity"|; }
  }

  /** Zero bonuses leave the stats as they were. */
  lemma ZeroBonusesChangeNothing(stats: ShipStats)
    ensures ApplyBonuses(stats, 0.0, 0.0).stats == stats
  {
  }

  /**
   * Two systems applied one after the other act like one system whose
   * bonuses compound: (1 + a)(1 + b) - 1.
   */
  lemma ApplyBonusesCompose(stats: ShipStats, v1: real, a1: real, v2: real, a2: real)
    requires "max_velocity" in stats && "agility" in stats
    ensures ApplyBonuses(ApplyBonuses(stats, v1, a1).stats, v2, a2) ==
      ApplyBonuses(stats, (1.0 + v1) * (1.0 + v2) - 1.0, (1.0 + a1) * (1.0 + a2) - 1.0)
  {
    var mv, ag := stats["max_velocity"], stats["agility"];
    assert "agility" != "max_velocity" by { assert |"agility"| != |"max_velocity"|; }
    var cv, ca := (1.0 + v1) * (1.0 + v2) - 1.0, (1.0 + a1) * (1.0 + a2) - 1.0;
    ScaledTwice(mv, v1, v2);
    ScaledTwice(ag, a1, a2);
    var once := stats["max_velocity" := Scaled(mv, v1)]["agility" := Scaled(ag, a1)];
    assert ApplyBonuses(stats, v1, a1).stats == once;
    assert ApplyBonuses(once, v2, a2).stats == stats["max_velocity" := Scaled(mv, cv)]["agility" := Scaled(ag, ca)];
  }

  /** A ship's stat dictionary, updated in place. */
  class StatsDict {
    var entries: ShipStats

    constructor (entries: ShipStats)
      ensures this.entries == entries
    {
      this.entries := entries;
    }
  }

  /**
   * apply_to_ship on a dictionary: the two multiplications in place, in
   * source order; the result says whether it ran to the end or raised.
   */
  method ApplyToShip(shipStats: StatsDict, maxVelocityBonus: real, agilityBonus: real) returns (complete: bool)
    modifies shipStats
    ensures shipStats.entries == ApplyBonuses(old(shipStats.entries), maxVelocityBonus, agilityBonus).stats
    ensures complete == ApplyBonuses(old(shipStats.entries), maxVelocityBonus, agilityBonus).complete
  {
    assert "agility" != "max_velocity" by { assert |"agility"| != |"max_velocity"|; }
    if "max_velocity" !in shipStats.entries {
      return false;
    }
    shipStats.entries := shipStats.entries["max_velocity" := Scaled(shipStats.entries["max_velocity"], maxVelocityBonus)];
    if "agility" !in shipStats.entries {
      return false;
    }
    shipStats.entries := shipStats.entries["agility" := Scaled(shipStats.entries["agility"], agilityBonus)];
    complete := true;
  }
}

=== FILE: entity.dfy ===
/**
 * The entity base class and the process-wide entity registry.
 *
 * The registry (a global dict keyed by entity id) is modelled as an explicit
 * `World` object that every entity holds a reference to. An entity registers
 * itself under its id when it is constructed and removes that id when it is
 * destroyed.
 */
module Entities {
  import opened Common

  /**
   * Ids as the program uses them: ships use integer ids, everything else
   * strings, and a missing id is None.
   */
  datatype EntityId = NoId | IntId(n: int) | StrId(s: string)

  /** Python truthiness of an id: None, 0 and "" are falsy. */
  predicate Falsy(id: EntityId)
  {
    id == NoId || id == IntId(0) || id == StrId("")
  }

  /** The closed set of celestial classes the generators can instantiate. */
  datatype CelestialKind = Asteroid | Wreck | Stargate | Planet

  /** The entity_type tag, as a closed variant. */
  datatype EntityKind = Static | ShipKind | Celestial(celestial: CelestialKind)

  /**
   * The id an entity ends up with: the given one when it is truthy, otherwise
   * the fresh UUID string (which is never empty).
   */
  function ResolveId(given: EntityId, uuid: string): (r: EntityId)
    requires uuid != ""
    ensures !Falsy(r)
    ensures !Falsy(given) ==> r == given
    ensures Falsy(given) ==> r == StrId(uuid)
  {
    if Falsy(given) then StrId(uuid) else given
  }

  /** Removing an id from the registry, whoever owns it now. */
  function Unregister(m: map<EntityId, Entity>, id: EntityId): (r: map<EntityId, Entity>)
    ensures id !in r
    ensures forall k :: k in r <==> k in m && k != id
    ensures forall k :: k in r ==> r[k] == m[k]
  {
    m - {id}
  }

  /** Removing an id twice is the same as removing it once. */
  lemma UnregisterIdempotent(m: map<EntityId, Entity>, id: EntityId)
    ensures Unregister(Unregister(m, id), id) == Unregister(m, id)
  {
  }

  /** Registering and then destroying the same id leaves every other id as it was. */
  lemma RegisterThenUnregister(m: map<EntityId, Entity>, id: EntityId, e: Entity)
    ensures Unregister(m[id := e], id) == Unregister(m, id)
  {
  }

  class World {
    /** The global ENTITIES dict. */
    var entities: map<EntityId, Entity>

    /** Every entry is filed under its own id and belongs to this world. */
    ghost predicate Valid()
      reads this
    {
      forall k :: k in entities ==> entities[k].id == k && entities[k].world == this
    }

    constructor ()
      ensures entities == map[] && Valid()
    {
      entities := map[];
    }
  }

  class Entity {
    const id: EntityId
    const world: World
    const name: string
    const kind: EntityKind
    var isActive: bool
    /** Whether the scene-graph root NodePath still exists (root is not None). */
    var hasRoot: bool
    var pos: Vec3
    var hpr: Vec3
    var maxHull: real
    var currentHull: real

    /**
     * Entity.__init__: resolves the id, starts active with 100/100 hull and
     * registers itself, replacing any entity filed under the same id.
     */
    constructor (world: World, entityId: EntityId, uuid: string, name: string, kind: EntityKind)
      requires uuid != ""
      modifies world
      ensures this.id == ResolveId(entityId, uuid) && this.world == world
      ensures this.name == name && this.kind == kind
      ensures isActive && hasRoot && pos == Origin && hpr == Origin
      ensures maxHull == 100.0 && currentHull == 100.0
      ensures world.entities == old(world.entities)[this.id := this]
      ensures old(world.Valid()) ==> world.Valid()
    {
      this.id := ResolveId(entityId, uuid);
      this.world := world;
      this.name := name;
      this.kind := kind;
      isActive := true;
      hasRoot := true;
      pos, hpr := Origin, Origin;
      maxHull, currentHull := 100.0, 100.0;
      new;
      world.entities := world.entities[this.id := this];
    }

    /**
     * Entity.destroy: drops the id from the registry (even when another entity
     * now owns that id), deactivates and releases the root.
     */
    method Destroy()
      modifies this, world
      ensures world.entities == Unregister(old(world.entities), id)
      ensures !isActive && !hasRoot
      ensures pos == old(pos) && hpr == old(hpr)
      ensures maxHull == old(maxHull) && currentHull == old(currentHull)
      ensures old(world.Valid()) ==> world.Valid()
    {
      if id in world.entities {
        world.entities := world.entities - {id};
      }
      isActive := false;
      if hasRoot {
        hasRoot := false;
      }
    }

    /** get_pos: the root's position, or the zero vector once destroyed. */
    method GetPos() returns (p: Vec3)
      ensures hasRoot ==> p == pos
      ensures !hasRoot ==> p == Origin
    {
      if hasRoot {
        p := pos;
      } else {
        p := Origin;
      }
    }

    /** set_pos: moves the root; a no-op once destroyed. */
    method SetPos(p: Vec3)
      modifies this
      ensures pos == (if old(hasRoot) then p else old(pos))
      ensures hasRoot == old(hasRoot) && isActive == old(isActive) && hpr == old(hpr)
      ensures maxHull == old(maxHull) && currentHull == old(currentHull)
    {
      if hasRoot {
        pos := p;
      }
    }

    /** get_hpr: the root's orientation, or the zero vector once destroyed. */
    method GetHpr() returns (r: Vec3)
      ensures hasRoot ==> r == hpr
      ensures !hasRoot ==> r == Origin
    {
      if hasRoot {
        r := hpr;
      } else {
        r := Origin;
      }
    }
  }

  /** A second destroy removes nothing more and leaves the entity destroyed. */
  method DestroyTwice(e: Entity)
    modifies e, e.world
    ensures e.world.entities == Unregister(old(e.world.entities), e.id)
    ensures !e.isActive && !e.hasRoot
  {
    e.Destroy();
    e.Destroy();
    UnregisterIdempotent(old(e.world.entities), e.id);
  }
}

=== FILE: entity_support.dfy ===
/**
 * The entities package's ShipSupport record: five general fields, sixteen
 * float bonuses and the two object references; pack leaves the references
 * out by name, unpack reads the rest with no error handling, and get_stat
 * reads an attribute with 0.0 as the fallback.
 */
module EntitySupport {
  import opened Wire
  import opened Records

  /** The general information fields. */
  const SupportInfo: Schema := [
      Field("id", IntField, IntV(-1)),
      Field("name", StrField, StrV("")),
      Field("description", StrField, StrV("")),
      Field("rarity", StrField, StrV("Common")),
      Field("power_usage", IntField, IntV(0)) ]

  /** The bonuses: repair, capacitor, fleet utility and logistics. */
  const SupportFloats: seq<string> := [
      "naniteRepairBeamStrength", "repairSystemCycleTime", "armorRepairAmount", "shieldBoostAmount",
      "hullRepairAmount", "energyTransferArrayStrength", "capacitorCapacityBonus",
      "capacitorRechargeRateBonus", "targetPainterStrength", "weaponDisablerStrength",
      "sensorBoostBonus", "signatureRadiusReduction", "trackingSpeedBonus", "cargoCapacityBonus",
      "courierMissionPayoutBonus", "fleetLogisticsRange"]

  /** The written fields, in declaration order. */
  const SupportBody: Schema := SupportInfo + FloatFields(SupportFloats)

  const SupportSchema: Schema := WithReferences(SupportBody)

  /** Every field before the references is written: none is a reference or carries a reference's name. */
  lemma SupportBodyPlain()
    ensures PlainFields(SupportBody)
  {
    var k := 0;
    while k < |SupportFloats|
      invariant k <= |SupportFloats|
      invariant forall i :: 0 <= i < k ==> SupportFloats[i] !in ReferenceNames
    {
      assert |SupportFloats[k]| != 9;
      k := k + 1;
    }
    PlainFloatFields(SupportFloats);
    assert PlainFields(SupportInfo);
    PlainConcat(SupportInfo, FloatFields(SupportFloats));
  }

  /** pack writes the two ints (id, power_usage) as Int32 and nothing else as an int. */
  lemma SupportIntFields()
    ensures forall i :: 0 <= i < |SupportSchema| && SupportSchema[i].kind == IntField ==>
      SupportSchema[i].name == "id" || SupportSchema[i].name == "power_usage"
    ensures SupportSchema[0] == Field("id", IntField, IntV(-1))
    ensures SupportSchema[4] == Field("power_usage", IntField, IntV(0))
  {
    assert forall i :: 5 <= i < |SupportBody| ==> SupportBody[i].kind == FloatField;
    assert forall i :: 0 <= i < |SupportBody| ==> SupportSchema[i] == SupportBody[i];
  }

  /**
   * unpack(pack(x)) == x: the strict unpack of what pack wrote succeeds and
   * rebuilds the record, provided its references are None.
   */
  lemma SupportRoundTrip(attrs: Attrs, prefix: seq<byte>, rest: seq<byte>)
    requires Fits(SupportSchema, attrs, ReferenceNames) && attrs.Keys == Defaults(SupportSchema).Keys
    requires "blueprint" in attrs && attrs["blueprint"] == NoneV
    requires "reprocess" in attrs && attrs["reprocess"] == NoneV
    ensures ReadStrictFrom(SupportSchema, prefix + EncodedFrom(SupportSchema, attrs, ReferenceNames, 0) + rest, ReferenceNames, |prefix|, 0).Some?
    ensures Construct(SupportSchema, ReadStrictFrom(SupportSchema, prefix + EncodedFrom(SupportSchema, attrs, ReferenceNames, 0) + rest,
      ReferenceNames, |prefix|, 0).value) == attrs
  {
    SupportBodyPlain();
    ReferencesRoundTrip(SupportBody, attrs, prefix, rest);
  }
}

=== FILE: galaxy.dfy ===
/**
 * The star-system streaming state machine.
 *
 * A solar system is attached to the scene (loaded) only while players are in
 * it: it keeps a player counter and a load flag, and entering, leaving, loading
 * and unloading keep `loaded == (count > 0)`. The galaxy holds 100 systems whose
 * stargates form a directed ring, and warps the player between them.
 *
 * Each operation is specified by a pure function on an `Occupancy` value; the
 * class methods are proved to apply exactly that function to their fields.
 */
module StarSystems {
  import opened Common
  import opened Entities

  // ---------------------------------------------------------------------------
  // Occupancy: the player counter and the load flag of one system
  // ---------------------------------------------------------------------------

  datatype Occupancy = Occupancy(count: int, loaded: bool)

  /** The state of a freshly built system: no players, not attached. */
  const Fresh: Occupancy := Occupancy(0, false)

  /** The streaming invariant: attached exactly while someone is inside. */
  predicate Consistent(o: Occupancy)
  {
    o.count >= 0 && o.loaded == (o.count > 0)
  }

  /** load: attaches an unloaded system; a loaded one is left alone. */
  function Loaded(o: Occupancy): (r: Occupancy)
    ensures r.loaded && r.count == o.count
    ensures o.loaded ==> r == o
  {
    if !o.loaded then o.(loaded := true) else o
  }

  /** unload: detaches a loaded system; an unloaded one is left alone. */
  function Unloaded(o: Occupancy): (r: Occupancy)
    ensures !r.loaded && r.count == o.count
    ensures !o.loaded ==> r == o
  {
    if o.loaded then o.(loaded := false) else o
  }

  /** player_entered: one more player, and the system is loaded afterwards. */
  function AfterEnter(o: Occupancy): (r: Occupancy)
    ensures r.count == o.count + 1
    ensures r.loaded
  {
    var bumped := o.(count := o.count + 1);
    if !bumped.loaded then Loaded(bumped) else bumped
  }

  /**
   * player_left: one player fewer; a result at or below zero is clamped to
   * zero and the system is unloaded, so the counter is never negative.
   */
  function AfterLeave(o: Occupancy): (r: Occupancy)
    ensures r.count >= 0
    ensures o.count - 1 <= 0 ==> r == Occupancy(0, false)
    ensures o.count - 1 > 0 ==> r == Occupancy(o.count - 1, o.loaded)
  {
    var dropped := o.(count := o.count - 1);
    if dropped.count <= 0 then Unloaded(dropped.(count := 0)) else dropped
  }

  /** Loading twice is loading once. */
  lemma LoadIdempotent(o: Occupancy)
    ensures Loaded(Loaded(o)) == Loaded(o)
  {
  }

  /** Unloading twice is unloading once. */
  lemma UnloadIdempotent(o: Occupancy)
    ensures Unloaded(Unloaded(o)) == Unloaded(o)
  {
  }

  /** Entering and then leaving again restores a consistent state exactly. */
  lemma EnterThenLeave(o: Occupancy)
    requires Consistent(o)
    ensures AfterLeave(AfterEnter(o)) == o
  {
  }

  /** The calls a system receives from the galaxy. */
  datatype Visit = Enter | Leave

  /** The state after a sequence of player_entered / player_left calls. */
  function Run(o: Occupancy, visits: seq<Visit>): Occupancy
  {
    if visits == [] then o
    else
      var last := visits[|visits| - 1];
      var before := Run(o, visits[..|visits| - 1]);
      if last == Enter then AfterEnter(before) else AfterLeave(before)
  }

  /** Every enter / leave call keeps the streaming invariant. */
  lemma {:induction false} RunKeepsConsistent(o: Occupancy, visits: seq<Visit>)
    requires Consistent(o)
    ensures Consistent(Run(o, visits))
  {
    if visits != [] {
      RunKeepsConsistent(o, visits[..|visits| - 1]);
    }
  }

  /**
   * From a fresh system, after every call of any sequence of enter / leave
   * calls, the system is loaded exactly when its counter is positive, and the
   * counter is never negative.
   */
  lemma FreshRunConsistent(visits: seq<Visit>, k: nat)
    requires k <= |visits|
    ensures Consistent(Run(Fresh, visits[..k]))
    ensures Run(Fresh, visits[..k]).count >= 0
  {
    RunKeepsConsistent(Fresh, visits[..k]);
  }

  /** The counter equals the enters minus the leaves, as long as no leave hits zero. */
  function Balance(visits: seq<Visit>): int
  {
    if visits == [] then 0
    else Balance(visits[..|visits| - 1]) + (if visits[|visits| - 1] == Enter then 1 else -1)
  }

  lemma {:induction false} RunCountsBalance(visits: seq<Visit>)
    requires forall k :: 0 <= k <= |visits| ==> Balance(visits[..k]) >= 0
    ensures Run(Fresh, visits).count == Balance(visits)
  {
    if visits != [] {
      var init := visits[..|visits| - 1];
      assert forall k :: 0 <= k <= |init| ==> init[..k] == visits[..k];
      RunCountsBalance(init);
      assert visits[..|visits|] == visits;
    }
  }

  // ---------------------------------------------------------------------------
  // System content
  // ---------------------------------------------------------------------------

  /** One generated body: its entity id and its celestial class. */
  datatype Body = Body(id: string, kind: CelestialKind)

  function SystemPrefix(sid: nat): string { "sys_" + NatToString(sid) + "_" }

  function PlanetBodyId(sid: nat): string { SystemPrefix(sid) + "planet" }

  function AsteroidBodyId(sid: nat, i: nat): string { SystemPrefix(sid) + "ast_" + NatToString(i) }

  function GateBodyId(sid: nat): string { SystemPrefix(sid) + "gate" }

  /** Where the stargate is put in every system. */
  const GatePosition: Vec3 := Vec3(250.0, 0.0, 0.0)

  /** How far from the gate a warped player is placed. */
  const ArrivalOffset: Vec3 := Vec3(30.0, 30.0, 0.0)

  /** The asteroids sys_{sid}_ast_0 .. sys_{sid}_ast_{n-1}, in order. */
  function AsteroidBelt(sid: nat, n: nat): (r: seq<Body>)
    ensures |r| == n
    ensures forall i :: 0 <= i < n ==> r[i] == Body(AsteroidBodyId(sid, i), Asteroid)
  {
    if n == 0 then [] else AsteroidBelt(sid, n - 1) + [Body(AsteroidBodyId(sid, n - 1), Asteroid)]
  }

  /** _generate_content: the planet, then n asteroids, then the stargate. */
  function SystemContent(sid: nat, n: nat): seq<Body>
  {
    [Body(PlanetBodyId(sid), Planet)] + AsteroidBelt(sid, n) + [Body(GateBodyId(sid), Stargate)]
  }

  /** The content has one planet first, one stargate last and asteroids between. */
  lemma ContentShape(sid: nat, n: nat)
    ensures |SystemContent(sid, n)| == n + 2
    ensures SystemContent(sid, n)[0].kind == Planet
    ensures SystemContent(sid, n)[n + 1].kind == Stargate
    ensures forall i :: 1 <= i <= n ==> SystemContent(sid, n)[i].kind == Asteroid
  {
  }

  /** The three kinds of id in one system never coincide, and asteroid ids are distinct. */
  lemma BodyIdsDiffer(sid: nat, n: nat, i: nat, j: nat)
    requires i < j < n + 2
    ensures SystemContent(sid, n)[i].id != SystemContent(sid, n)[j].id
  {
    var c := SystemContent(sid, n);
    var p := SystemPrefix(sid);
    var a := c[i].id;
    var b := c[j].id;
    if i == 0 {
      assert a[|p|] == 'p';
      assert b[|p|] == (if j == n + 1 then 'g' else 'a');
    } else if j == n + 1 {
      assert a[|p|] == 'a';
      assert b[|p|] == 'g';
    } else {
      var q := p + "ast_";
      assert a == q + NatToString(i - 1);
      assert b == q + NatToString(j - 1);
      if a == b {
        PrefixedNatInjective(q, i - 1, j - 1);
      }
    }
  }

  /** No two bodies of a system share an entity id. */
  lemma ContentIdsDistinct(sid: nat, n: nat)
    ensures forall i, j :: 0 <= i < j < |SystemContent(sid, n)| ==>
      SystemContent(sid, n)[i].id != SystemContent(sid, n)[j].id
  {
    forall i, j | 0 <= i < j < |SystemContent(sid, n)|
      ensures SystemContent(sid, n)[i].id != SystemContent(sid, n)[j].id
    {
      BodyIdsDiffer(sid, n, i, j);
    }
  }

  // ---------------------------------------------------------------------------
  // SolarSystem
  // ---------------------------------------------------------------------------

  class SolarSystem {
    const id: nat
    /** The generated bodies, in the order they were appended to `entities`. */
    const content: seq<Body>
    /** The stargate root's position. */
    const gatePos: Vec3
    /** stargate.destination_system_id; not set until the galaxy links the ring. */
    var gateDestination: Option<int>
    var playerCount: int
    /** Whether the system root is attached under the galaxy root. */
    var isLoaded: bool

    function State(): Occupancy
      reads this
    {
      Occupancy(playerCount, isLoaded)
    }

    /**
     * SolarSystem.__init__: unloaded, with no players, and its content
     * generated. The asteroid count is the random draw.
     */
    constructor (sid: nat, asteroidCount: nat)
      requires 20 <= asteroidCount <= 50
      ensures id == sid && State() == Fresh
      ensures content == SystemContent(sid, asteroidCount)
      ensures gatePos == GatePosition && gateDestination == None
    {
      id := sid;
      var bodies := [Body(PlanetBodyId(sid), Planet)];
      var i := 0;
      while i < asteroidCount
        invariant 0 <= i <= asteroidCount
        invariant bodies == [Body(PlanetBodyId(sid), Planet)] + AsteroidBelt(sid, i)
      {
        bodies := bodies + [Body(AsteroidBodyId(sid, i), Asteroid)];
        i := i + 1;
      }
      content := bodies + [Body(GateBodyId(sid), Stargate)];
      gatePos := GatePosition;
      gateDestination := None;
      isLoaded := false;
      playerCount := 0;
    }

    method PlayerEntered()
      modifies this
      ensures State() == AfterEnter(old(State()))
      ensures gateDestination == old(gateDestination)
    {
      playerCount := playerCount + 1;
      if !isLoaded {
        Load();
      }
    }

    method PlayerLeft()
      modifies this
      ensures State() == AfterLeave(old(State()))
      ensures gateDestination == old(gateDestination)
    {
      playerCount := playerCount - 1;
      if playerCount <= 0 {
        playerCount := 0;
        Unload();
      }
    }

    method Load()
      modifies this
      ensures State() == Loaded(old(State()))
      ensures gateDestination == old(gateDestination)
    {
      if !isLoaded {
        isLoaded := true;
      }
    }

    method Unload()
      modifies this
      ensures State() == Unloaded(old(State()))
      ensures gateDestination == old(gateDestination)
    {
      if isLoaded {
        isLoaded := false;
      }
    }
  }

  // ---------------------------------------------------------------------------
  // Galaxy
  // ---------------------------------------------------------------------------

  const SystemCount: nat := 100

  /** The ring link: the gate of the i-th id leads to the next id, wrapping around. */
  function GateTarget(ids: seq<int>, i: nat): int
    requires i < |ids|
  {
    ids[(i + 1) % |ids|]
  }

  /** The system ids 0 .. n-1 in insertion order. */
  function Range(n: nat): (r: seq<int>)
    ensures |r| == n
    ensures forall i :: 0 <= i < n ==> r[i] == i
    ensures forall x :: x in r <==> 0 <= x < n
  {
    if n == 0 then [] else Range(n - 1) + [n - 1]
  }

  lemma ModSmall(a: nat, n: nat)
    requires a < n
    ensures a % n == a
  {
  }
  /** (a mod n) + 1, taken mod n again, is (a + 1) mod n. */
  lemma ModSucc(a: nat, n: nat)
    requires n > 0
    ensures (a % n + 1) % n == (a + 1) % n
  {
    var q, r := a / n, a % n;
    if r + 1 < n {
      ModUnique(a + 1, n, q, r + 1);
      ModSmall(r + 1, n);
    } else {
      assert a + 1 == n * (q + 1) + 0;
      ModUnique(a + 1, n, q + 1, 0);
      ModUnique(r + 1, n, 1, 0);
    }
  }

  /** With ids 0..n-1, system i's gate leads to (i + 1) mod n. */
  lemma RingTargets(n: nat, i: nat)
    requires i < n
    ensures GateTarget(Range(n), i) == (i + 1) % n
    ensures GateTarget(Range(n), i) == if i + 1 == n then 0 else i + 1
  {
  }

  /** Where k gate jumps lead from system s of a ring of n. */
  function Jumps(n: nat, s: nat, k: nat): (r: nat)
    requires s < n
    ensures r < n
  {
    if k == 0 then s else GateTarget(Range(n), Jumps(n, s, k - 1))
  }

  /** k jumps from s land on (s + k) mod n: the ring reaches every system and closes after n jumps. */
  lemma {:induction false} JumpsAround(n: nat, s: nat, k: nat)
    requires s < n
    ensures Jumps(n, s, k) == (s + k) % n
  {
    if k > 0 {
      JumpsAround(n, s, k - 1);
      RingTargets(n, Jumps(n, s, k - 1));
      ModSucc(s + k - 1, n);
    }
  }

  /** Every system is the gate target of exactly one system: its predecessor on the ring. */
  lemma RingIsPermutation(n: nat, t: nat)
    requires t < n
    ensures forall i :: 0 <= i < n && GateTarget(Range(n), i) == t ==> i == (t + n - 1) % n
    ensures GateTarget(Range(n), (t + n - 1) % n) == t
  {
    var p := if t == 0 then n - 1 else t - 1;
    assert (t + n - 1) % n == p by {
      if t > 0 {
        assert t + n - 1 == 1 * n + (t - 1);
      }
    }
    forall i | 0 <= i < n && GateTarget(Range(n), i) == t
      ensures i == p
    {
      RingTargets(n, i);
    }
    RingTargets(n, p);
  }

  /** The ids other than the current one, in the given order (warp_random's list). */
  function Available(ids: seq<int>, current: Option<int>): (r: seq<int>)
    ensures forall x :: x in r <==> x in ids && Some(x) != current
    ensures |r| <= |ids|
  {
    if ids == [] then []
    else (if Some(ids[0]) != current then [ids[0]] else []) + Available(ids[1..], current)
  }

  predicate Distinct(ids: seq<int>)
  {
    forall i, j :: 0 <= i < j < |ids| ==> ids[i] != ids[j]
  }

  /** Among distinct ids, exactly the current one (when listed) is excluded. */
  lemma {:induction false} AvailableCount(ids: seq<int>, current: Option<int>)
    requires Distinct(ids)
    ensures |Available(ids, current)| == |ids| - (if current.Some? && current.value in ids then 1 else 0)
  {
    if ids != [] {
      assert Distinct(ids[1..]);
      AvailableCount(ids[1..], current);
      if current.Some? && current.value == ids[0] {
        assert current.value !in ids[1..];
      }
      assert ids == [ids[0]] + ids[1..];
    }
  }

  /** Range(n) lists its ids once each. */
  lemma RangeDistinct(n: nat)
    ensures Distinct(Range(n))
  {
  }

  /** In a galaxy of n systems, n - 1 other systems are always available. */
  lemma AlwaysAnotherSystem(n: nat, current: Option<int>)
    ensures |Available(Range(n), current)| >= n - 1
  {
    RangeDistinct(n);
    AvailableCount(Range(n), current);
  }

  /** The per-system states after warping from `current` to `target`. */
  function Warped(states: map<int, Occupancy>, current: Option<int>, target: int): (r: map<int, Occupancy>)
    requires target in states
    requires current.Some? ==> current.value in states
    ensures r.Keys == states.Keys
    ensures forall k :: k in states && k != target && Some(k) != current ==> r[k] == states[k]
  {
    var afterLeave := if current.Some? then states[current.value := AfterLeave(states[current.value])] else states;
    afterLeave[target := AfterEnter(afterLeave[target])]
  }

  predicate AllConsistent(states: map<int, Occupancy>)
  {
    forall k :: k in states ==> Consistent(states[k])
  }

  /** Warping keeps every system's streaming invariant. */
  lemma WarpKeepsConsistent(states: map<int, Occupancy>, current: Option<int>, target: int)
    requires target in states
    requires current.Some? ==> current.value in states
    requires AllConsistent(states)
    ensures AllConsistent(Warped(states, current, target))
  {
  }

  /**
   * The single player is in `current` (or nowhere): that system counts one
   * player, every other none.
   */
  predicate PlayerOnlyIn(states: map<int, Occupancy>, current: Option<int>)
  {
    forall k :: k in states ==> states[k] == (if Some(k) == current then Occupancy(1, true) else Fresh)
  }

  /**
   * With one player, a warp leaves exactly the target loaded with one player
   * and every other system unloaded and empty, also when the target is the
   * current system (it is left and entered again).
   */
  lemma WarpMovesPlayer(states: map<int, Occupancy>, current: Option<int>, target: int)
    requires target in states
    requires current.Some? ==> current.value in states
    requires PlayerOnlyIn(states, current)
    ensures PlayerOnlyIn(Warped(states, current, target), Some(target))
  {
    var r := Warped(states, current, target);
    forall k | k in r
      ensures r[k] == (if Some(k) == Some(target) then Occupancy(1, true) else Fresh)
    {
      if k != target && Some(k) == current {
        assert r[k] == AfterLeave(states[k]);
      }
    }
  }

  class Galaxy {
    const systems: map<int, SolarSystem>
    /** The keys of `systems` in insertion order (Python dict order). */
    const order: seq<int>
    var currentSystemId: Option<int>

    ghost predicate Valid()
      reads this, systems.Values
    {
      && (forall k :: k in systems ==> systems[k].id == k && systems[k].gatePos == GatePosition)
      && Distinct(order)
      && (forall k :: k in systems <==> k in order)
      && (forall i :: 0 <= i < |order| ==> order[i] in systems)
      && (currentSystemId.Some? ==> currentSystemId.value in systems)
    }

    /** The occupancy of every system, by id. */
    function States(): map<int, Occupancy>
      reads this, systems.Values
    {
      map k | k in systems :: systems[k].State()
    }

    /**
     * Galaxy.__init__: systems 0..99, all fresh, with no current system; then
     * the gate of the i-th id is linked to the next id, wrapping around. The
     * asteroid counts are the random draws, one per system.
     */
    constructor (asteroidCounts: seq<nat>)
      requires |asteroidCounts| == SystemCount
      requires forall i :: 0 <= i < SystemCount ==> 20 <= asteroidCounts[i] <= 50
      ensures Valid()
      ensures order == Range(SystemCount) && currentSystemId == None
      ensures forall k :: k in systems <==> 0 <= k < SystemCount
      ensures forall i :: 0 <= i < SystemCount ==>
        && systems[i].State() == Fresh
        && systems[i].content == SystemContent(i, asteroidCounts[i])
        && systems[i].gateDestination == Some(GateTarget(order, i))
    {
      var built, ids := BuildSystems(asteroidCounts);
      systems := built;
      order := ids;
      currentSystemId := None;
      new;
      RangeDistinct(SystemCount);
      assert forall s :: s in systems.Values ==> fresh(s);
      LinkGates();
    }

    /** The first loop of Galaxy.__init__: system i for every i in 0..99, inserted in order. */
    static method BuildSystems(asteroidCounts: seq<nat>) returns (built: map<int, SolarSystem>, ids: seq<int>)
      requires |asteroidCounts| == SystemCount
      requires forall i :: 0 <= i < SystemCount ==> 20 <= asteroidCounts[i] <= 50
      ensures ids == Range(SystemCount)
      ensures forall k :: k in built <==> 0 <= k < SystemCount
      ensures forall k :: k in built ==> fresh(built[k])
      ensures forall s :: s in built.Values ==> fresh(s)
      ensures forall k :: k in built ==>
        && built[k].id == k && built[k].gatePos == GatePosition
        && built[k].State() == Fresh && built[k].gateDestination == None
        && built[k].content == SystemContent(k, asteroidCounts[k])
    {
      built := map[];
      ids := [];
      var i := 0;
      while i < SystemCount
        invariant 0 <= i <= SystemCount
        invariant ids == Range(i)
        invariant forall k :: k in built <==> 0 <= k < i
        invariant forall k :: k in built ==> fresh(built[k])
        invariant forall k :: k in built ==>
          && built[k].id == k && built[k].gatePos == GatePosition
          && built[k].State() == Fresh && built[k].gateDestination == None
          && built[k].content == SystemContent(k, asteroidCounts[k])
      {
        var s := new SolarSystem(i, asteroidCounts[i]);
        built := built[i := s];
        ids := ids + [i];
        i := i + 1;
      }
    }

    /**
     * The second loop of Galaxy.__init__: the gate of the i-th id in insertion
     * order leads to the (i+1)-th, and the last one back to the first.
     */
    method LinkGates()
      requires Valid()
      modifies systems.Values
      ensures Valid()
      ensures forall k :: k in systems ==> systems[k].State() == old(systems[k].State())
      ensures forall i :: 0 <= i < |order| ==> systems[order[i]].gateDestination == Some(GateTarget(order, i))
    {
      var i := 0;
      while i < |order|
        invariant 0 <= i <= |order|
        invariant forall k :: k in systems ==> systems[k].State() == old(systems[k].State())
        invariant forall j :: 0 <= j < i ==> systems[order[j]].gateDestination == Some(GateTarget(order, j))
      {
        var curr := systems[order[i]];
        var nextId := order[(i + 1) % |order|];
        curr.gateDestination := Some(nextId);
        forall j | 0 <= j < i
          ensures systems[order[j]] != curr
        {
          assert systems[order[j]].id == order[j] != order[i];
        }
        i := i + 1;
      }
    }

    /**
     * After one system's state changed, the states map differs from `before`
     * in that id only, because distinct ids hold distinct systems.
     */
    lemma OthersUntouched(c: int, before: map<int, Occupancy>, now: Occupancy)
      requires Valid() && c in systems
      requires before.Keys == systems.Keys
      requires systems[c].State() == now
      requires forall k :: k in systems && systems[k] != systems[c] ==> systems[k].State() == before[k]
      ensures States() == before[c := now]
    {
      forall k | k in systems
        ensures States()[k] == before[c := now][k]
      {
        if k != c {
          assert systems[k].id == k;
        }
      }
      assert States().Keys == before[c := now].Keys;
    }

    /** The player leaves system c: its occupancy drops, every other system is as it was. */
    method LeaveSystem(c: int)
      requires Valid() && c in systems
      modifies systems[c]
      ensures Valid()
      ensures forall k :: k in systems ==> systems[k].gateDestination == old(systems[k].gateDestination)
      ensures States() == old(States())[c := AfterLeave(old(States())[c])]
    {
      ghost var before := States();
      systems[c].PlayerLeft();
      OthersUntouched(c, before, AfterLeave(before[c]));
    }

    /** The player enters system t: its occupancy rises, every other system is as it was. */
    method EnterSystem(t: int)
      requires Valid() && t in systems
      modifies systems[t]
      ensures Valid()
      ensures forall k :: k in systems ==> systems[k].gateDestination == old(systems[k].gateDestination)
      ensures States() == old(States())[t := AfterEnter(old(States())[t])]
    {
      ghost var before := States();
      systems[t].PlayerEntered();
      OthersUntouched(t, before, AfterEnter(before[t]));
    }

    /**
     * warp_player: an unknown target changes nothing. Otherwise the current
     * system (if any) is left, the target entered and made current, and the
     * player is placed 30 units off the target's gate, at (280, 30, 0).
     */
    method WarpPlayer(targetId: int) returns (placed: Option<Vec3>)
      requires Valid()
      modifies this, systems.Values
      ensures Valid()
      ensures forall k :: k in systems ==> systems[k].gateDestination == old(systems[k].gateDestination)
      ensures targetId !in systems ==>
        placed == None && currentSystemId == old(currentSystemId) && States() == old(States())
      ensures targetId in systems ==>
        && placed == Some(Plus(GatePosition, ArrivalOffset))
        && placed == Some(Vec3(280.0, 30.0, 0.0))
        && currentSystemId == Some(targetId)
        && States() == Warped(old(States()), old(currentSystemId), targetId)
    {
      if targetId !in systems {
        return None;
      }
      if currentSystemId.Some? {
        LeaveSystem(currentSystemId.value);
      }
      EnterSystem(targetId);
      ghost var entered := States();
      currentSystemId := Some(targetId);
      assert States() == entered;
      placed := Some(Plus(systems[targetId].gatePos, ArrivalOffset));
    }

    /**
     * warp_random: picks one of the other systems (the `pick`-th, standing for
     * the random choice) and warps there; with no other system it does nothing.
     */
    method WarpRandom(pick: nat) returns (placed: Option<Vec3>)
      requires Valid()
      modifies this, systems.Values
      ensures Valid()
      ensures |Available(order, old(currentSystemId))| == 0 ==>
        placed == None && currentSystemId == old(currentSystemId) && States() == old(States())
      ensures |Available(order, old(currentSystemId))| > 0 ==>
        && currentSystemId.Some?
        && currentSystemId != old(currentSystemId)
        && currentSystemId.value in systems
        && currentSystemId.value == Available(order, old(currentSystemId))[pick % |Available(order, old(currentSystemId))|]
        && placed == Some(Vec3(280.0, 30.0, 0.0))
        && States() == Warped(old(States()), old(currentSystemId), currentSystemId.value)
    {
      var available := Available(order, currentSystemId);
      if |available| > 0 {
        var target := available[pick % |available|];
        placed := WarpPlayer(target);
      } else {
        placed := None;
      }
    }
  }
}

=== FILE: gamestats.dfy ===
/**
 * The idle-time tracker: any input resets the inactivity timer; after more
 * than 30 seconds without input the player counts as idle, and the idle time
 * beyond the threshold is subtracted from the playtime. The clock reading is
 * passed in as `now`.
 */
module Stats {

  const IdleThreshold: real := 30.0

  class GameStats {
    const startTime: real
    var lastActivity: real
    const idleThreshold: real
    var isIdle: bool
    var accumulatedIdleTime: real
    /** The latest clock reading seen. */
    ghost var clock: real

    /**
     * What the tracker keeps true while the clock does not go backwards: activity lies
     * between the start and the latest reading, idleness was only entered
     * once the threshold was exceeded, and the accumulated idle time is
     * non-negative and fits between the start and the last activity.
     */
    ghost predicate Valid()
      reads this
    {
      && idleThreshold == IdleThreshold
      && startTime <= lastActivity <= clock
      && (isIdle ==> clock - lastActivity > idleThreshold)
      && 0.0 <= accumulatedIdleTime <= lastActivity - startTime
    }

    /** GameStats.__init__: start and last activity at the current time, not idle, nothing accumulated. */
    constructor (now: real)
      ensures startTime == now && lastActivity == now && idleThreshold == IdleThreshold
      ensures !isIdle && accumulatedIdleTime == 0.0 && clock == now
      ensures Valid()
    {
      startTime := now;
      lastActivity := now;
      idleThreshold := IdleThreshold;
      isIdle := false;
      accumulatedIdleTime := 0.0;
      clock := now;
    }

    /**
     * reset_idle: when idle, the idle time beyond the threshold is added to
     * the total and idleness ends; the last activity becomes now either way.
     * Any reading is accepted; only under a clock that has not gone
     * backwards is the invariant kept and the idle total non-decreasing.
     */
    method ResetIdle(now: real)
      modifies this
      ensures clock == now && lastActivity == now && !isIdle
      ensures old(isIdle) ==>
        accumulatedIdleTime == old(accumulatedIdleTime) + (now - old(lastActivity) - idleThreshold)
      ensures !old(isIdle) ==> accumulatedIdleTime == old(accumulatedIdleTime)
      ensures old(Valid()) && now >= old(clock) ==> Valid() && accumulatedIdleTime >= old(accumulatedIdleTime)
    {
      clock := now;
      if isIdle {
        var idleDuration := now - lastActivity;
        accumulatedIdleTime := accumulatedIdleTime + (idleDuration - idleThreshold);
        isIdle := false;
      }
      lastActivity := now;
    }

    /**
     * update: becomes idle once strictly more than the threshold has passed;
     * never leaves idleness. Any reading is accepted; the invariant is kept
     * under a clock that has not gone backwards.
     */
    method Update(now: real)
      modifies this
      ensures clock == now
      ensures isIdle <==> old(isIdle) || now - lastActivity > idleThreshold
      ensures lastActivity == old(lastActivity) && accumulatedIdleTime == old(accumulatedIdleTime)
      ensures old(Valid()) && now >= old(clock) ==> Valid()
    {
      clock := now;
      if !isIdle && now - lastActivity > idleThreshold {
        isIdle := true;
      }
    }

    /**
     * get_active_playtime: the elapsed time up to the first clock reading
     * `now`, minus the accumulated idle time and, while idle, the current
     * idle time beyond the threshold, measured up to the second reading
     * `nowAgain`. The result never exceeds the elapsed time when the
     * readings do not go backwards, and is never negative when both
     * readings agree.
     */
    function ActivePlaytime(now: real, nowAgain: real): (p: real)
      reads this
      ensures !isIdle ==> p == (now - startTime) - accumulatedIdleTime
      ensures isIdle ==> (p < (now - startTime) - accumulatedIdleTime <==> nowAgain - lastActivity > idleThreshold)
      ensures Valid() && clock <= now <= nowAgain ==> p <= now - startTime
      ensures Valid() && clock <= now == nowAgain ==> 0.0 <= p
    {
      var total := now - startTime;
      var currentIdle := if isIdle then (nowAgain - lastActivity) - idleThreshold else 0.0;
      total - (accumulatedIdleTime + currentIdle)
    }
  }
}

=== FILE: generation.dfy ===
/**
 * Celestial generation and the test-system manager: the name-to-class lookup,
 * the counter-based celestial uids, the (effective, second) solar-system
 * generator, the manual fallback spawner and the registry-wide clear.
 */
module Generation {
  import opened Common
  import opened Entities

  /** The key under which the class map files each celestial class. */
  function TypeName(k: CelestialKind): string
  {
    match k
    case Asteroid => "Asteroid"
    case Wreck => "Wreck"
    case Stargate => "Stargate"
    case Planet => "Planet"
  }

  /**
   * get_celestial_class: exactly the four known names map to a class; any
   * other name yields None.
   */
  function CelestialClass(entityType: string): (r: Option<CelestialKind>)
    ensures r.Some? ==> TypeName(r.value) == entityType
    ensures r.None? <==> forall k: CelestialKind :: TypeName(k) != entityType
  {
    if entityType == "Asteroid" then Some(Asteroid)
    else if entityType == "Wreck" then Some(Wreck)
    else if entityType == "Stargate" then Some(Stargate)
    else if entityType == "Planet" then Some(Planet)
    else None
  }

  /** The lookup inverts TypeName. */
  lemma CelestialClassOfTypeName(k: CelestialKind)
    ensures CelestialClass(TypeName(k)) == Some(k)
  {
  }

  /** "CELESTIAL_{n}" */
  function CelestialUid(n: nat): EntityId
  {
    StrId("CELESTIAL_" + NatToString(n))
  }

  /** Two counter values never produce the same uid. */
  lemma CelestialUidInjective(m: nat, n: nat)
    requires m != n
    ensures CelestialUid(m) != CelestialUid(n)
  {
    if CelestialUid(m) == CelestialUid(n) {
      PrefixedNatInjective("CELESTIAL_", m, n);
    }
  }

  /** Whether the uids c0, c0+1, ... file exactly the values `made`, in order. */
  ghost predicate FilesUids<T>(m: map<EntityId, T>, made: seq<T>, c0: nat)
  {
    forall n: nat :: c0 <= n < c0 + |made| ==> CelestialUid(n) in m && m[CelestialUid(n)] == made[n - c0]
  }

  /** Filing one more value under the next uid extends the run of consecutive uids. */
  lemma UidsExtend<T>(m: map<EntityId, T>, made: seq<T>, c0: nat, x: T)
    requires FilesUids(m, made, c0)
    ensures FilesUids(m[CelestialUid(c0 + |made|) := x], made + [x], c0)
  {
    var m', made' := m[CelestialUid(c0 + |made|) := x], made + [x];
    forall n: nat | c0 <= n < c0 + |made'|
      ensures CelestialUid(n) in m' && m'[CelestialUid(n)] == made'[n - c0]
    {
      if n < c0 + |made| {
        CelestialUidInjective(n, c0 + |made|);
        assert made'[n - c0] == made[n - c0];
      }
    }
  }

  /** `m` with the values `made` filed under the uids c0, c0+1, ..., in order. */
  ghost function FiledUids<T>(m: map<EntityId, T>, made: seq<T>, c0: nat): map<EntityId, T>
    decreases |made|
  {
    if made == [] then m
    else FiledUids(m, made[..|made| - 1], c0)[CelestialUid(c0 + |made| - 1) := made[|made| - 1]]
  }

  lemma FiledUidsSnoc<T>(m: map<EntityId, T>, made: seq<T>, c0: nat, x: T)
    ensures FiledUids(m, made + [x], c0) == FiledUids(m, made, c0)[CelestialUid(c0 + |made|) := x]
  {
    assert (made + [x])[..|made|] == made;
  }

  /** Whether an id has the shape CELESTIAL_<digits> that the generator gives out. */
  predicate IsCelestialUid(k: EntityId)
  {
    k.StrId? && |k.s| > 10 && k.s[..10] == "CELESTIAL_"
  }

  lemma CelestialUidShape(n: nat)
    ensures IsCelestialUid(CelestialUid(n))
  {
    var s := CelestialUid(n).s;
    assert s[..10] == "CELESTIAL_";
  }

  /** The uids CELESTIAL_lo .. CELESTIAL_{hi-1}. */
  ghost function CelestialUids(lo: nat, hi: nat): set<EntityId>
  {
    set n: nat | lo <= n < hi :: CelestialUid(n)
  }

  /**
   * Whether `m` is `before` with the uids for counters lo .. hi-1 filed:
   * its keys are exactly the old ones and those uids, and every old entry
   * under any other key is unchanged.
   */
  ghost predicate AddsCelestials<T>(before: map<EntityId, T>, m: map<EntityId, T>, lo: nat, hi: nat)
  {
    && m.Keys == before.Keys + CelestialUids(lo, hi)
    && (forall k :: k in before && k !in CelestialUids(lo, hi) ==> m[k] == before[k])
  }

  lemma AddsCelestialsStep<T>(before: map<EntityId, T>, m: map<EntityId, T>, lo: nat, hi: nat, x: T)
    requires lo <= hi && AddsCelestials(before, m, lo, hi)
    ensures AddsCelestials(before, m[CelestialUid(hi) := x], lo, hi + 1)
  {
    CelestialUidShape(hi);
    assert CelestialUids(lo, hi + 1) == CelestialUids(lo, hi) + {CelestialUid(hi)};
  }

  /**
   * Filing a run of values under consecutive uids files each one under its
   * uid, adds exactly those uids as keys and keeps every other entry.
   */
  lemma {:induction false} FiledUidsFacts<T>(m: map<EntityId, T>, made: seq<T>, c0: nat)
    ensures FilesUids(FiledUids(m, made, c0), made, c0)
    ensures AddsCelestials(m, FiledUids(m, made, c0), c0, c0 + |made|)
    decreases |made|
  {
    if made == [] {
      assert CelestialUids(c0, c0) == {};
    } else {
      var init, x := made[..|made| - 1], made[|made| - 1];
      assert made == init + [x];
      FiledUidsFacts(m, init, c0);
      UidsExtend(FiledUids(m, init, c0), init, c0, x);
      AddsCelestialsStep(m, FiledUids(m, init, c0), c0, c0 + |init|, x);
    }
  }

  /** Whether `made` is one Stargate followed by asteroids only. */
  ghost predicate GateThenAsteroids(made: seq<Entity>)
  {
    && |made| >= 1 && made[0].kind == Celestial(Stargate)
    && forall j :: 1 <= j < |made| ==> made[j].kind == Celestial(Asteroid)
  }

  lemma GateThenAsteroidsExtend(made: seq<Entity>, x: Entity)
    requires GateThenAsteroids(made) && x.kind == Celestial(Asteroid)
    ensures GateThenAsteroids(made + [x])
  {
    assert forall j :: 0 <= j < |made| ==> (made + [x])[j] == made[j];
  }

  /**
   * A gate and its asteroids filed under consecutive uids from c0: the uid
   * c0 holds the gate, the following ones asteroids, the keys grow by
   * exactly those uids and every other entry is kept.
   */
  lemma GateThenAsteroidsFiled(before: map<EntityId, Entity>, made: seq<Entity>, c0: nat)
    requires GateThenAsteroids(made)
    ensures forall n: nat :: c0 <= n < c0 + |made| ==>
      CelestialUid(n) in FiledUids(before, made, c0) &&
      FiledUids(before, made, c0)[CelestialUid(n)].kind == Celestial(if n == c0 then Stargate else Asteroid)
    ensures AddsCelestials(before, FiledUids(before, made, c0), c0, c0 + |made|)
  {
    FiledUidsFacts(before, made, c0);
    forall n: nat | c0 <= n < c0 + |made|
      ensures FiledUids(before, made, c0)[CelestialUid(n)].kind == Celestial(if n == c0 then Stargate else Asteroid)
    {
      assert n - c0 == 0 || 1 <= n - c0 < |made|;
    }
  }

  /** "{type}_{n}", the display name built after the counter was bumped. */
  function CelestialName(entityType: string, n: nat): string
  {
    entityType + "_" + NatToString(n)
  }

  /** "AST_{i}" */
  function AsteroidId(i: nat): EntityId
  {
    StrId("AST_" + NatToString(i))
  }

  lemma AsteroidIdInjective(m: nat, n: nat)
    requires m != n
    ensures AsteroidId(m) != AsteroidId(n)
  {
    if AsteroidId(m) == AsteroidId(n) {
      PrefixedNatInjective("AST_", m, n);
    }
  }

  const PlanetMainId: EntityId := StrId("PLANET_MAIN")

  /** Whether an id has the shape AST_<digits> that the manual spawner gives out. */
  predicate IsAsteroidId(k: EntityId)
  {
    k.StrId? && |k.s| > 4 && k.s[..4] == "AST_"
  }

  lemma AsteroidIdShape(i: nat)
    ensures IsAsteroidId(AsteroidId(i))
  {
    assert AsteroidId(i).s[..4] == "AST_";
  }

  /** Whether AST_0, AST_1, ... file exactly the values `spawned`, in order. */
  ghost predicate FilesAsteroids<T>(m: map<EntityId, T>, spawned: seq<T>)
  {
    forall j :: 0 <= j < |spawned| ==> AsteroidId(j) in m && m[AsteroidId(j)] == spawned[j]
  }

  /** Filing one more value under the next AST_ id extends the run. */
  lemma AsteroidsExtend<T>(m: map<EntityId, T>, spawned: seq<T>, x: T)
    requires FilesAsteroids(m, spawned)
    ensures FilesAsteroids(m[AsteroidId(|spawned|) := x], spawned + [x])
  {
    var m', spawned' := m[AsteroidId(|spawned|) := x], spawned + [x];
    forall j | 0 <= j < |spawned'|
      ensures AsteroidId(j) in m' && m'[AsteroidId(j)] == spawned'[j]
    {
      if j < |spawned| {
        AsteroidIdInjective(j, |spawned|);
      }
    }
  }

  /** Whether every entry of `before` outside AST_0 .. AST_{n-1} is still filed unchanged in `m`. */
  ghost predicate KeepsOutsideAsteroids<T>(before: map<EntityId, T>, m: map<EntityId, T>, n: nat)
  {
    forall k :: k in before && k !in AsteroidIds(n) ==> k in m && m[k] == before[k]
  }

  /** The ids AST_0 .. AST_{n-1}. */
  ghost function AsteroidIds(n: nat): set<EntityId>
  {
    set j: nat | j < n :: AsteroidId(j)
  }

  /** Whether the keys of `m` are exactly those of `before` and AST_0 .. AST_{n-1}. */
  ghost predicate AddsAsteroidKeys<T>(before: map<EntityId, T>, m: map<EntityId, T>, n: nat)
  {
    m.Keys == before.Keys + AsteroidIds(n)
  }

  lemma AddsAsteroidKeysStep<T>(before: map<EntityId, T>, m: map<EntityId, T>, n: nat, x: T)
    requires AddsAsteroidKeys(before, m, n)
    ensures AddsAsteroidKeys(before, m[AsteroidId(n) := x], n + 1)
  {
    assert AsteroidIds(n + 1) == AsteroidIds(n) + {AsteroidId(n)};
  }

  /** `m` with the values `spawned` filed under AST_0, AST_1, ..., in order. */
  ghost function FiledAsteroids<T>(m: map<EntityId, T>, spawned: seq<T>): map<EntityId, T>
    decreases |spawned|
  {
    if spawned == [] then m
    else FiledAsteroids(m, spawned[..|spawned| - 1])[AsteroidId(|spawned| - 1) := spawned[|spawned| - 1]]
  }

  lemma FiledAsteroidsSnoc<T>(m: map<EntityId, T>, spawned: seq<T>, x: T)
    ensures FiledAsteroids(m, spawned + [x]) == FiledAsteroids(m, spawned)[AsteroidId(|spawned|) := x]
  {
    assert (spawned + [x])[..|spawned|] == spawned;
  }

  /** Filing under an AST_ id keeps every other entry. */
  lemma KeepsOutsideAsteroidsStep<T>(before: map<EntityId, T>, m: map<EntityId, T>, n: nat, x: T)
    requires KeepsOutsideAsteroids(before, m, n)
    ensures KeepsOutsideAsteroids(before, m[AsteroidId(n) := x], n + 1)
  {
    assert AsteroidIds(n + 1) == AsteroidIds(n) + {AsteroidId(n)};
  }

  /**
   * Filing a run of values under AST_0, AST_1, ... files each one under its
   * id, adds exactly those ids as keys and keeps every entry outside the
   * AST_ ids.
   */
  lemma {:induction false} FiledAsteroidsFacts<T>(m: map<EntityId, T>, spawned: seq<T>)
    ensures FilesAsteroids(FiledAsteroids(m, spawned), spawned)
    ensures KeepsOutsideAsteroids(m, FiledAsteroids(m, spawned), |spawned|)
    ensures AddsAsteroidKeys(m, FiledAsteroids(m, spawned), |spawned|)
    decreases |spawned|
  {
    if spawned == [] {
      assert AsteroidIds(0) == {};
    } else {
      var init, x := spawned[..|spawned| - 1], spawned[|spawned| - 1];
      assert spawned == init + [x];
      FiledAsteroidsFacts(m, init);
      AsteroidsExtend(FiledAsteroids(m, init), init, x);
      KeepsOutsideAsteroidsStep(m, FiledAsteroids(m, init), |init|, x);
      AddsAsteroidKeysStep(m, FiledAsteroids(m, init), |init|, x);
    }
  }

  /**
   * Filing the planet under PLANET_MAIN and then a run of asteroids: the keys
   * are the old ones, PLANET_MAIN and the AST_ ids, the planet stays filed,
   * and every other old entry is unchanged.
   */
  lemma PlanetThenAsteroids<T>(before: map<EntityId, T>, mid: map<EntityId, T>, after: map<EntityId, T>, p: T, n: nat)
    requires mid == before[PlanetMainId := p]
    requires AddsAsteroidKeys(mid, after, n) && KeepsOutsideAsteroids(mid, after, n)
    ensures after.Keys == before.Keys + {PlanetMainId} + AsteroidIds(n)
    ensures PlanetMainId in after && after[PlanetMainId] == p
    ensures forall k :: k in before && k != PlanetMainId && k !in AsteroidIds(n) ==> after[k] == before[k]
  {
    forall j: nat | j < n
      ensures AsteroidId(j) != PlanetMainId
    {
      AsteroidIdShape(j);
      assert PlanetMainId.s[..4][0] == 'P';
    }
  }

  /** A placeholder UUID; every id passed by this module is truthy, so it is never used. */
  const UnusedUuid: string := "00000000-0000-0000-0000-000000000000"

  class GenerationSystem {
    const world: World
    var celestialCounter: nat

    constructor (world: World)
      ensures this.world == world && celestialCounter == 0
    {
      this.world := world;
      celestialCounter := 0;
    }

    /**
     * generate_celestial: an unknown type yields None and touches nothing;
     * otherwise the entity gets uid CELESTIAL_{n} for the current counter n,
     * the counter goes up by one, and the name uses the bumped counter.
     */
    method GenerateCelestial(entityType: string, position: Vec3) returns (e: Option<Entity>)
      modifies this, world
      ensures CelestialClass(entityType).None? ==>
        e == None && celestialCounter == old(celestialCounter) && world.entities == old(world.entities)
      ensures CelestialClass(entityType).Some? ==>
        && e.Some? && fresh(e.value)
        && e.value.id == CelestialUid(old(celestialCounter))
        && e.value.world == world
        && e.value.name == CelestialName(entityType, old(celestialCounter) + 1)
        && e.value.kind == Celestial(CelestialClass(entityType).value)
        && e.value.isActive && e.value.hasRoot && e.value.pos == position
        && celestialCounter == old(celestialCounter) + 1
        && world.entities == old(world.entities)[e.value.id := e.value]
      ensures old(world.Valid()) ==> world.Valid()
    {
      var cls := CelestialClass(entityType);
      if cls.None? {
        return None;
      }
      var uid := CelestialUid(celestialCounter);
      celestialCounter := celestialCounter + 1;
      var c := new Entity(world, uid, UnusedUuid, CelestialName(entityType, celestialCounter), Celestial(cls.value));
      c.SetPos(position);
      e := Some(c);
    }

    /**
     * The effective generate_solar_system (the second definition): one
     * Stargate at (5000, 0, 0) and then 20 asteroids, so 21 celestials with
     * consecutive uids. The asteroid positions are the random draws.
     */
    method GenerateSolarSystem(asteroidPositions: seq<Vec3>)
      requires |asteroidPositions| == 20
      modifies this, world
      ensures celestialCounter == old(celestialCounter) + 21
      ensures forall n: nat :: old(celestialCounter) <= n < old(celestialCounter) + 21 ==>
        CelestialUid(n) in world.entities &&
        world.entities[CelestialUid(n)].kind == Celestial(if n == old(celestialCounter) then Stargate else Asteroid)
      ensures world.entities.Keys == old(world.entities).Keys + CelestialUids(old(celestialCounter), old(celestialCounter) + 21)
      ensures forall k :: k in old(world.entities) && k !in CelestialUids(old(celestialCounter), old(celestialCounter) + 21) ==>
        world.entities[k] == old(world.entities)[k]
      ensures old(world.Valid()) ==> world.Valid()
    {
      ghost var c0 := celestialCounter;
      var gate := GenerateCelestial("Stargate", Vec3(5000.0, 0.0, 0.0));
      ghost var made: seq<Entity> := [gate.value];
      assert CelestialClass("Asteroid") == Some(Asteroid);
      FiledUidsSnoc(old(world.entities), [], c0, gate.value);
      var i := 0;
      while i < 20
        invariant 0 <= i <= 20 && |made| == 1 + i
        invariant old(world.Valid()) ==> world.Valid()
        invariant world.entities == FiledUids(old(world.entities), made, c0)
        invariant celestialCounter == c0 + 1 + i
        invariant GateThenAsteroids(made)
      {
        ghost var before := world.entities;
        var ast := GenerateCelestial("Asteroid", asteroidPositions[i]);
        assert world.entities == before[CelestialUid(c0 + |made|) := ast.value];
        FiledUidsSnoc(old(world.entities), made, c0, ast.value);
        GateThenAsteroidsExtend(made, ast.value);
        made := made + [ast.value];
        i := i + 1;
      }
      GateThenAsteroidsFiled(old(world.entities), made, c0);
    }
  }

  class GalaxyManager {
    const world: World
    /** base.remote_ships, when the base object has that attribute. */
    var remoteShips: Option<map<EntityId, Entity>>

    constructor (world: World, remoteShips: Option<map<EntityId, Entity>>)
      ensures this.world == world && this.remoteShips == remoteShips
    {
      this.world := world;
      this.remoteShips := remoteShips;
    }

    /** One iteration of _manual_spawn: asteroid AST_{i}, named Aszteroida-{i}. */
    method SpawnAsteroid(i: nat, position: Vec3)
      modifies this, world
      ensures AsteroidId(i) in world.entities
      ensures world.entities == old(world.entities)[AsteroidId(i) := world.entities[AsteroidId(i)]]
      ensures fresh(world.entities[AsteroidId(i)])
      ensures world.entities[AsteroidId(i)].kind == Celestial(Asteroid)
      ensures world.entities[AsteroidId(i)].id == AsteroidId(i) && world.entities[AsteroidId(i)].world == world
      ensures world.entities[AsteroidId(i)].name == "Aszteroida-" + NatToString(i)
      ensures world.entities[AsteroidId(i)].pos == position
      ensures remoteShips.Some? <==> old(remoteShips).Some?
      ensures remoteShips.Some? ==>
        remoteShips.value == old(remoteShips).value[AsteroidId(i) := world.entities[AsteroidId(i)]]
      ensures old(world.Valid()) ==> world.Valid()
    {
      var a := new Entity(world, AsteroidId(i), UnusedUuid, "Aszteroida-" + NatToString(i), Celestial(Asteroid));
      a.SetPos(position);
      if remoteShips.Some? {
        remoteShips := Some(remoteShips.value[AsteroidId(i) := a]);
      }
    }

    /**
     * The asteroid loop of _manual_spawn: AST_0 .. AST_{n-1}, each registered
     * in the world and, when remote_ships exists, there too. Earlier entries
     * under other ids stay as they were.
     */
    method SpawnAsteroids(asteroidPositions: seq<Vec3>)
      modifies this, world
      ensures forall j :: 0 <= j < |asteroidPositions| ==>
        AsteroidId(j) in world.entities && world.entities[AsteroidId(j)].kind == Celestial(Asteroid)
      ensures remoteShips.Some? <==> old(remoteShips).Some?
      ensures remoteShips.Some? ==> forall j :: 0 <= j < |asteroidPositions| ==>
        AsteroidId(j) in remoteShips.value && remoteShips.value[AsteroidId(j)] == world.entities[AsteroidId(j)]
      ensures forall k :: k in old(world.entities) && k !in AsteroidIds(|asteroidPositions|) ==>
        k in world.entities && world.entities[k] == old(world.entities)[k]
      ensures remoteShips.Some? ==> forall k :: k in old(remoteShips).value && k !in AsteroidIds(|asteroidPositions|) ==>
        k in remoteShips.value && remoteShips.value[k] == old(remoteShips).value[k]
      ensures world.entities.Keys == old(world.entities).Keys + AsteroidIds(|asteroidPositions|)
      ensures remoteShips.Some? ==> remoteShips.value.Keys == old(remoteShips).value.Keys + AsteroidIds(|asteroidPositions|)
      ensures old(world.Valid()) ==> world.Valid()
    {
      var i := 0;
      ghost var spawned: seq<Entity> := [];
      while i < |asteroidPositions|
        invariant 0 <= i <= |asteroidPositions| && |spawned| == i
        invariant forall j :: 0 <= j < i ==> spawned[j].kind == Celestial(Asteroid)
        invariant world.entities == FiledAsteroids(old(world.entities), spawned)
        invariant remoteShips.Some? <==> old(remoteShips).Some?
        invariant remoteShips.Some? ==> remoteShips.value == FiledAsteroids(old(remoteShips).value, spawned)
        invariant old(world.Valid()) ==> world.Valid()
      {
        SpawnAsteroid(i, asteroidPositions[i]);
        ghost var a := world.entities[AsteroidId(i)];
        FiledAsteroidsSnoc(old(world.entities), spawned, a);
        if remoteShips.Some? {
          FiledAsteroidsSnoc(old(remoteShips).value, spawned, a);
        }
        spawned := spawned + [a];
        i := i + 1;
      }
      FiledAsteroidsFacts(old(world.entities), spawned);
      if remoteShips.Some? {
        FiledAsteroidsFacts(old(remoteShips).value, spawned);
      }
    }

    /**
     * _manual_spawn: the planet PLANET_MAIN ("Nexus Prime" at (1000, 1000, 0))
     * and the asteroids AST_0..AST_49, each registered in the world and, when
     * remote_ships exists, there too. The asteroid positions are the random draws.
     */
    method ManualSpawn(asteroidPositions: seq<Vec3>)
      requires |asteroidPositions| == 50
      modifies this, world
      ensures PlanetMainId in world.entities && world.entities[PlanetMainId].kind == Celestial(Planet)
      ensures forall i :: 0 <= i < 50 ==>
        AsteroidId(i) in world.entities && world.entities[AsteroidId(i)].kind == Celestial(Asteroid)
      ensures remoteShips.Some? <==> old(remoteShips).Some?
      ensures remoteShips.Some? ==>
        PlanetMainId in remoteShips.value && remoteShips.value[PlanetMainId] == world.entities[PlanetMainId]
      ensures remoteShips.Some? ==> forall i :: 0 <= i < 50 ==>
        AsteroidId(i) in remoteShips.value && remoteShips.value[AsteroidId(i)] == world.entities[AsteroidId(i)]
      ensures world.entities.Keys == old(world.entities).Keys + {PlanetMainId} + AsteroidIds(50)
      ensures forall k :: k in old(world.entities) && k != PlanetMainId && k !in AsteroidIds(50) ==>
        world.entities[k] == old(world.entities)[k]
      ensures remoteShips.Some? ==> remoteShips.value.Keys == old(remoteShips).value.Keys + {PlanetMainId} + AsteroidIds(50)
      ensures remoteShips.Some? ==> forall k :: k in old(remoteShips).value && k != PlanetMainId && k !in AsteroidIds(50) ==>
        remoteShips.value[k] == old(remoteShips).value[k]
      ensures old(world.Valid()) ==> world.Valid()
    {
      var p := new Entity(world, PlanetMainId, UnusedUuid, "Nexus Prime", Celestial(Planet));
      p.SetPos(Vec3(1000.0, 1000.0, 0.0));
      if remoteShips.Some? {
        remoteShips := Some(remoteShips.value[PlanetMainId := p]);
      }
      ghost var mid, midRemote := world.entities, remoteShips;
      SpawnAsteroids(asteroidPositions);
      PlanetThenAsteroids(old(world.entities), mid, world.entities, p, 50);
      if remoteShips.Some? {
        PlanetThenAsteroids(old(remoteShips).value, midRemote.value, remoteShips.value, p, 50);
      }
    }

    /**
     * clear_system: destroys every entity in a snapshot of the registry keys.
     * Each destroy removes exactly its own key, so the registry ends empty and
     * every entity that was registered is inactive. The loop picks keys in any
     * order, which covers the dict's insertion order.
     */
    method ClearSystem()
      requires world.Valid()
      modifies world, world.entities.Values
      ensures world.entities == map[]
      ensures forall e :: e in old(world.entities).Values ==> !e.isActive && !e.hasRoot
    {
      ghost var snapshot := world.entities;
      var remaining := world.entities.Keys;
      while remaining != {}
        invariant world.Valid()
        invariant world.entities.Keys == remaining
        invariant forall k :: k in world.entities ==> k in snapshot && world.entities[k] == snapshot[k]
        invariant forall k :: k in snapshot && k !in remaining ==> !snapshot[k].isActive && !snapshot[k].hasRoot
        decreases remaining
      {
        var eid :| eid in remaining;
        var e := world.entities[eid];
        e.Destroy();
        remaining := remaining - {eid};
      }
    }
  }
}

=== FILE: geometry.dfy ===
/**
 * The procedural meshes: the unit box (eight corners, two triangles per
 * face, one normal per face written per triangle) and the latitude /
 * longitude sphere, whose vertex k is the grid point in row k / num_lon and
 * column k % num_lon. The sphere's trigonometric positions and normals are
 * not part of this model; each of its vertices is recorded by its grid point.
 */
module Geometry {
  import opened Common

  /** A triangle by the indices of its three vertices, in winding order. */
  datatype Triangle = Triangle(a: int, b: int, c: int)

  /** The three indices are pairwise different. */
  predicate NonDegenerate(t: Triangle)
  {
    t.a != t.b && t.b != t.c && t.a != t.c
  }

  /** Every index of the triangle names one of n vertices. */
  predicate IndicesBelow(t: Triangle, n: int)
  {
    0 <= t.a < n && 0 <= t.b < n && 0 <= t.c < n
  }

  // ---- create_box_geom ----

  /** The eight corners of the unit box centred on the origin: the front face, then the back face. */
  const BoxVertices: seq<Vec3> := [
    Vec3(-0.5, -0.5, -0.5), Vec3(0.5, -0.5, -0.5), Vec3(0.5, 0.5, -0.5), Vec3(-0.5, 0.5, -0.5),
    Vec3(-0.5, -0.5, 0.5), Vec3(0.5, -0.5, 0.5), Vec3(0.5, 0.5, 0.5), Vec3(-0.5, 0.5, 0.5)]

  /** Two triangles per face: front, back, right, left, top, bottom. */
  const BoxFaces: seq<Triangle> := [
    Triangle(0, 1, 2), Triangle(0, 2, 3),
    Triangle(5, 4, 7), Triangle(5, 7, 6),
    Triangle(1, 5, 6), Triangle(1, 6, 2),
    Triangle(4, 0, 3), Triangle(4, 3, 7),
    Triangle(3, 2, 6), Triangle(3, 6, 7),
    Triangle(4, 5, 1), Triangle(4, 1, 0)]

  /** The six face normals. */
  const BoxNormals: seq<Vec3> := [
    Vec3(0.0, -1.0, 0.0), Vec3(0.0, 1.0, 0.0), Vec3(1.0, 0.0, 0.0),
    Vec3(-1.0, 0.0, 0.0), Vec3(0.0, 0.0, 1.0), Vec3(0.0, 0.0, -1.0)]

  /**
   * Triangles t and u split one quad along a diagonal: they start at the
   * same corner, u continues from t's last corner, and the quad's four
   * corners are different.
   */
  predicate SplitQuad(t: Triangle, u: Triangle)
  {
    t.a == u.a && t.c == u.b && u.c != t.a && u.c != t.b && u.c != t.c
  }

  /**
   * The box mesh has 8 vertices and 12 triangles; every triangle names
   * three different corners among the eight, and triangles 2k and 2k + 1
   * are the two halves of face k's quad, the face that takes normal k.
   */
  lemma BoxTopology()
    ensures |BoxVertices| == 8 && |BoxFaces| == 12 && |BoxNormals| == 6
    ensures forall i :: 0 <= i < |BoxFaces| ==> IndicesBelow(BoxFaces[i], |BoxVertices|) && NonDegenerate(BoxFaces[i])
    ensures forall k :: 0 <= k < |BoxNormals| ==> SplitQuad(BoxFaces[2 * k], BoxFaces[2 * k + 1])
  {
  }

  /**
   * create_box_geom: writes the eight corners, then each face triangle
   * followed by the normal of its face (triangle i gets normal i / 2).
   */
  method CreateBoxGeom() returns (vertices: seq<Vec3>, normals: seq<Vec3>, triangles: seq<Triangle>)
    ensures vertices == BoxVertices && triangles == BoxFaces
    ensures |normals| == |BoxFaces|
    ensures forall i :: 0 <= i < |normals| ==> normals[i] == BoxNormals[i / 2]
    ensures forall k :: 0 <= k < |BoxNormals| ==> normals[2 * k] == normals[2 * k + 1] == BoxNormals[k]
  {
    vertices := [];
    for k := 0 to |BoxVertices|
      invariant vertices == BoxVertices[..k]
    {
      vertices := vertices + [BoxVertices[k]];
    }
    triangles, normals := [], [];
    for i := 0 to |BoxFaces|
      invariant triangles == BoxFaces[..i]
      invariant |normals| == i
      invariant forall k :: 0 <= k < i ==> normals[k] == BoxNormals[k / 2]
    {
      triangles := triangles + [BoxFaces[i]];
      normals := normals + [BoxNormals[i / 2]];
    }
    forall k | 0 <= k < |BoxNormals|
      ensures normals[2 * k] == normals[2 * k + 1] == BoxNormals[k]
    {
      RowColumn(k, 0, 2);
      RowColumn(k, 1, 2);
    }
  }

  // ---- create_sphere_geom ----

  /** The latitude row and longitude column a sphere vertex is computed for. */
  datatype GridPoint = GridPoint(row: int, column: int)

  /** A vertex index splits into its row and column: i * n + j is row i, column j. */
  lemma RowColumn(i: int, j: int, n: int)
    requires 0 <= i && 0 <= j < n
    ensures (i * n + j) / n == i && (i * n + j) % n == j
  {
    ModUnique(i * n + j, n, i, j);
  }

  /**
   * The vertices the sphere's first loop writes for a grid of numRows rows
   * of numColumns: vertex k belongs to row k / numColumns, column k % numColumns.
   */
  function SphereVertices(numRows: nat, numColumns: nat): (vs: seq<GridPoint>)
    ensures |vs| == numRows * numColumns
  {
    seq(numRows * numColumns, k requires 0 <= k < numRows * numColumns => GridPoint(k / numColumns, k % numColumns))
  }

  /** Row i, column j is vertex i * numColumns + j. */
  lemma SphereVertexAt(numRows: nat, numColumns: nat, i: nat, j: nat)
    requires i < numRows && j < numColumns
    ensures 0 <= i * numColumns + j < |SphereVertices(numRows, numColumns)|
    ensures SphereVertices(numRows, numColumns)[i * numColumns + j] == GridPoint(i, j)
  {
    RowColumn(i, j, numColumns);
    assert i * numColumns + j < (i + 1) * numColumns;
    assert (i + 1) * numColumns <= numRows * numColumns;
  }

  /**
   * The triangles of the quad between rows i and i + 1 at column j: the
   * lower one (p1, p3, p2) except in band 0, the upper one (p3, p4, p2)
   * except in the last band. The next column wraps: (j + 1) % numLon.
   */
  function Cell(numLat: int, numLon: int, i: int, j: int): (ts: seq<Triangle>)
    requires 0 <= j < numLon
    ensures |ts| == (if i != 0 then 1 else 0) + (if i != numLat - 1 then 1 else 0)
  {
    var p1, p2 := i * numLon + j, (i + 1) * numLon + j;
    var p3, p4 := i * numLon + (j + 1) % numLon, (i + 1) * numLon + (j + 1) % numLon;
    (if i != 0 then [Triangle(p1, p3, p2)] else []) + (if i != numLat - 1 then [Triangle(p3, p4, p2)] else [])
  }

  /** The triangles of band i from column j on. */
  function BandFrom(numLat: int, numLon: int, i: int, j: nat): seq<Triangle>
    decreases numLon - j
  {
    if j >= numLon then [] else Cell(numLat, numLon, i, j) + BandFrom(numLat, numLon, i, j + 1)
  }

  /** The triangles of bands i and onwards, in emission order. */
  function BandsFrom(numLat: int, numLon: int, i: nat): seq<Triangle>
    decreases numLat - i
  {
    if i >= numLat then [] else BandFrom(numLat, numLon, i, 0) + BandsFrom(numLat, numLon, i + 1)
  }

  /** How many of the triangle's vertices lie in row r of a grid numLon wide. */
  function InRow(t: Triangle, numLon: int, r: int): nat
    requires numLon > 0
  {
    (if t.a / numLon == r then 1 else 0) + (if t.b / numLon == r then 1 else 0) + (if t.c / numLon == r then 1 else 0)
  }

  /**
   * A sphere triangle as it should be: its indices name vertices of the
   * (numLat + 1) x numLon grid, they are pairwise different, and at most
   * one of them lies on either pole row (rows 0 and numLat, whose vertices
   * all sit at the same point), so no triangle collapses there.
   */
  predicate SphereTriangleOk(numLat: int, numLon: int, t: Triangle)
    requires numLon > 0
  {
    && IndicesBelow(t, (numLat + 1) * numLon)
    && NonDegenerate(t)
    && InRow(t, numLon, 0) <= 1
    && InRow(t, numLon, numLat) <= 1
  }

  predicate AllOk(numLat: int, numLon: int, ts: seq<Triangle>)
    requires numLon > 0
  {
    forall k :: 0 <= k < |ts| ==> SphereTriangleOk(numLat, numLon, ts[k])
  }

  lemma AllOkConcat(numLat: int, numLon: int, a: seq<Triangle>, b: seq<Triangle>)
    requires numLon > 0 && AllOk(numLat, numLon, a) && AllOk(numLat, numLon, b)
    ensures AllOk(numLat, numLon, a + b)
  {
    assert forall k :: |a| <= k < |a + b| ==> (a + b)[k] == b[k - |a|];
  }

  /** An index of row r < rows stays below the grid's size. */
  lemma RowIndexBound(r: nat, c: nat, numLon: nat, rows: nat)
    requires c < numLon && r < rows
    ensures r * numLon + c < rows * numLon
  {
    assert r * numLon + c < (r + 1) * numLon;
    MulAtLeast(numLon, rows - r);
    assert (rows - r) * numLon >= numLon;
  }

  /**
   * A triangle with two vertices in row r and one in row r + 1 (or the
   * other way round), two of them different within their row, is well
   * formed unless its doubled row is a pole row.
   */
  lemma TriangleOk(numLat: int, numLon: int, t: Triangle, r: int, doubled: int)
    requires numLon > 0 && 0 <= r < numLat
    requires doubled == r || doubled == r + 1
    requires IndicesBelow(t, (numLat + 1) * numLon)
    requires t.a / numLon == doubled && t.a != t.b && t.b / numLon == doubled
    requires t.c / numLon == (if doubled == r then r + 1 else r)
    requires doubled != 0 && doubled != numLat
    ensures SphereTriangleOk(numLat, numLon, t)
  {
  }

  /** The next column differs from this one when there are at least two. */
  lemma NextColumn(j: nat, numLon: nat)
    requires 2 <= numLon && j < numLon
    ensures (j + 1) % numLon != j
  {
    if j + 1 < numLon { ModUnique(j + 1, numLon, 0, j + 1); } else { ModUnique(j + 1, numLon, 1, 0); }
  }

  /** The vertex in row r, column c: its row, and its place among the grid's vertices. */
  lemma GridIndex(numLat: nat, numLon: nat, r: nat, c: nat)
    requires c < numLon && r <= numLat
    ensures (r * numLon + c) / numLon == r
    ensures 0 <= r * numLon + c < (numLat + 1) * numLon
  {
    RowColumn(r, c, numLon);
    RowIndexBound(r, c, numLon, numLat + 1);
  }

  /** The lower triangle (p1, p3, p2) of a quad outside band 0 is well formed. */
  lemma LowerOk(numLat: int, numLon: int, i: nat, j: nat)
    requires 2 <= numLon && 0 < i < numLat && j < numLon
    ensures SphereTriangleOk(numLat, numLon,
      Triangle(i * numLon + j, i * numLon + (j + 1) % numLon, (i + 1) * numLon + j))
  {
    var j' := (j + 1) % numLon;
    GridIndex(numLat, numLon, i, j);
    GridIndex(numLat, numLon, i, j');
    GridIndex(numLat, numLon, i + 1, j);
    NextColumn(j, numLon);
    TriangleOk(numLat, numLon, Triangle(i * numLon + j, i * numLon + j', (i + 1) * numLon + j), i, i);
  }

  /** The upper triangle (p3, p4, p2) of a quad outside the last band is well formed. */
  lemma UpperOk(numLat: int, numLon: int, i: nat, j: nat)
    requires 2 <= numLon && i < numLat - 1 && j < numLon
    ensures SphereTriangleOk(numLat, numLon,
      Triangle(i * numLon + (j + 1) % numLon, (i + 1) * numLon + (j + 1) % numLon, (i + 1) * numLon + j))
  {
    var j' := (j + 1) % numLon;
    GridIndex(numLat, numLon, i, j');
    GridIndex(numLat, numLon, i + 1, j');
    GridIndex(numLat, numLon, i + 1, j);
    NextColumn(j, numLon);
    TriangleOk(numLat, numLon, Triangle((i + 1) * numLon + j', (i + 1) * numLon + j, i * numLon + j'), i, i + 1);
  }

  /** Both triangles of a quad are well formed when the grid is at least two columns wide. */
  lemma CellOk(numLat: int, numLon: int, i: nat, j: nat)
    requires 2 <= numLon && i < numLat && j < numLon
    ensures AllOk(numLat, numLon, Cell(numLat, numLon, i, j))
  {
    if i != 0 {
      LowerOk(numLat, numLon, i, j);
    }
    if i != numLat - 1 {
      UpperOk(numLat, numLon, i, j);
    }
  }

  lemma {:induction false} BandOk(numLat: int, numLon: int, i: nat, j: nat)
    requires 2 <= numLon && i < numLat
    ensures AllOk(numLat, numLon, BandFrom(numLat, numLon, i, j))
    decreases numLon - j
  {
    if j < numLon {
      CellOk(numLat, numLon, i, j);
      BandOk(numLat, numLon, i, j + 1);
      AllOkConcat(numLat, numLon, Cell(numLat, numLon, i, j), BandFrom(numLat, numLon, i, j + 1));
    }
  }

  lemma {:induction false} BandsOk(numLat: int, numLon: int, i: nat)
    requires 2 <= numLon
    ensures AllOk(numLat, numLon, BandsFrom(numLat, numLon, i))
    decreases numLat - i
  {
    if i < numLat {
      BandOk(numLat, numLon, i, 0);
      BandsOk(numLat, numLon, i + 1);
      AllOkConcat(numLat, numLon, BandFrom(numLat, numLon, i, 0), BandsFrom(numLat, numLon, i + 1));
    }
  }

  /**
   * Every triangle of a sphere with at least one segment names vertices of
   * the mesh, three different ones, with at most one on each pole row.
   */
  lemma SphereTrianglesOk(numSegments: nat)
    requires numSegments >= 1
    ensures AllOk(numSegments, 2 * numSegments, BandsFrom(numSegments, 2 * numSegments, 0))
    ensures |SphereVertices(numSegments + 1, 2 * numSegments)| == (numSegments + 1) * (2 * numSegments)
  {
    BandsOk(numSegments, 2 * numSegments, 0);
  }

  /** Band i holds numLon quads of |Cell| triangles each. */
  lemma {:induction false} BandCount(numLat: int, numLon: int, i: int, j: nat)
    requires j <= numLon
    ensures |BandFrom(numLat, numLon, i, j)| == (numLon - j) * ((if i != 0 then 1 else 0) + (if i != numLat - 1 then 1 else 0))
    decreases numLon - j
  {
    if j < numLon {
      BandCount(numLat, numLon, i, j + 1);
    }
  }

  /** Bands i.. of a grid with i >= 1 inner bands: two triangles per quad except one per quad in the last band. */
  lemma {:induction false} BandsCount(numLat: int, numLon: nat, i: nat)
    requires 1 <= i <= numLat
    ensures |BandsFrom(numLat, numLon, i)| == numLon * (2 * (numLat - i) - (if i < numLat then 1 else 0))
    decreases numLat - i
  {
    if i < numLat {
      BandCount(numLat, numLon, i, 0);
      BandsCount(numLat, numLon, i + 1);
    }
  }

  /**
   * The sphere has numLon * (2 * numLat - 2) triangles: band 0 and the last
   * band emit one per quad, every band between them two.
   */
  lemma SphereTriangleCount(numLat: nat, numLon: nat)
    requires numLat >= 1
    ensures |BandsFrom(numLat, numLon, 0)| == numLon * (2 * numLat - 2)
  {
    BandCount(numLat, numLon, 0, 0);
    BandsCount(numLat, numLon, 1);
  }

  /**
   * Longitude wraps: the quad in the last column closes the band through
   * column 0, whose row-i vertex i * numLon every one of its triangles uses.
   */
  lemma LastColumnWraps(numLat: int, numLon: int, i: int)
    requires numLon >= 1
    ensures forall t :: t in Cell(numLat, numLon, i, numLon - 1) ==> t.a == i * numLon || t.b == i * numLon
  {
    assert (numLon - 1 + 1) % numLon == 0;
  }

  /** A sphere mesh: the grid point of each vertex, and the triangles. */
  datatype SphereMesh = SphereMesh(vertices: seq<GridPoint>, triangles: seq<Triangle>)

  /**
   * create_sphere_geom: num_lat = num_segments and num_lon = 2 * num_segments.
   * The first loop writes rows 0..num_lat of num_lon vertices each; the
   * second emits each band's quads. With no segments the first latitude
   * divides by zero and nothing is built; with fewer, both loops are empty.
   */
  method CreateSphereGeom(numSegments: int) returns (r: Option<SphereMesh>)
    ensures r.None? <==> numSegments == 0
    ensures numSegments < 0 ==> r == Some(SphereMesh([], []))
    ensures numSegments > 0 ==>
      r == Some(SphereMesh(SphereVertices(numSegments + 1, 2 * numSegments),
                           BandsFrom(numSegments, 2 * numSegments, 0)))
  {
    var numLat, numLon := numSegments, numSegments * 2;
    if numLat + 1 <= 0 {
      return Some(SphereMesh([], []));
    }
    if numLat == 0 {
      // float(i) / num_lat at i = 0
      return None;
    }
    var vertices := WriteSphereVertices(numLat + 1, numLon);
    var triangles := EmitSphereTriangles(numLat, numLon);
    r := Some(SphereMesh(vertices, triangles));
  }

  lemma ConcatAssoc<T>(a: seq<T>, b: seq<T>, c: seq<T>)
    ensures (a + b) + c == a + (b + c)
  {
  }

  /** The first loop of create_sphere_geom: row by row, column by column, one vertex per grid point. */
  method WriteSphereVertices(numRows: nat, numColumns: nat) returns (vertices: seq<GridPoint>)
    ensures vertices == SphereVertices(numRows, numColumns)
  {
    vertices := [];
    for i := 0 to numRows
      invariant |vertices| == i * numColumns
      invariant forall k :: 0 <= k < |vertices| ==> vertices[k] == GridPoint(k / numColumns, k % numColumns)
    {
      for j := 0 to numColumns
        invariant |vertices| == i * numColumns + j
        invariant forall k :: 0 <= k < |vertices| ==> vertices[k] == GridPoint(k / numColumns, k % numColumns)
      {
        RowColumn(i, j, numColumns);
        vertices := vertices + [GridPoint(i, j)];
      }
      assert (i + 1) * numColumns == i * numColumns + numColumns;
    }
  }

  /** The second loop of create_sphere_geom: band by band, each quad's triangles. */
  method EmitSphereTriangles(numLat: nat, numLon: nat) returns (triangles: seq<Triangle>)
    ensures triangles == BandsFrom(numLat, numLon, 0)
  {
    triangles := [];
    for i := 0 to numLat
      invariant triangles + BandsFrom(numLat, numLon, i) == BandsFrom(numLat, numLon, 0)
    {
      var band := EmitBand(numLat, numLon, i);
      ConcatAssoc(triangles, band, BandsFrom(numLat, numLon, i + 1));
      triangles := triangles + band;
    }
  }

  /** One pass of the inner loop: the quads of band i, column by column. */
  method EmitBand(numLat: nat, numLon: nat, i: nat) returns (band: seq<Triangle>)
    ensures band == BandFrom(numLat, numLon, i, 0)
  {
    band := [];
    for j := 0 to numLon
      invariant band + BandFrom(numLat, numLon, i, j) == BandFrom(numLat, numLon, i, 0)
    {
      var p1, p2 := i * numLon + j, (i + 1) * numLon + j;
      var p3, p4 := i * numLon + (j + 1) % numLon, (i + 1) * numLon + (j + 1) % numLon;
      var before := band;
      if i != 0 {
        band := band + [Triangle(p1, p3, p2)];
      }
      if i != numLat - 1 {
        band := band + [Triangle(p3, p4, p2)];
      }
      assert band == before + Cell(numLat, numLon, i, j);
      ConcatAssoc(before, Cell(numLat, numLon, i, j), BandFrom(numLat, numLon, i, j + 1));
    }
  }
}

=== FILE: ledger.dfy ===
/**
 * The cargo and market ledger of the window manager: the inventory by item
 * name, the wallet, adding cargo and buying one unit from the market. The
 * widgets that display them are not part of this model.
 */
module Ledger {

  /** An inventory or market entry. */
  datatype InventoryItem = InventoryItem(name: string, category: string, quantity: int, basePrice: real)

  const StartingCredits: real := 100000.0

  /** The three market offers. */
  const MarketData: seq<InventoryItem> := [
    InventoryItem("Civillian Gatling Laser", "Weapon", 999, 1200.0),
    InventoryItem("Small Shield Booster", "Module", 50, 45000.0),
    InventoryItem("Veldspar", "RawMaterial", 100000, 15.0)
  ]

  /** The inventory after add_item: more of a known item, or a new entry. */
  function Added(inventory: map<string, InventoryItem>, name: string, category: string, qty: int, price: real)
    : (r: map<string, InventoryItem>)
    ensures r.Keys == inventory.Keys + {name}
    ensures name in inventory ==>
      r[name] == inventory[name].(quantity := inventory[name].quantity + qty)
    ensures name !in inventory ==> r[name] == InventoryItem(name, category, qty, price)
    ensures forall k :: k in inventory && k != name ==> r[k] == inventory[k]
  {
    if name in inventory then inventory[name := inventory[name].(quantity := inventory[name].quantity + qty)]
    else inventory[name := InventoryItem(name, category, qty, price)]
  }

  /** Adding twice to the same name is adding the sum once. */
  lemma AddedTwice(inventory: map<string, InventoryItem>, name: string, category: string, a: int, b: int, price: real)
    ensures Added(Added(inventory, name, category, a, price), name, category, b, price)
         == Added(inventory, name, category, a + b, price)
  {
  }

  /** Whether every entry is filed under its own name. */
  ghost predicate KeyedByName(inventory: map<string, InventoryItem>)
  {
    forall k :: k in inventory ==> inventory[k].name == k
  }

  lemma AddedKeepsKeyedByName(inventory: map<string, InventoryItem>, name: string, category: string, qty: int, price: real)
    requires KeyedByName(inventory)
    ensures KeyedByName(Added(inventory, name, category, qty, price))
  {
  }

  /**
   * The wallet and inventory after buy_item: with enough credits the price is
   * paid and one unit added; otherwise nothing changes.
   */
  function Bought(credits: real, inventory: map<string, InventoryItem>, item: InventoryItem)
    : (r: (real, map<string, InventoryItem>))
    ensures credits >= item.basePrice ==>
      r.0 == credits - item.basePrice && r.1 == Added(inventory, item.name, item.category, 1, item.basePrice)
    ensures credits < item.basePrice ==> r == (credits, inventory)
    ensures credits >= 0.0 && item.basePrice >= 0.0 ==> 0.0 <= r.0 <= credits
  {
    if credits >= item.basePrice then (credits - item.basePrice, Added(inventory, item.name, item.category, 1, item.basePrice))
    else (credits, inventory)
  }

  /** Over any sequence of purchases at non-negative prices, the wallet never goes negative. */
  function BuyAll(credits: real, inventory: map<string, InventoryItem>, items: seq<InventoryItem>)
    : (r: (real, map<string, InventoryItem>))
  {
    if items == [] then (credits, inventory)
    else
      var step := BuyAll(credits, inventory, items[..|items| - 1]);
      Bought(step.0, step.1, items[|items| - 1])
  }

  lemma {:induction false} BuyAllKeepsCredits(credits: real, inventory: map<string, InventoryItem>, items: seq<InventoryItem>)
    requires credits >= 0.0
    requires forall i :: 0 <= i < |items| ==> items[i].basePrice >= 0.0
    ensures 0.0 <= BuyAll(credits, inventory, items).0 <= credits
  {
    if items != [] {
      BuyAllKeepsCredits(credits, inventory, items[..|items| - 1]);
    }
  }

  /** The four cargo entries WindowManager.__init__ adds, in order. */
  const StartingCargo: seq<InventoryItem> := [
    InventoryItem("Tritanium", "RawMaterial", 5000, 5.0),
    InventoryItem("Pyerite", "RawMaterial", 1200, 12.0),
    InventoryItem("Impulse Laser I", "Module", 2, 45000.0),
    InventoryItem("125mm Railgun", "Module", 1, 32000.0)
  ]

  /** Adding the items of a list one by one, through add_item. */
  function AddedAll(inventory: map<string, InventoryItem>, items: seq<InventoryItem>): map<string, InventoryItem>
  {
    if items == [] then inventory
    else
      var last := items[|items| - 1];
      Added(AddedAll(inventory, items[..|items| - 1]), last.name, last.category, last.quantity, last.basePrice)
  }

  /** Items with distinct names each end up as their own entry, and nothing else is filed. */
  lemma {:induction false} AddedAllDistinct(items: seq<InventoryItem>)
    requires forall i, j :: 0 <= i < j < |items| ==> items[i].name != items[j].name
    ensures KeyedByName(AddedAll(map[], items))
    ensures forall k :: k in AddedAll(map[], items) ==> AddedAll(map[], items)[k] in items
    ensures forall i :: 0 <= i < |items| ==>
      items[i].name in AddedAll(map[], items) && AddedAll(map[], items)[items[i].name] == items[i]
  {
    if items != [] {
      var init, last := items[..|items| - 1], items[|items| - 1];
      AddedAllDistinct(init);
      var m := AddedAll(map[], init);
      assert last.name !in m by {
        forall k | k in m
          ensures k != last.name
        {
          var i :| 0 <= i < |init| && init[i] == m[k];
          assert items[i].name == k;
        }
      }
      assert forall i :: 0 <= i < |init| ==> init[i] == items[i];
    }
  }

  /** Adding the starting cargo is the four add_item calls in their order. */
  lemma StartingCargoAdded()
    ensures AddedAll(map[], StartingCargo) ==
      Added(Added(Added(Added(map[],
        "Tritanium", "RawMaterial", 5000, 5.0),
        "Pyerite", "RawMaterial", 1200, 12.0),
        "Impulse Laser I", "Module", 2, 45000.0),
        "125mm Railgun", "Module", 1, 32000.0)
  {
    var c := StartingCargo;
    AddedAllSnoc(map[], [], c[0]);
    AddedAllSnoc(map[], [c[0]], c[1]);
    AddedAllSnoc(map[], [c[0], c[1]], c[2]);
    AddedAllSnoc(map[], [c[0], c[1], c[2]], c[3]);
    assert [c[0]] == [] + [c[0]];
    assert [c[0], c[1]] == [c[0]] + [c[1]];
    assert [c[0], c[1], c[2]] == [c[0], c[1]] + [c[2]];
    assert c == [c[0], c[1], c[2]] + [c[3]];
  }

  lemma AddedAllSnoc(inventory: map<string, InventoryItem>, items: seq<InventoryItem>, x: InventoryItem)
    ensures AddedAll(inventory, items + [x]) == Added(AddedAll(inventory, items), x.name, x.category, x.quantity, x.basePrice)
  {
    assert (items + [x])[..|items|] == items;
  }

  /** The four starting names differ (already in their first letters). */
  lemma StartingCargoNamesDistinct()
    ensures forall i, j :: 0 <= i < j < |StartingCargo| ==> StartingCargo[i].name != StartingCargo[j].name
  {
    var firsts := [StartingCargo[0].name[0], StartingCargo[1].name[0], StartingCargo[2].name[0], StartingCargo[3].name[0]];
    assert firsts == ['T', 'P', 'I', '1'];
  }

  /** The starting cargo: one entry per listed item, each exactly as listed. */
  lemma StartingCargoEntries()
    ensures forall i :: 0 <= i < |StartingCargo| ==>
      StartingCargo[i].name in AddedAll(map[], StartingCargo) &&
      AddedAll(map[], StartingCargo)[StartingCargo[i].name] == StartingCargo[i]
    ensures forall k :: k in AddedAll(map[], StartingCargo) ==> AddedAll(map[], StartingCargo)[k] in StartingCargo
  {
    StartingCargoNamesDistinct();
    AddedAllDistinct(StartingCargo);
  }

  class WindowManager {
    var inventory: map<string, InventoryItem>
    var credits: real
    const marketData: seq<InventoryItem>

    /**
     * WindowManager.__init__: 100000 credits and four cargo entries, added
     * in order through add_item.
     */
    constructor ()
      ensures credits == StartingCredits && marketData == MarketData
      ensures inventory == AddedAll(map[], StartingCargo)
    {
      inventory := map[];
      credits := StartingCredits;
      marketData := MarketData;
      new;
      AddItem("Tritanium", "RawMaterial", 5000, 5.0);
      AddItem("Pyerite", "RawMaterial", 1200, 12.0);
      AddItem("Impulse Laser I", "Module", 2, 45000.0);
      AddItem("125mm Railgun", "Module", 1, 32000.0);
      StartingCargoAdded();
    }

    /** add_item */
    method AddItem(name: string, category: string, qty: int, price: real)
      modifies this
      ensures inventory == Added(old(inventory), name, category, qty, price)
      ensures credits == old(credits)
    {
      if name in inventory {
        inventory := inventory[name := inventory[name].(quantity := inventory[name].quantity + qty)];
      } else {
        inventory := inventory[name := InventoryItem(name, category, qty, price)];
      }
    }

    /** buy_item */
    method BuyItem(item: InventoryItem)
      modifies this
      ensures (credits, inventory) == Bought(old(credits), old(inventory), item)
    {
      if credits >= item.basePrice {
        credits := credits - item.basePrice;
        AddItem(item.name, item.category, 1, item.basePrice);
      }
    }
  }
}

=== FILE: net_core.dfy ===
/**
 * The network ShipCore record: a dataclass whose from_dict keeps only the
 * declared names, whose pack leaves out the two object references by name,
 * and whose unpack reads the same fields with no error handling.
 */
module NetCore {
  import opened Wire
  import opened Records

  /** The fields before the int field maxActiveDrones. */
  const CoreHead: Schema := CoreInfo + FloatFields(CoreHeadFloats)

  /** The general information fields. */
  const CoreInfo: Schema := [
      Field("id", IntField, IntV(-1)),
      Field("name", StrField, StrV("")),
      Field("description", StrField, StrV("")),
      Field("slot_type", StrField, StrV("None")) ]

  const CoreHeadFloats: seq<string> := [
      "dmgPlasmaCannon", "dmgMissileLauncher", "dmgRailgun", "dmgIonBlaster", "dmgDroneSwarm",
      "dmgEmpEmitter", "dmgQuantumTorpedo", "dmgSmartbomb", "dmgNaniteRepairBeam",
      "resPlasmaCannon", "resMissileLauncher", "resRailgun", "resIonBlaster", "resDroneSwarm",
      "resEmpEmitter", "resQuantumTorpedo", "resShieldGenerator", "resNaniteRepairBeam",
      "shipAgility", "shipMaxVelocity", "warpDriveStrength", "jumpDriveConsumption",
      "capacitorCapacity", "capacitorRechargeRate", "moduleCPUReduction", "modulePowergridReduction",
      "droneDamageBonus", "droneHitpointsBonus", "droneControlRange"]

  /** The fields after maxActiveDrones, before the references. */
  const CoreTail: Schema := FloatFields(CoreTailFloats)

  const CoreTailFloats: seq<string> := [
      "miningLaserYield", "iceHarvesterYield", "gasCloudHarvesterYield", "reprocessingEfficiency",
      "manufacturingTimeReduction"]

  /** The written fields, in declaration order. */
  const CoreBody: Schema := CoreHead + [Field("maxActiveDrones", IntField, IntV(0))] + CoreTail

  const CoreSchema: Schema := WithReferences(CoreBody)

  /** from_dict: the declared names only, then the dataclass constructor. */
  function FromDict(params: seq<(string, Value)>): (r: Attrs)
    ensures r == Construct(CoreSchema, params)
  {
    KnownOnlyConstructs(CoreSchema, Defaults(CoreSchema), params);
    Construct(CoreSchema, KnownOnly(CoreSchema, params))
  }

  /** The two int fields are id and maxActiveDrones; pack writes them as Int32. */
  lemma IntFields()
    ensures forall i :: 0 <= i < |CoreSchema| && CoreSchema[i].kind == IntField ==>
      CoreSchema[i].name == "id" || CoreSchema[i].name == "maxActiveDrones"
    ensures CoreSchema[0] == Field("id", IntField, IntV(-1))
    ensures CoreSchema[|CoreHead|] == Field("maxActiveDrones", IntField, IntV(0))
  {
    assert forall i :: 4 <= i < |CoreHead| ==> CoreHead[i].kind == FloatField;
    assert forall i :: 0 <= i < |CoreTail| ==> CoreTail[i].kind == FloatField;
    assert forall i :: 0 <= i < |CoreHead| ==> CoreSchema[i] == CoreHead[i];
  }

  /** Every field before the references is written: none is a reference or carries a reference's name. */
  lemma CoreBodyPlain()
    ensures PlainFields(CoreBody)
  {
    var k := 0;
    while k < |CoreHeadFloats|
      invariant k <= |CoreHeadFloats|
      invariant forall i :: 0 <= i < k ==> CoreHeadFloats[i] !in ReferenceNames
    {
      assert |CoreHeadFloats[k]| != 9;
      k := k + 1;
    }
    k := 0;
    while k < |CoreTailFloats|
      invariant k <= |CoreTailFloats|
      invariant forall i :: 0 <= i < k ==> CoreTailFloats[i] !in ReferenceNames
    {
      assert |CoreTailFloats[k]| != 9;
      k := k + 1;
    }
    PlainFloatFields(CoreHeadFloats);
    PlainFloatFields(CoreTailFloats);
    assert PlainFields(CoreInfo);
    assert PlainFields([Field("maxActiveDrones", IntField, IntV(0))]);
    PlainConcat(CoreInfo, FloatFields(CoreHeadFloats));
    PlainConcat(CoreHead, [Field("maxActiveDrones", IntField, IntV(0))]);
    PlainConcat(CoreHead + [Field("maxActiveDrones", IntField, IntV(0))], CoreTail);
  }

  /**
   * unpack(pack(x)) == x: the strict unpack of what pack wrote succeeds and
   * rebuilds the record, provided its references are None.
   */
  lemma CoreRoundTrip(attrs: Attrs, prefix: seq<byte>, rest: seq<byte>)
    requires Fits(CoreSchema, attrs, ReferenceNames) && attrs.Keys == Defaults(CoreSchema).Keys
    requires "blueprint" in attrs && attrs["blueprint"] == NoneV
    requires "reprocess" in attrs && attrs["reprocess"] == NoneV
    ensures ReadStrictFrom(CoreSchema, prefix + EncodedFrom(CoreSchema, attrs, ReferenceNames, 0) + rest, ReferenceNames, |prefix|, 0).Some?
    ensures Construct(CoreSchema, ReadStrictFrom(CoreSchema, prefix + EncodedFrom(CoreSchema, attrs, ReferenceNames, 0) + rest,
      ReferenceNames, |prefix|, 0).value) == attrs
  {
    CoreBodyPlain();
    ReferencesRoundTrip(CoreBody, attrs, prefix, rest);
  }
}

=== FILE: overview.dfy ===
/**
 * Overview data: one entry per tracked object, whose "WithinRange" flag
 * follows the distance to the player, the display record built from it with
 * sorted flags, and the manager that spawns the entries with ids 1, 2, ...
 *
 * Square roots are not modelled: where the source takes a vector's length,
 * the caller passes that length in, constrained by its square.
 */
module Overview {
  import opened Common

  // ---------------------------------------------------------------------------
  // Python's string order and sorted()
  // ---------------------------------------------------------------------------

  /** Python's `<=` on strings: lexicographic by code point, a prefix first. */
  predicate StrLe(a: string, b: string)
  {
    if a == [] then true
    else if b == [] then false
    else if a[0] != b[0] then a[0] < b[0]
    else StrLe(a[1..], b[1..])
  }

  lemma {:induction false} StrLeTotal(a: string, b: string)
    ensures StrLe(a, b) || StrLe(b, a)
  {
    if a != [] && b != [] && a[0] == b[0] {
      StrLeTotal(a[1..], b[1..]);
    }
  }

  lemma {:induction false} StrLeTrans(a: string, b: string, c: string)
    requires StrLe(a, b) && StrLe(b, c)
    ensures StrLe(a, c)
  {
    if a != [] && b != [] && c != [] && a[0] == b[0] && b[0] == c[0] {
      StrLeTrans(a[1..], b[1..], c[1..]);
    }
  }

  predicate SortedStrings(s: seq<string>)
  {
    forall i, j :: 0 <= i < j < |s| ==> StrLe(s[i], s[j])
  }

  /** Inserting into a sorted list before the first larger element. */
  function Insert(x: string, s: seq<string>): (r: seq<string>)
    requires SortedStrings(s)
    ensures multiset(r) == multiset(s) + multiset{x}
    ensures SortedStrings(r)
  {
    if s == [] then [x]
    else if StrLe(x, s[0]) then
      InsertFront(x, s);
      [x] + s
    else
      StrLeTotal(x, s[0]);
      var rest := Insert(x, s[1..]);
      InsertAfterHead(x, s, rest);
      assert s == [s[0]] + s[1..];
      [s[0]] + rest
  }

  lemma InsertFront(x: string, s: seq<string>)
    requires SortedStrings(s) && s != [] && StrLe(x, s[0])
    ensures SortedStrings([x] + s)
  {
    forall j | 0 < j < |s| + 1
      ensures StrLe(([x] + s)[0], ([x] + s)[j])
    {
      if j > 1 {
        StrLeTrans(x, s[0], s[j - 1]);
      }
    }
  }

  lemma InsertAfterHead(x: string, s: seq<string>, rest: seq<string>)
    requires SortedStrings(s) && s != [] && StrLe(s[0], x)
    requires SortedStrings(rest) && multiset(rest) == multiset(s[1..]) + multiset{x}
    ensures SortedStrings([s[0]] + rest)
  {
    forall j | 0 <= j < |rest|
      ensures StrLe(s[0], rest[j])
    {
      assert rest[j] in multiset(rest);
      if rest[j] != x {
        assert rest[j] in multiset(s[1..]);
        var k :| 0 <= k < |s[1..]| && s[1..][k] == rest[j];
        assert s[k + 1] == rest[j];
      }
    }
  }

  /** sorted(flags): an ordered permutation of the input. */
  function Sorted(s: seq<string>): (r: seq<string>)
    ensures multiset(r) == multiset(s)
    ensures SortedStrings(r)
    ensures |r| == |s|
  {
    if s == [] then []
    else
      var r := Insert(s[|s| - 1], Sorted(s[..|s| - 1]));
      assert s == s[..|s| - 1] + [s[|s| - 1]];
      assert |r| == |multiset(r)|;
      r
  }

  // ---------------------------------------------------------------------------
  // The WithinRange flag
  // ---------------------------------------------------------------------------

  const WithinRange: string := "WithinRange"
  const RangeLimit: real := 50000.0

  /** list.remove: drops the first occurrence. */
  function RemoveFirst(s: seq<string>, x: string): (r: seq<string>)
    ensures x in s ==> multiset(r) == multiset(s) - multiset{x}
    ensures x !in s ==> r == s
  {
    if s == [] then []
    else if s[0] == x then
      assert s == [s[0]] + s[1..];
      s[1..]
    else
      assert s == [s[0]] + s[1..];
      [s[0]] + RemoveFirst(s[1..], x)
  }

  /** The list with every occurrence of x taken out, the rest in order. */
  function Without(s: seq<string>, x: string): seq<string>
  {
    if s == [] then []
    else (if s[0] == x then [] else [s[0]]) + Without(s[1..], x)
  }

  /** update_state's flag step for the new distance. */
  function RangeFlags(flags: seq<string>, distance: real): seq<string>
  {
    if distance < RangeLimit && WithinRange !in flags then flags + [WithinRange]
    else if distance >= RangeLimit && WithinRange in flags then RemoveFirst(flags, WithinRange)
    else flags
  }

  /**
   * With at most one WithinRange entry to begin with, afterwards the flag is
   * present exactly when the distance is below 50000, and still at most once.
   */
  lemma RangeFlagsTracksDistance(flags: seq<string>, distance: real)
    requires multiset(flags)[WithinRange] <= 1
    ensures WithinRange in RangeFlags(flags, distance) <==> distance < RangeLimit
    ensures multiset(RangeFlags(flags, distance))[WithinRange] <= 1
  {
    var r := RangeFlags(flags, distance);
    if distance >= RangeLimit && WithinRange in flags {
      assert multiset(r)[WithinRange] == 0;
    }
  }

  lemma {:induction false} WithoutAppend(s: seq<string>, y: string, x: string)
    ensures Without(s + [y], x) == Without(s, x) + (if y == x then [] else [y])
  {
    if s != [] {
      assert (s + [y])[1..] == s[1..] + [y];
      WithoutAppend(s[1..], y, x);
    }
  }

  lemma {:induction false} WithoutRemoveFirst(s: seq<string>, x: string)
    ensures Without(RemoveFirst(s, x), x) == Without(s, x)
  {
    if s != [] && s[0] != x {
      WithoutRemoveFirst(s[1..], x);
      assert ([s[0]] + RemoveFirst(s[1..], x))[1..] == RemoveFirst(s[1..], x);
    }
  }

  /** Every flag other than WithinRange is left as it was, in its order. */
  lemma RangeFlagsKeepsOthers(flags: seq<string>, distance: real)
    ensures Without(RangeFlags(flags, distance), WithinRange) == Without(flags, WithinRange)
  {
    if distance < RangeLimit && WithinRange !in flags {
      WithoutAppend(flags, WithinRange, WithinRange);
    } else if distance >= RangeLimit && WithinRange in flags {
      WithoutRemoveFirst(flags, WithinRange);
    }
  }

  /** Running the step twice for the same distance is running it once. */
  lemma RangeFlagsIdempotent(flags: seq<string>, distance: real)
    requires multiset(flags)[WithinRange] <= 1
    ensures RangeFlags(RangeFlags(flags, distance), distance) == RangeFlags(flags, distance)
  {
    RangeFlagsTracksDistance(flags, distance);
  }

  /** Where update_state moves an entry: only a moving one moves, by velocity * dt. */
  function Moved(position: Vec3, velocityVec: Vec3, velocity: real, dt: real): (p: Vec3)
    ensures velocity <= 0.0 ==> p == position
  {
    if velocity > 0.0 then Plus(position, Scale(velocityVec, dt)) else position
  }

  // ---------------------------------------------------------------------------
  // Entries and their display records
  // ---------------------------------------------------------------------------

  /** The record get_display_data returns. */
  datatype DisplayData = DisplayData(
    id: int, icon: char, name: string, distance: real, velocity: real,
    angular: real, standing: string, flags: seq<string>, itemType: string)

  /** The time step get_display_data passes to update_state. */
  const DisplayDt: real := 0.1

  class OverviewItem {
    const id: int
    var name: string
    var itemType: string
    var position: Vec3
    var velocityVec: Vec3
    var angularVel: real
    var standing: string
    var flags: seq<string>
    var distance: real
    /** The speed, the length of velocityVec when the entry was made. */
    var velocity: real

    /** OverviewItem.__init__: a missing flag list becomes an empty one; distance starts at 0. */
    constructor (id: int, name: string, itemType: string, position: Vec3, velocityVec: Vec3,
                 angularVel: real, standing: string, flags: Option<seq<string>>, speed: real)
      requires speed >= 0.0
      ensures this.id == id && this.name == name && this.itemType == itemType
      ensures this.position == position && this.velocityVec == velocityVec
      ensures this.angularVel == angularVel && this.standing == standing
      ensures this.flags == (if flags.None? then [] else flags.value)
      ensures distance == 0.0 && velocity == speed
    {
      this.id := id;
      this.name := name;
      this.itemType := itemType;
      this.position := position;
      this.velocityVec := velocityVec;
      this.angularVel := angularVel;
      this.standing := standing;
      this.flags := if flags.None? then [] else flags.value;
      distance := 0.0;
      velocity := speed;
    }

    /**
     * update_state: a moving entry advances by velocity * dt (and may take the
     * drawn course correction), the distance to the player is measured, and
     * the WithinRange flag follows it. `dist` is the length of the new offset
     * from the player.
     */
    method UpdateState(playerPos: Vec3, dt: real, correction: Option<Vec3>, dist: real)
      requires dist >= 0.0
      requires dist * dist == LengthSquared(Minus(Moved(position, velocityVec, velocity, dt), playerPos))
      modifies this
      ensures position == Moved(old(position), old(velocityVec), velocity, dt)
      ensures velocityVec == if velocity > 0.0 && correction.Some? then correction.value else old(velocityVec)
      ensures distance == dist
      ensures flags == RangeFlags(old(flags), dist)
      ensures name == old(name) && itemType == old(itemType) && angularVel == old(angularVel)
      ensures standing == old(standing) && velocity == old(velocity)
    {
      if velocity > 0.0 {
        position := Plus(position, Scale(velocityVec, dt));
        if correction.Some? {
          velocityVec := correction.value;
        }
      }
      distance := dist;
      if distance < RangeLimit && WithinRange !in flags {
        flags := flags + [WithinRange];
      } else if distance >= RangeLimit && WithinRange in flags {
        flags := RemoveFirst(flags, WithinRange);
      }
    }

    /**
     * get_display_data: updates the entry with the default time step, then
     * reports it with the flags sorted and the type's first letter as icon.
     * An empty type has no first letter: the source fails there, and the
     * model returns None after the update.
     */
    method GetDisplayData(playerPos: Vec3, correction: Option<Vec3>, dist: real) returns (d: Option<DisplayData>)
      requires dist >= 0.0
      requires dist * dist == LengthSquared(Minus(Moved(position, velocityVec, velocity, DisplayDt), playerPos))
      modifies this
      ensures flags == RangeFlags(old(flags), dist) && distance == dist
      ensures position == Moved(old(position), old(velocityVec), velocity, DisplayDt)
      ensures itemType == old(itemType) && name == old(name) && standing == old(standing)
      ensures d.None? <==> itemType == []
      ensures d.Some? ==>
        && d.value.id == id && d.value.icon == itemType[0] && d.value.name == name
        && d.value.distance == dist && d.value.velocity == velocity && d.value.angular == angularVel
        && d.value.standing == standing && d.value.itemType == itemType
        && SortedStrings(d.value.flags) && multiset(d.value.flags) == multiset(flags)
    {
      UpdateState(playerPos, DisplayDt, correction, dist);
      if itemType == [] {
        return None;
      }
      d := Some(DisplayData(id, itemType[0], name, distance, velocity, angularVel, standing, Sorted(flags), itemType));
    }
  }

  // ---------------------------------------------------------------------------
  // The manager's initial spawn
  // ---------------------------------------------------------------------------

  const EntityTypes: seq<string> := ["Ship", "Drone", "Structure", "Wreck", "Asteroid", "Missile"]
  const Standings: seq<string> := ["Enemy", "Neutral", "Friendly", "Corp/Fleet"]
  const Names: seq<string> := ["Vargur", "Gila", "Rattlesnake", "Capsule", "Wrecked Ship", "Small Asteroid", "Citadel"]

  /** Only ships, drones and missiles are given a velocity. */
  predicate Moves(itemType: string)
  {
    itemType == "Ship" || itemType == "Drone" || itemType == "Missile"
  }

  /**
   * The random draws for one spawned entry: the chosen type, standing and
   * name (as indices), position, velocity vector and its length, angular
   * velocity, and the two 10% rolls for Targeted and Attacking.
   */
  datatype SpawnDraw = SpawnDraw(
    typeIndex: nat, standingIndex: nat, nameIndex: nat, position: Vec3,
    velocityVec: Vec3, speed: real, angular: real, targeted: bool, attacking: bool)

  predicate ValidDraw(d: SpawnDraw)
  {
    && d.typeIndex < |EntityTypes| && d.standingIndex < |Standings| && d.nameIndex < |Names|
    && d.speed >= 0.0
  }

  /** The spawn flags: Targeted on its roll, then Attacking on its roll but only for an enemy. */
  function SpawnFlags(d: SpawnDraw): (flags: seq<string>)
    requires ValidDraw(d)
    ensures "Attacking" in flags ==> Standings[d.standingIndex] == "Enemy"
    ensures "Targeted" in flags <==> d.targeted
    ensures WithinRange !in flags
  {
    (if d.targeted then ["Targeted"] else [])
      + (if d.attacking && Standings[d.standingIndex] == "Enemy" then ["Attacking"] else [])
  }

  /** What a spawned entry satisfies: the attack and velocity rules. */
  ghost predicate SpawnRules(item: OverviewItem)
    reads item
  {
    && ("Attacking" in item.flags ==> item.standing == "Enemy")
    && (!Moves(item.itemType) ==> item.velocityVec == Origin && item.velocity == 0.0)
    && WithinRange !in item.flags
  }

  class OverviewManager {
    var playerPos: Vec3
    var items: seq<OverviewItem>
    var nextId: nat

    /** OverviewManager.__init__: the player at the origin, then the initial spawn. */
    constructor (numEntities: nat, draws: seq<SpawnDraw>)
      requires |draws| == numEntities && forall i :: 0 <= i < |draws| ==> ValidDraw(draws[i])
      ensures playerPos == Origin && nextId == numEntities + 1 && |items| == numEntities
      ensures forall k :: 0 <= k < numEntities ==> items[k].id == k + 1 && SpawnRules(items[k])
    {
      playerPos := Origin;
      items := [];
      nextId := 1;
      new;
      InitialSpawn(numEntities, draws);
    }

    /** One round of _initial_spawn: the entry gets the next id, which then goes up by one. */
    method SpawnOne(d: SpawnDraw)
      requires ValidDraw(d)
      modifies this
      ensures nextId == old(nextId) + 1 && playerPos == old(playerPos)
      ensures |items| == |old(items)| + 1 && items[..|old(items)|] == old(items)
      ensures fresh(items[|old(items)|])
      ensures items[|old(items)|].id == old(nextId) && SpawnRules(items[|old(items)|])
      ensures items[|old(items)|].name == Names[d.nameIndex] + " (" + NatToString(old(nextId)) + ")"
      ensures items[|old(items)|].itemType == EntityTypes[d.typeIndex]
      ensures items[|old(items)|].standing == Standings[d.standingIndex]
      ensures items[|old(items)|].flags == SpawnFlags(d)
    {
      var item := SpawnedItem(nextId, d);
      items := items + [item];
      nextId := nextId + 1;
    }

    /** The entry one round of _initial_spawn builds from its draws. */
    static method SpawnedItem(id: nat, d: SpawnDraw) returns (item: OverviewItem)
      requires ValidDraw(d)
      ensures fresh(item) && item.id == id && SpawnRules(item)
      ensures item.name == Names[d.nameIndex] + " (" + NatToString(id) + ")"
      ensures item.itemType == EntityTypes[d.typeIndex]
      ensures item.standing == Standings[d.standingIndex]
      ensures item.flags == SpawnFlags(d)
    {
      var itemType := EntityTypes[d.typeIndex];
      var standing := Standings[d.standingIndex];
      var name := Names[d.nameIndex] + " (" + NatToString(id) + ")";
      var velVec, speed := Origin, 0.0;
      if Moves(itemType) {
        velVec, speed := d.velocityVec, d.speed;
      }
      var flags := [];
      if d.targeted {
        flags := flags + ["Targeted"];
      }
      if d.attacking && standing == "Enemy" {
        flags := flags + ["Attacking"];
      }
      item := new OverviewItem(id, name, itemType, d.position, velVec, d.angular, standing, Some(flags), speed);
    }

    /** _initial_spawn: num entries with ids nextId, nextId+1, ..., each following the spawn rules. */
    method InitialSpawn(num: nat, draws: seq<SpawnDraw>)
      requires |draws| == num && forall i :: 0 <= i < |draws| ==> ValidDraw(draws[i])
      modifies this
      ensures nextId == old(nextId) + num && playerPos == old(playerPos)
      ensures |items| == |old(items)| + num && items[..|old(items)|] == old(items)
      ensures forall k :: |old(items)| <= k < |items| ==>
        items[k].id == old(nextId) + (k - |old(items)|) && SpawnRules(items[k])
    {
      var i := 0;
      while i < num
        invariant 0 <= i <= num
        invariant nextId == old(nextId) + i && playerPos == old(playerPos)
        invariant |items| == |old(items)| + i && items[..|old(items)|] == old(items)
        invariant forall k :: |old(items)| <= k < |items| ==>
          items[k].id == old(nextId) + (k - |old(items)|) && SpawnRules(items[k])
      {
        SpawnOne(draws[i]);
        i := i + 1;
      }
    }
  }
}

=== FILE: overview_row.dfy ===
/**
 * One row of the overview list: the distance unit choice, the threat icon,
 * the standing-line colour and the per-cell text colours that
 * update_content selects. Widget layout and the two-decimal text rendering
 * are not part of this model.
 */
module OverviewRows {
  import opened Overview

  /** An RGBA colour. */
  datatype Color = Color(r: real, g: real, b: real, a: real)

  const OverviewBg: Color := Color(0.05, 0.05, 0.1, 0.9)
  const OverviewTextColor: Color := Color(0.7, 0.8, 1.0, 1.0)
  const HighlightColor: Color := Color(0.2, 0.3, 0.4, 1.0)
  const RangeColorGlow: Color := Color(0.8, 0.4, 0.9, 1.0)

  /** The standing-line colours by standing. */
  const StandingColors: map<string, Color> := map[
    "Enemy" := Color(0.8, 0.2, 0.2, 0.8),
    "Neutral" := Color(0.8, 0.8, 0.2, 0.8),
    "Friendly" := Color(0.2, 0.8, 0.2, 0.8),
    "Corp/Fleet" := Color(0.2, 0.5, 0.8, 0.8)
  ]

  /** A colour with every component (alpha included) multiplied by k. */
  function ScaleColor(c: Color, k: real): Color
  {
    Color(c.r * k, c.g * k, c.b * k, c.a * k)
  }

  /** The metres in one astronomical unit, the threshold of the AU display. */
  const MetersPerAu: real := 149597870700.0
  const MetersPerKm: real := 1000.0

  datatype DistanceUnit = AU | Km | M

  /** A distance as shown: a value in a unit (the value's two-decimal rendering is left out). */
  datatype ShownDistance = ShownDistance(value: real, unit: DistanceUnit)

  function UnitMeters(u: DistanceUnit): (m: real)
    ensures m >= 1.0
  {
    match u
    case AU => MetersPerAu
    case Km => MetersPerKm
    case M => 1.0
  }

  /** The distance in metres that a shown distance stands for. */
  function InMeters(s: ShownDistance): real
  {
    s.value * UnitMeters(s.unit)
  }

  /**
   * format_distance: AU from one astronomical unit on, km from 1000 m on,
   * metres below; each lower bound is inclusive, and the shown value in its
   * unit is the distance itself.
   */
  function FormatDistance(distance: real): (s: ShownDistance)
    ensures s.unit == AU <==> distance >= MetersPerAu
    ensures s.unit == Km <==> MetersPerKm <= distance < MetersPerAu
    ensures s.unit == M <==> distance < MetersPerKm
    ensures InMeters(s) == distance
  {
    if distance >= MetersPerAu then ShownDistance(distance / MetersPerAu, AU)
    else if distance >= MetersPerKm then ShownDistance(distance / MetersPerKm, Km)
    else ShownDistance(distance, M)
  }

  /** Outside the metre range the shown value is at least 1 in its unit. */
  lemma FormattedValueAtLeastOne(distance: real)
    requires distance >= MetersPerKm
    ensures FormatDistance(distance).value >= 1.0
  {
    assert FormatDistance(distance).unit != M;
  }

  /**
   * The threat icon: "!" when attacking, followed by "X" when targeted.
   * Each mark is present exactly when its flag is, and "!" always comes first.
   */
  function ThreatIcon(flags: seq<string>): (icon: string)
    ensures '!' in icon <==> "Attacking" in flags
    ensures 'X' in icon <==> "Targeted" in flags
    ensures icon in {"", "!", "X", "!X"}
  {
    var attack := if "Attacking" in flags then "!" else "";
    var target := if "Targeted" in flags then "X" else "";
    assert attack + target == "" || attack + target == "!" || attack + target == "X" || attack + target == "!X";
    attack + target
  }

  /** The standing line colour: the standing's own colour, the background for an unknown standing. */
  function StandingColor(standing: string): (c: Color)
    ensures standing in StandingColors ==> c == StandingColors[standing]
  {
    if standing in StandingColors then StandingColors[standing] else OverviewBg
  }

  /** The fallback is told apart from every known standing: the line shows the background exactly for an unknown one. */
  lemma StandingColorFallback(standing: string)
    ensures StandingColor(standing) == OverviewBg <==> standing !in StandingColors
  {
  }

  /** The column names, in their fixed order. */
  const ColumnNames: seq<string> := ["icon", "name", "distance", "velocity", "angular", "threat"]

  /** What a cell shows, before its rendering to text. */
  datatype CellContent =
    | Text(s: string)
    | DistanceText(d: ShownDistance)
    | SpeedText(metersPerSecond: real)
    | AngularText(angular: real)

  /** The six cell contents of update_content, column by column. */
  function Content(data: DisplayData): (c: seq<CellContent>)
    ensures |c| == |ColumnNames|
  {
    [ Text([data.icon]), Text(data.name), DistanceText(FormatDistance(data.distance)),
      SpeedText(data.velocity), AngularText(data.angular), Text(ThreatIcon(data.flags)) ]
  }

  /** The text colour of cell i: the range colour for the distance and velocity cells, the text colour otherwise. */
  function CellColor(i: nat, flags: seq<string>): (c: Color)
  {
    if (i == 2 || i == 3) && "WithinRange" in flags then RangeColorGlow else OverviewTextColor
  }

  /**
   * A cell glows exactly when it is the distance or the velocity cell and
   * the entry is within range.
   */
  lemma CellColorGlows(i: nat, flags: seq<string>)
    requires i < |ColumnNames|
    ensures CellColor(i, flags) == RangeColorGlow <==>
      (ColumnNames[i] == "distance" || ColumnNames[i] == "velocity") && "WithinRange" in flags
  {
    assert ColumnNames[2] == "distance" && ColumnNames[3] == "velocity";
    assert forall k :: 0 <= k < |ColumnNames| && k != 2 && k != 3 ==>
      ColumnNames[k] != "distance" && ColumnNames[k] != "velocity";
  }

  class OverviewRow {
    var itemData: DisplayData
    var isSelected: bool
    var frameColor: Color
    var standingLineColor: Color
    /** The six cells' texts and text colours, in column order. */
    const cellContent: array<CellContent>
    const cellColor: array<Color>

    /** OverviewRow.__init__: not selected, on the dimmed background, cells filled by update_content. */
    constructor (data: DisplayData)
      ensures !isSelected && frameColor == ScaleColor(OverviewBg, 0.9)
      ensures fresh(cellContent) && fresh(cellColor)
      ensures itemData == data && standingLineColor == StandingColor(data.standing)
      ensures cellContent[..] == Content(data)
      ensures cellColor.Length == |ColumnNames|
      ensures forall i :: 0 <= i < cellColor.Length ==> cellColor[i] == CellColor(i, data.flags)
    {
      itemData := data;
      isSelected := false;
      frameColor := ScaleColor(OverviewBg, 0.9);
      standingLineColor := OverviewBg;
      cellContent := new CellContent[|ColumnNames|](_ => Text(""));
      cellColor := new Color[|ColumnNames|](_ => OverviewTextColor);
      new;
      UpdateContent(data);
    }

    /**
     * update_content: the standing line takes the standing's colour, the
     * threat icon is built mark by mark, and each cell gets its content and
     * its text colour in column order.
     */
    method UpdateContent(data: DisplayData)
      requires cellContent.Length == |ColumnNames| && cellColor.Length == |ColumnNames|
      modifies this, cellContent, cellColor
      ensures itemData == data && standingLineColor == StandingColor(data.standing)
      ensures isSelected == old(isSelected) && frameColor == old(frameColor)
      ensures cellContent[..] == Content(data)
      ensures forall i :: 0 <= i < cellColor.Length ==> cellColor[i] == CellColor(i, data.flags)
    {
      itemData := data;
      standingLineColor := if data.standing in StandingColors then StandingColors[data.standing] else OverviewBg;
      var threatIcon := "";
      if "Attacking" in data.flags {
        threatIcon := threatIcon + "!";
      }
      assert threatIcon == if "Attacking" in data.flags then "!" else "";
      if "Targeted" in data.flags {
        threatIcon := threatIcon + "X";
      }
      assert threatIcon == ThreatIcon(data.flags);
      var rangeColor := if "WithinRange" in data.flags then RangeColorGlow else OverviewTextColor;
      var content := [ Text([data.icon]), Text(data.name), DistanceText(FormatDistance(data.distance)),
                       SpeedText(data.velocity), AngularText(data.angular), Text(threatIcon) ];
      assert content == Content(data);
      var i := 0;
      while i < cellContent.Length
        modifies cellContent, cellColor
        invariant 0 <= i <= cellContent.Length
        invariant cellContent[..i] == content[..i]
        invariant forall k :: 0 <= k < i ==> cellColor[k] == CellColor(k, data.flags)
      {
        cellContent[i] := content[i];
        if i == 2 || i == 3 {
          cellColor[i] := rangeColor;
        } else {
          cellColor[i] := OverviewTextColor;
        }
        i := i + 1;
      }
      assert cellContent[..] == cellContent[..i];
    }

    /** set_selected: the highlight colour when selected, the dimmed background otherwise. */
    method SetSelected(selected: bool)
      modifies this
      ensures isSelected == selected
      ensures frameColor == (if selected then HighlightColor else ScaleColor(OverviewBg, 0.9))
      ensures itemData == old(itemData) && standingLineColor == old(standingLineColor)
    {
      isSelected := selected;
      if selected {
        frameColor := HighlightColor;
      } else {
        frameColor := ScaleColor(OverviewBg, 0.9);
      }
    }
  }
}

=== FILE: protocol.dfy ===
/**
 * The position message: its encoder (create_pos_datagram) and the client's
 * handling of a received datagram (process_msg), which decodes a position,
 * hands it to the game and, when hosting, relays the datagram to every
 * other client.
 */
module Protocol {
  import opened Common
  import opened Wire

  const MsgLogin: nat := 1
  const MsgPosition: nat := 2
  const MsgDisconnect: nat := 3

  /** The message type ids are pairwise distinct and each fits the leading Uint8. */
  lemma MessageIdsDistinct()
    ensures MsgLogin != MsgPosition && MsgPosition != MsgDisconnect && MsgLogin != MsgDisconnect
    ensures MsgLogin < 256 && MsgPosition < 256 && MsgDisconnect < 256
  {
  }

  /** A sender id the Uint16 field can carry. */
  predicate IsSenderId(id: int)
  {
    0 <= id < TwoTo16
  }

  /** The position message: type, sender, then x, y and z. */
  function PosMessage(senderId: nat, x: Float64, y: Float64, z: Float64): (m: seq<byte>)
    requires IsSenderId(senderId) && IsFloat64(x) && IsFloat64(y) && IsFloat64(z)
    ensures |m| == 1 + 2 + 3 * 8
    ensures m[0] == MsgPosition
  {
    EncodeUint8(MsgPosition) + EncodeUint16(senderId) + EncodeFloat64(x) + EncodeFloat64(y) + EncodeFloat64(z)
  }

  /** create_pos_datagram: a fresh datagram holding exactly the position message. */
  method CreatePosDatagram(senderId: nat, x: Float64, y: Float64, z: Float64) returns (dg: Datagram)
    requires IsSenderId(senderId) && IsFloat64(x) && IsFloat64(y) && IsFloat64(z)
    ensures fresh(dg) && dg.data == PosMessage(senderId, x, y, z)
  {
    dg := new Datagram();
    dg.AddUint8(MsgPosition);
    dg.AddUint16(senderId);
    dg.AddFloat64(x);
    dg.AddFloat64(y);
    dg.AddFloat64(z);
  }

  /** A decoded position update, as handed to update_remote_ship. */
  datatype PosUpdate = PosUpdate(senderId: nat, x: Float64, y: Float64, z: Float64)

  /**
   * What process_msg makes of a datagram: a position update, a message of
   * another type (ignored), or a read past the end (the source raises and
   * nothing happens).
   */
  datatype Incoming = Position(update: PosUpdate) | OtherType(msgType: nat) | Truncated

  /** The client's reading: the type byte, then for a position the sender and three coordinates. */
  function Classify(data: seq<byte>): (r: Incoming)
    ensures r.OtherType? ==> |data| >= 1 && data[0] == r.msgType && r.msgType != MsgPosition
    ensures r.Position? ==> |data| >= 27 && data[0] == MsgPosition
    ensures r.Truncated? <==> |data| == 0 || (data[0] == MsgPosition && |data| < 27)
  {
    match ReadUint(data, 0, 1)
    case None => Truncated
    case Some((t, p0)) =>
      assert data[0..1] == [data[0]];
      if t != MsgPosition then OtherType(t)
      else
        match ReadUint(data, p0, 2)
        case None => Truncated
        case Some((sender, p1)) =>
          match ReadFloat64(data, p1)
          case None => Truncated
          case Some((x, p2)) =>
            match ReadFloat64(data, p2)
            case None => Truncated
            case Some((y, p3)) =>
              match ReadFloat64(data, p3)
              case None => Truncated
              case Some((z, _)) => Position(PosUpdate(sender, x, y, z))
  }

  /**
   * The client decodes what the encoder wrote: the same sender id and the
   * same three coordinate bit patterns, whatever trails the message.
   */
  lemma PosMessageRoundTrip(senderId: nat, x: Float64, y: Float64, z: Float64, rest: seq<byte>)
    requires IsSenderId(senderId) && IsFloat64(x) && IsFloat64(y) && IsFloat64(z)
    ensures Classify(PosMessage(senderId, x, y, z) + rest) == Position(PosUpdate(senderId, x, y, z))
  {
    Pow256Values();
    var t, s := EncodeUint8(MsgPosition), EncodeUint16(senderId);
    var ex, ey, ez := EncodeFloat64(x), EncodeFloat64(y), EncodeFloat64(z);
    var data := PosMessage(senderId, x, y, z) + rest;
    assert data == [] + t + (s + ex + ey + ez + rest);
    ReadUintWritten([], MsgPosition, 1, s + ex + ey + ez + rest);
    assert data == t + s + (ex + ey + ez + rest);
    ReadUintWritten(t, senderId, 2, ex + ey + ez + rest);
    assert data == t + s + ex + (ey + ez + rest);
    ReadFloat64Written(t + s, x, ey + ez + rest);
    assert data == t + s + ex + ey + (ez + rest);
    ReadFloat64Written(t + s + ex, y, ez + rest);
    assert data == t + s + ex + ey + ez + rest;
    ReadFloat64Written(t + s + ex + ey, z, rest);
  }

  /** A connection, by an opaque id. */
  type ConnId = nat

  /** A relay: the datagram and the connection it came from, which it is not sent back to. */
  datatype Relay = Relay(data: seq<byte>, exclude: ConnId)

  /** server.broadcast: every client but the excluded one, in connection order. */
  function BroadcastTargets(clients: seq<ConnId>, exclude: ConnId): (r: seq<ConnId>)
    ensures exclude !in r
    ensures forall c :: c in r <==> c in clients && c != exclude
    ensures |r| <= |clients|
  {
    if clients == [] then []
    else if clients[0] == exclude then BroadcastTargets(clients[1..], exclude)
    else [clients[0]] + BroadcastTargets(clients[1..], exclude)
  }

  /**
   * The relay path end to end: a position message relayed from `origin`
   * is broadcast to every other connected client and never back to its
   * origin, and every recipient decodes from it the update that was sent.
   */
  lemma RelayedPositionReachesOthers(u: PosUpdate, rest: seq<byte>, origin: ConnId, clients: seq<ConnId>)
    requires IsSenderId(u.senderId) && IsFloat64(u.x) && IsFloat64(u.y) && IsFloat64(u.z)
    ensures var r := Relay(PosMessage(u.senderId, u.x, u.y, u.z) + rest, origin);
      && Classify(r.data) == Position(u)
      && (forall c :: c in BroadcastTargets(clients, r.exclude) <==> c in clients && c != origin)
  {
    PosMessageRoundTrip(u.senderId, u.x, u.y, u.z, rest);
  }

  /**
   * The client side of the game: the position updates handed to
   * update_remote_ship and the relays handed to the server, in order.
   */
  class GameClient {
    var updates: seq<PosUpdate>
    var relays: seq<Relay>

    constructor ()
      ensures updates == [] && relays == []
    {
      updates := [];
      relays := [];
    }

    /**
     * process_msg: read the type byte; only a position message is acted on.
     * Its decoded values go unchanged to update_remote_ship, and the datagram
     * is relayed, excluding its origin, exactly when this client hosts an
     * active server. A read past the end stops the handler with no effect.
     */
    method ProcessMsg(data: seq<byte>, origin: ConnId, hasServer: bool, serverActive: bool)
      modifies this
      ensures Classify(data).Position? ==> updates == old(updates) + [Classify(data).update]
      ensures !Classify(data).Position? ==> updates == old(updates)
      ensures Classify(data).Position? && hasServer && serverActive ==> relays == old(relays) + [Relay(data, origin)]
      ensures !(Classify(data).Position? && hasServer && serverActive) ==> relays == old(relays)
    {
      var it := new DatagramIterator(data);
      var msgType := it.GetUint(1);
      if msgType.None? {
        return;
      }
      assert data[0..1] == [data[0]];
      if msgType.value == MsgPosition {
        var senderId := it.GetUint(2);
        if senderId.None? {
          return;
        }
        var x := it.GetFloat64();
        if x.None? {
          return;
        }
        var y := it.GetFloat64();
        if y.None? {
          return;
        }
        var z := it.GetFloat64();
        if z.None? {
          return;
        }
        updates := updates + [PosUpdate(senderId.value, x.value, y.value, z.value)];
        if hasServer && serverActive {
          relays := relays + [Relay(data, origin)];
        }
      }
    }
  }
}

=== FILE: records.dfy ===
/**
 * The equipment records' shared scheme: a class declares an ordered list of
 * typed fields with defaults; construction sets every default and then the
 * known keyword arguments; pack writes the fields in declaration order by
 * type (int as Int32, float as Float64, str as a length-prefixed string,
 * anything else not at all); unpack reads them back in the same order into
 * keyword arguments for the constructor. Some classes also skip fields by
 * name, and unpack comes in two forms: one that stops at the first failed
 * read and keeps what it has, and one that fails outright.
 */
module Records {
  import opened Common
  import opened Wire

  /** A field's declared type; Ref stands for the optional object references, which are never written. */
  datatype FieldKind = IntField | FloatField | StrField | RefField

  /** An attribute value. */
  datatype Value = IntV(i: int) | FloatV(f: Float64) | StrV(s: string) | NoneV | RefV(ref: nat)

  datatype Field = Field(name: string, kind: FieldKind, default: Value)

  type Schema = seq<Field>

  /** Attribute values, by name. */
  type Attrs = map<string, Value>

  /** A value of the field's declared type. */
  predicate OfKind(v: Value, k: FieldKind)
  {
    match k
    case IntField => v.IntV?
    case FloatField => v.FloatV?
    case StrField => v.StrV?
    case RefField => v.NoneV? || v.RefV?
  }

  /** A value of the field's type that the wire can carry (an Int32, a 64-bit pattern, an ASCII string). */
  predicate Encodable(v: Value, k: FieldKind)
  {
    && OfKind(v, k)
    && (v.IntV? ==> IsInt32(v.i))
    && (v.FloatV? ==> IsFloat64(v.f))
    && (v.StrV? ==> IsWireString(v.s))
  }

  /** Whether a field is left off the wire: a reference, or named in the class's skip list. */
  predicate Skipped(f: Field, skip: set<string>)
  {
    f.kind == RefField || f.name in skip
  }

  /** Every field has an attribute, and every written one holds an encodable value of its type. */
  ghost predicate Fits(schema: Schema, attrs: Attrs, skip: set<string>)
  {
    forall i :: 0 <= i < |schema| ==>
      schema[i].name in attrs && (!Skipped(schema[i], skip) ==> Encodable(attrs[schema[i].name], schema[i].kind))
  }

  /** A run of float fields, each defaulting to 0.0, in the order given. */
  function FloatFields(names: seq<string>): (fs: Schema)
    ensures |fs| == |names|
    ensures forall i :: 0 <= i < |fs| ==> fs[i] == Field(names[i], FloatField, FloatV(Zero64))
  {
    seq(|names|, i requires 0 <= i < |names| => Field(names[i], FloatField, FloatV(Zero64)))
  }

  // ---- construction ----

  /** The attributes after the default loop: each field set to its default, in declaration order. */
  function Defaults(schema: Schema): (m: Attrs)
    ensures forall n :: n in m <==> exists i :: 0 <= i < |schema| && schema[i].name == n
  {
    if schema == [] then map[]
    else
      var m := Defaults(schema[..|schema| - 1]);
      assert forall i :: 0 <= i < |schema| - 1 ==> schema[..|schema| - 1][i] == schema[i];
      m[schema[|schema| - 1].name := schema[|schema| - 1].default]
  }

  /** setattr for a known name; an unknown name changes nothing (the source only warns). */
  function SetKnown(m: Attrs, name: string, v: Value): (r: Attrs)
    ensures r.Keys == m.Keys
  {
    if name in m then m[name := v] else m
  }

  /** The keyword loop: the arguments applied in order. */
  function Applied(m: Attrs, params: seq<(string, Value)>): (r: Attrs)
    ensures r.Keys == m.Keys
  {
    if params == [] then m else Applied(SetKnown(m, params[0].0, params[0].1), params[1..])
  }

  /** The constructor: defaults, then the known keyword arguments. */
  function Construct(schema: Schema, params: seq<(string, Value)>): (r: Attrs)
    ensures forall n :: n in r <==> exists i :: 0 <= i < |schema| && schema[i].name == n
  {
    Applied(Defaults(schema), params)
  }

  /** An argument named after no field leaves the result as it was. */
  lemma {:induction false} AppliedIgnoresUnknown(m: Attrs, params: seq<(string, Value)>, name: string, v: Value)
    requires name !in m
    ensures Applied(m, params + [(name, v)]) == Applied(m, params)
  {
    if params != [] {
      assert (params + [(name, v)])[1..] == params[1..] + [(name, v)];
      AppliedIgnoresUnknown(SetKnown(m, params[0].0, params[0].1), params[1..], name, v);
    }
  }

  /** An attribute that no argument names keeps the value it had. */
  lemma {:induction false} AppliedKeeps(m: Attrs, params: seq<(string, Value)>, name: string)
    requires name in m
    requires forall k :: 0 <= k < |params| ==> params[k].0 != name
    ensures Applied(m, params)[name] == m[name]
  {
    if params != [] {
      AppliedKeeps(SetKnown(m, params[0].0, params[0].1), params[1..], name);
    }
  }

  /** The last argument with a field's name decides that field. */
  lemma {:induction false} AppliedLast(m: Attrs, params: seq<(string, Value)>, name: string, v: Value)
    requires name in m
    ensures Applied(m, params + [(name, v)])[name] == v
  {
    if params == [] {
      assert [(name, v)][1..] == [];
    } else {
      assert (params + [(name, v)])[1..] == params[1..] + [(name, v)];
      AppliedLast(SetKnown(m, params[0].0, params[0].1), params[1..], name, v);
    }
  }

  /** The keyword arguments that name a field (from_dict's filter). */
  function KnownOnly(schema: Schema, params: seq<(string, Value)>): (r: seq<(string, Value)>)
    ensures forall k :: 0 <= k < |r| ==> r[k].0 in Defaults(schema)
    ensures |r| <= |params|
  {
    if params == [] then []
    else if params[0].0 in Defaults(schema) then [params[0]] + KnownOnly(schema, params[1..])
    else KnownOnly(schema, params[1..])
  }

  /** Filtering the unknown names first builds the same record: from_dict agrees with the warning constructor. */
  lemma {:induction false} KnownOnlyConstructs(schema: Schema, m: Attrs, params: seq<(string, Value)>)
    requires m.Keys == Defaults(schema).Keys
    ensures Applied(m, KnownOnly(schema, params)) == Applied(m, params)
  {
    if params != [] {
      KnownOnlyConstructs(schema, SetKnown(m, params[0].0, params[0].1), params[1..]);
    }
  }

  // ---- pack ----

  function EncodeValue(v: Value, k: FieldKind): (r: seq<byte>)
    requires Encodable(v, k)
    ensures k == RefField <==> r == []
  {
    match k
    case IntField => EncodeInt32(v.i)
    case FloatField => EncodeFloat64(v.f)
    case StrField => EncodeString(v.s)
    case RefField => []
  }

  /** The bytes pack writes for the fields from index j on. */
  function EncodedFrom(schema: Schema, attrs: Attrs, skip: set<string>, j: nat): seq<byte>
    requires Fits(schema, attrs, skip)
    decreases |schema| - j
  {
    if j >= |schema| then []
    else if Skipped(schema[j], skip) then EncodedFrom(schema, attrs, skip, j + 1)
    else EncodeValue(attrs[schema[j].name], schema[j].kind) + EncodedFrom(schema, attrs, skip, j + 1)
  }

  /** The keyword arguments a faithful unpack produces for the fields from index j on. */
  function EntriesFrom(schema: Schema, attrs: Attrs, skip: set<string>, j: nat): (r: seq<(string, Value)>)
    requires forall i :: 0 <= i < |schema| ==> schema[i].name in attrs
    ensures forall k :: 0 <= k < |r| ==> exists i :: j <= i < |schema| && !Skipped(schema[i], skip) && r[k] == (schema[i].name, attrs[schema[i].name])
    decreases |schema| - j
  {
    if j >= |schema| then []
    else if Skipped(schema[j], skip) then EntriesFrom(schema, attrs, skip, j + 1)
    else [(schema[j].name, attrs[schema[j].name])] + EntriesFrom(schema, attrs, skip, j + 1)
  }

  // ---- unpack ----

  /** One typed read; None past the end of the data. */
  function ReadValue(k: FieldKind, data: seq<byte>, pos: nat): (r: Option<(Value, nat)>)
    requires k != RefField
    ensures r.Some? ==> OfKind(r.value.0, k) && r.value.1 > pos
  {
    match k
    case IntField => (match ReadInt32(data, pos) case None => None case Some((v, p)) => Some((IntV(v), p)))
    case FloatField => (match ReadFloat64(data, pos) case None => None case Some((f, p)) => Some((FloatV(f), p)))
    case StrField => (match ReadString(data, pos) case None => None case Some((s, p)) => Some((StrV(s), p)))
  }

  /** A value written at a position reads back from it, whatever follows. */
  lemma ReadValueWritten(prefix: seq<byte>, v: Value, k: FieldKind, rest: seq<byte>)
    requires k != RefField && Encodable(v, k)
    ensures ReadValue(k, prefix + EncodeValue(v, k) + rest, |prefix|) == Some((v, |prefix| + |EncodeValue(v, k)|))
  {
    match k
    case IntField => ReadInt32Written(prefix, v.i, rest);
    case FloatField => ReadFloat64Written(prefix, v.f, rest);
    case StrField => ReadStringWritten(prefix, v.s, rest);
  }

  /**
   * The lenient unpack (the try/except-break loop): the keyword arguments
   * read from the fields from index j on, stopping at the first failed read.
   */
  function ReadLenientFrom(schema: Schema, data: seq<byte>, skip: set<string>, pos: nat, j: nat): (r: seq<(string, Value)>)
    decreases |schema| - j
  {
    if j >= |schema| then []
    else if Skipped(schema[j], skip) then ReadLenientFrom(schema, data, skip, pos, j + 1)
    else
      match ReadValue(schema[j].kind, data, pos)
      case None => []
      case Some((v, p)) => [(schema[j].name, v)] + ReadLenientFrom(schema, data, skip, p, j + 1)
  }

  /** The strict unpack: the same reads, but any failed read fails the whole unpack. */
  function ReadStrictFrom(schema: Schema, data: seq<byte>, skip: set<string>, pos: nat, j: nat): (r: Option<seq<(string, Value)>>)
    decreases |schema| - j
  {
    if j >= |schema| then Some([])
    else if Skipped(schema[j], skip) then ReadStrictFrom(schema, data, skip, pos, j + 1)
    else
      match ReadValue(schema[j].kind, data, pos)
      case None => None
      case Some((v, p)) =>
        match ReadStrictFrom(schema, data, skip, p, j + 1)
        case None => None
        case Some(rest) => Some([(schema[j].name, v)] + rest)
  }

  /** Where the strict unpack succeeds, the lenient one reads the same arguments. */
  lemma {:induction false} StrictAgreesWithLenient(schema: Schema, data: seq<byte>, skip: set<string>, pos: nat, j: nat)
    requires ReadStrictFrom(schema, data, skip, pos, j).Some?
    ensures ReadLenientFrom(schema, data, skip, pos, j) == ReadStrictFrom(schema, data, skip, pos, j).value
    decreases |schema| - j
  {
    if j < |schema| && !Skipped(schema[j], skip) {
      var r := ReadValue(schema[j].kind, data, pos);
      StrictAgreesWithLenient(schema, data, skip, r.value.1, j + 1);
    } else if j < |schema| {
      StrictAgreesWithLenient(schema, data, skip, pos, j + 1);
    }
  }

  /** The bytes stand in the data from position pos on. */
  predicate WrittenAt(data: seq<byte>, pos: nat, bytes: seq<byte>)
  {
    pos + |bytes| <= |data| && data[pos..pos + |bytes|] == bytes
  }

  /** What stands between a prefix and a rest stands right after the prefix. */
  lemma WrittenBetween(prefix: seq<byte>, bytes: seq<byte>, rest: seq<byte>)
    ensures WrittenAt(prefix + bytes + rest, |prefix|, bytes)
  {
    var data := prefix + bytes + rest;
    assert forall k :: 0 <= k < |bytes| ==> data[|prefix| + k] == bytes[k];
  }

  /** Two pieces written one after the other: each stands in its place. */
  lemma WrittenAtSplit(data: seq<byte>, pos: nat, a: seq<byte>, b: seq<byte>)
    requires WrittenAt(data, pos, a + b)
    ensures WrittenAt(data, pos, a) && WrittenAt(data, pos + |a|, b)
  {
    var w := data[pos..pos + |a| + |b|];
    assert w == a + b;
    assert data[pos..pos + |a|] == w[..|a|] == a;
    assert data[pos + |a|..pos + |a| + |b|] == w[|a|..] == b;
  }

  /** A value written at a position reads back from it. */
  lemma ReadValueAt(data: seq<byte>, pos: nat, v: Value, k: FieldKind)
    requires k != RefField && Encodable(v, k)
    requires WrittenAt(data, pos, EncodeValue(v, k))
    ensures ReadValue(k, data, pos) == Some((v, pos + |EncodeValue(v, k)|))
  {
    var e := EncodeValue(v, k);
    assert data == data[..pos] + e + data[pos + |e|..];
    ReadValueWritten(data[..pos], v, k, data[pos + |e|..]);
  }

  /** One successful read of a written field, then the lenient read of the rest. */
  lemma ReadLenientStep(schema: Schema, data: seq<byte>, skip: set<string>, pos: nat, j: nat, v: Value, next: nat)
    requires j < |schema| && !Skipped(schema[j], skip)
    requires ReadValue(schema[j].kind, data, pos) == Some((v, next))
    ensures ReadLenientFrom(schema, data, skip, pos, j) == [(schema[j].name, v)] + ReadLenientFrom(schema, data, skip, next, j + 1)
  {
  }

  /** One successful read of a written field, then a successful strict read of the rest. */
  lemma ReadStrictStep(schema: Schema, data: seq<byte>, skip: set<string>, pos: nat, j: nat, v: Value, next: nat, tail: seq<(string, Value)>)
    requires j < |schema| && !Skipped(schema[j], skip)
    requires ReadValue(schema[j].kind, data, pos) == Some((v, next))
    requires ReadStrictFrom(schema, data, skip, next, j + 1) == Some(tail)
    ensures ReadStrictFrom(schema, data, skip, pos, j) == Some([(schema[j].name, v)] + tail)
  {
  }

  /** Reading leniently what pack wrote yields, field by field, the written fields' names and values. */
  lemma {:induction false} ReadLenientEncoded(schema: Schema, attrs: Attrs, skip: set<string>, j: nat, data: seq<byte>, pos: nat)
    requires Fits(schema, attrs, skip) && WrittenAt(data, pos, EncodedFrom(schema, attrs, skip, j))
    ensures ReadLenientFrom(schema, data, skip, pos, j) == EntriesFrom(schema, attrs, skip, j)
    decreases |schema| - j
  {
    if j < |schema| {
      if Skipped(schema[j], skip) {
        ReadLenientEncoded(schema, attrs, skip, j + 1, data, pos);
      } else {
        var f := schema[j];
        var e := EncodeValue(attrs[f.name], f.kind);
        WrittenAtSplit(data, pos, e, EncodedFrom(schema, attrs, skip, j + 1));
        ReadValueAt(data, pos, attrs[f.name], f.kind);
        ReadLenientEncoded(schema, attrs, skip, j + 1, data, pos + |e|);
        ReadLenientStep(schema, data, skip, pos, j, attrs[f.name], pos + |e|);
      }
    }
  }

  /** Reading strictly what pack wrote succeeds with the same arguments. */
  lemma {:induction false} ReadStrictEncoded(schema: Schema, attrs: Attrs, skip: set<string>, j: nat, data: seq<byte>, pos: nat)
    requires Fits(schema, attrs, skip) && WrittenAt(data, pos, EncodedFrom(schema, attrs, skip, j))
    ensures ReadStrictFrom(schema, data, skip, pos, j) == Some(EntriesFrom(schema, attrs, skip, j))
    decreases |schema| - j
  {
    if j < |schema| {
      if Skipped(schema[j], skip) {
        ReadStrictEncoded(schema, attrs, skip, j + 1, data, pos);
      } else {
        var f := schema[j];
        var e := EncodeValue(attrs[f.name], f.kind);
        WrittenAtSplit(data, pos, e, EncodedFrom(schema, attrs, skip, j + 1));
        ReadValueAt(data, pos, attrs[f.name], f.kind);
        ReadStrictEncoded(schema, attrs, skip, j + 1, data, pos + |e|);
        ReadStrictStep(schema, data, skip, pos, j, attrs[f.name], pos + |e|, EntriesFrom(schema, attrs, skip, j + 1));
      }
    }
  }

  /**
   * Applying the written fields' arguments to any attributes with the same
   * names sets each written field to its value and leaves every other
   * attribute as it was.
   */
  lemma {:induction false} AppliedEntries(schema: Schema, attrs: Attrs, skip: set<string>, m: Attrs, j: nat)
    requires Fits(schema, attrs, skip) && m.Keys == attrs.Keys
    ensures forall n :: n in m ==>
      Applied(m, EntriesFrom(schema, attrs, skip, j))[n] ==
        if exists i :: j <= i < |schema| && !Skipped(schema[i], skip) && schema[i].name == n then attrs[n] else m[n]
    decreases |schema| - j
  {
    if j < |schema| {
      if Skipped(schema[j], skip) {
        AppliedEntries(schema, attrs, skip, m, j + 1);
      } else {
        var f := schema[j];
        var m' := SetKnown(m, f.name, attrs[f.name]);
        AppliedEntries(schema, attrs, skip, m', j + 1);
      }
    }
  }

  /**
   * unpack(pack(x)) == x: reading back what pack wrote and constructing from
   * it gives the same attributes, provided every field left off the wire
   * holds its default (it comes back as its default).
   */
  lemma RecordRoundTrip(schema: Schema, attrs: Attrs, skip: set<string>, prefix: seq<byte>, rest: seq<byte>)
    requires Fits(schema, attrs, skip) && attrs.Keys == Defaults(schema).Keys
    requires forall i :: 0 <= i < |schema| && Skipped(schema[i], skip) ==> attrs[schema[i].name] == Defaults(schema)[schema[i].name]
    ensures Construct(schema, ReadLenientFrom(schema, prefix + EncodedFrom(schema, attrs, skip, 0) + rest, skip, |prefix|, 0)) == attrs
    ensures ReadStrictFrom(schema, prefix + EncodedFrom(schema, attrs, skip, 0) + rest, skip, |prefix|, 0).Some?
  {
    WrittenBetween(prefix, EncodedFrom(schema, attrs, skip, 0), rest);
    ReadLenientEncoded(schema, attrs, skip, 0, prefix + EncodedFrom(schema, attrs, skip, 0) + rest, |prefix|);
    ReadStrictEncoded(schema, attrs, skip, 0, prefix + EncodedFrom(schema, attrs, skip, 0) + rest, |prefix|);
    ConstructEntries(schema, attrs, skip);
  }

  /** Constructing from the written fields' arguments rebuilds the attributes when the skipped fields hold their defaults. */
  lemma ConstructEntries(schema: Schema, attrs: Attrs, skip: set<string>)
    requires Fits(schema, attrs, skip) && attrs.Keys == Defaults(schema).Keys
    requires forall i :: 0 <= i < |schema| && Skipped(schema[i], skip) ==> attrs[schema[i].name] == Defaults(schema)[schema[i].name]
    ensures Construct(schema, EntriesFrom(schema, attrs, skip, 0)) == attrs
  {
    AppliedEntries(schema, attrs, skip, Defaults(schema), 0);
    var r := Construct(schema, EntriesFrom(schema, attrs, skip, 0));
    forall n | n in attrs
      ensures r[n] == attrs[n]
    {
      var i :| 0 <= i < |schema| && schema[i].name == n;
    }
  }

  /** A field that no read argument names keeps its default: a lenient unpack that stops early leaves the rest at their defaults. */
  lemma ConstructKeepsDefaults(schema: Schema, params: seq<(string, Value)>, name: string)
    requires name in Defaults(schema)
    requires forall k :: 0 <= k < |params| ==> params[k].0 != name
    ensures Construct(schema, params)[name] == Defaults(schema)[name]
  {
    AppliedKeeps(Defaults(schema), params, name);
  }

  /** get_stat: the attribute of that name, or 0.0 when there is none. */
  function GetStat(attrs: Attrs, name: string): (v: Value)
  {
    if name in attrs then attrs[name] else FloatV(Zero64)
  }

  /**
   * On a constructed record, get_stat yields 0.0 for a name that is no
   * field, and a field's default when no argument set it.
   */
  lemma GetStatOfConstructed(schema: Schema, params: seq<(string, Value)>, name: string)
    ensures (forall i :: 0 <= i < |schema| ==> schema[i].name != name) ==>
      GetStat(Construct(schema, params), name) == FloatV(Zero64)
    ensures name in Defaults(schema) && (forall k :: 0 <= k < |params| ==> params[k].0 != name) ==>
      GetStat(Construct(schema, params), name) == Defaults(schema)[name]
  {
    if name in Defaults(schema) && (forall k :: 0 <= k < |params| ==> params[k].0 != name) {
      ConstructKeepsDefaults(schema, params, name);
    }
  }

  /** One typed read through the iterator, mirroring ReadValue. */
  method ReadField(it: DatagramIterator, k: FieldKind) returns (v: Option<Value>)
    requires k != RefField
    modifies it
    ensures ReadValue(k, it.data, old(it.pos)).None? ==> v.None? && it.pos == old(it.pos)
    ensures ReadValue(k, it.data, old(it.pos)).Some? ==>
      v == Some(ReadValue(k, it.data, old(it.pos)).value.0) && it.pos == ReadValue(k, it.data, old(it.pos)).value.1
  {
    match k
    case IntField =>
      var x := it.GetInt32();
      v := if x.Some? then Some(IntV(x.value)) else None;
    case FloatField =>
      var x := it.GetFloat64();
      v := if x.Some? then Some(FloatV(x.value)) else None;
    case StrField =>
      var x := it.GetString();
      v := if x.Some? then Some(StrV(x.value)) else None;
  }

  /** An equipment record: its class's field list and pack skip list, and its attributes. */
  class Record {
    const schema: Schema
    const skip: set<string>
    var attrs: Attrs

    /** The constructor: every field set to its default, then each known keyword argument in order. */
    constructor (schema: Schema, skip: set<string>, params: seq<(string, Value)>)
      ensures this.schema == schema && this.skip == skip
      ensures attrs == Construct(schema, params)
    {
      this.schema := schema;
      this.skip := skip;
      attrs := map[];
      new;
      var i := 0;
      while i < |schema|
        invariant 0 <= i <= |schema|
        invariant attrs == Defaults(schema[..i])
      {
        assert schema[..i + 1][..i] == schema[..i];
        attrs := attrs[schema[i].name := schema[i].default];
        i := i + 1;
      }
      assert schema[..i] == schema;
      var k := 0;
      while k < |params|
        invariant 0 <= k <= |params|
        invariant Applied(attrs, params[k..]) == Construct(schema, params)
      {
        if params[k].0 in attrs {
          attrs := attrs[params[k].0 := params[k].1];
        }
        k := k + 1;
      }
    }

    /** pack: each field not skipped, in declaration order, written by its type. */
    method Pack(dg: Datagram)
      requires Fits(schema, attrs, skip)
      modifies dg
      ensures dg.data == old(dg.data) + EncodedFrom(schema, attrs, skip, 0)
    {
      var i := 0;
      while i < |schema|
        invariant 0 <= i <= |schema|
        invariant old(dg.data) + EncodedFrom(schema, attrs, skip, 0) == dg.data + EncodedFrom(schema, attrs, skip, i)
      {
        var f := schema[i];
        if !Skipped(f, skip) {
          var v := attrs[f.name];
          match f.kind
          case IntField => dg.AddInt32(v.i);
          case FloatField => dg.AddFloat64(v.f);
          case StrField => dg.AddString(v.s);
        }
        i := i + 1;
      }
    }
  }

  /**
   * The lenient unpack: read field by field into keyword arguments, stop at
   * the first failed read, and construct from what was read.
   */
  method UnpackLenient(schema: Schema, skip: set<string>, it: DatagramIterator) returns (r: Record)
    modifies it
    ensures fresh(r) && r.schema == schema && r.skip == skip
    ensures r.attrs == Construct(schema, ReadLenientFrom(schema, it.data, skip, old(it.pos), 0))
  {
    var entries := [];
    var i := 0;
    while i < |schema|
      invariant 0 <= i <= |schema|
      invariant ReadLenientFrom(schema, it.data, skip, old(it.pos), 0) == entries + ReadLenientFrom(schema, it.data, skip, it.pos, i)
    {
      if !Skipped(schema[i], skip) {
        var v := ReadField(it, schema[i].kind);
        if v.None? {
          assert ReadLenientFrom(schema, it.data, skip, it.pos, i) == [];
          break;
        }
        entries := entries + [(schema[i].name, v.value)];
      }
      i := i + 1;
    }
    assert entries + [] == entries;
    assert ReadLenientFrom(schema, it.data, skip, old(it.pos), 0) == entries;
    r := new Record(schema, skip, entries);
  }

  /** The strict unpack: the same reads; any failed read fails the unpack (the source raises). */
  method UnpackStrict(schema: Schema, skip: set<string>, it: DatagramIterator) returns (r: Option<Record>)
    modifies it
    ensures ReadStrictFrom(schema, it.data, skip, old(it.pos), 0).None? <==> r.None?
    ensures r.Some? ==> fresh(r.value) && r.value.schema == schema && r.value.skip == skip
    ensures r.Some? ==> r.value.attrs == Construct(schema, ReadStrictFrom(schema, it.data, skip, old(it.pos), 0).value)
  {
    var entries := [];
    var i := 0;
    while i < |schema|
      invariant 0 <= i <= |schema|
      invariant ReadStrictFrom(schema, it.data, skip, old(it.pos), 0).None? <==> ReadStrictFrom(schema, it.data, skip, it.pos, i).None?
      invariant ReadStrictFrom(schema, it.data, skip, it.pos, i).Some? ==>
        ReadStrictFrom(schema, it.data, skip, old(it.pos), 0).value == entries + ReadStrictFrom(schema, it.data, skip, it.pos, i).value
    {
      if !Skipped(schema[i], skip) {
        var v := ReadField(it, schema[i].kind);
        if v.None? {
          return None;
        }
        entries := entries + [(schema[i].name, v.value)];
      }
      i := i + 1;
    }
    assert entries + [] == entries;
    assert ReadStrictFrom(schema, it.data, skip, old(it.pos), 0) == Some(entries);
    var rec := new Record(schema, skip, entries);
    r := Some(rec);
  }

  // ---- classes ending in the two object references ----

  /** The two reference fields, which the network classes skip by name. */
  const ReferenceNames: set<string> := {"blueprint", "reprocess"}

  /** A field list followed by the two references, both defaulting to None. */
  function WithReferences(body: Schema): (schema: Schema)
    ensures |schema| == |body| + 2 && schema[..|body|] == body
    ensures schema[|body|] == Field("blueprint", RefField, NoneV)
    ensures schema[|body| + 1] == Field("reprocess", RefField, NoneV)
  {
    body + [Field("blueprint", RefField, NoneV), Field("reprocess", RefField, NoneV)]
  }

  /** Fields that are written: no reference, and no name from the skip list. */
  predicate PlainFields(body: Schema)
  {
    forall i :: 0 <= i < |body| ==> body[i].kind != RefField && body[i].name !in ReferenceNames
  }

  lemma PlainConcat(a: Schema, b: Schema)
    requires PlainFields(a) && PlainFields(b)
    ensures PlainFields(a + b)
  {
    assert forall i :: |a| <= i < |a + b| ==> (a + b)[i] == b[i - |a|];
  }

  /** Float fields are written unless one carries a reference's name. */
  lemma PlainFloatFields(names: seq<string>)
    requires forall i :: 0 <= i < |names| ==> names[i] !in ReferenceNames
    ensures PlainFields(FloatFields(names))
  {
  }

  /**
   * For a class ending in the two references, unpack(pack(x)) == x: the
   * strict unpack of what pack wrote succeeds and rebuilds the record,
   * provided both references are None (they are not sent and come back
   * None).
   */
  lemma ReferencesRoundTrip(body: Schema, attrs: Attrs, prefix: seq<byte>, rest: seq<byte>)
    requires PlainFields(body)
    requires Fits(WithReferences(body), attrs, ReferenceNames) && attrs.Keys == Defaults(WithReferences(body)).Keys
    requires "blueprint" in attrs && attrs["blueprint"] == NoneV
    requires "reprocess" in attrs && attrs["reprocess"] == NoneV
    ensures ReadStrictFrom(WithReferences(body), prefix + EncodedFrom(WithReferences(body), attrs, ReferenceNames, 0) + rest,
      ReferenceNames, |prefix|, 0).Some?
    ensures Construct(WithReferences(body), ReadStrictFrom(WithReferences(body),
      prefix + EncodedFrom(WithReferences(body), attrs, ReferenceNames, 0) + rest, ReferenceNames, |prefix|, 0).value) == attrs
  {
    var schema := WithReferences(body);
    var n := |schema|;
    assert schema[..n - 1][..n - 2] == body;
    assert schema[..n - 1] == body + [Field("blueprint", RefField, NoneV)];
    assert Defaults(schema)["blueprint"] == NoneV && Defaults(schema)["reprocess"] == NoneV;
    assert forall i :: 0 <= i < n - 2 ==> schema[i] == body[i];
    RecordRoundTrip(schema, attrs, ReferenceNames, prefix, rest);
    StrictAgreesWithLenient(schema, prefix + EncodedFrom(schema, attrs, ReferenceNames, 0) + rest, ReferenceNames, |prefix|, 0);
  }
}

=== FILE: ship.dfy ===
/**
 * Ship combat bookkeeping: mounted components, shield capacity, damage that
 * drains the shield before the hull, and capped shield regeneration.
 *
 * A ship is an entity: its hull and its registry entry live in the `Entity`
 * it wraps, and destroying the ship destroys that entity.
 */
module Ships {
  import opened Common
  import opened Entities

  /** An engine: a name, a level and three numbers whose meaning is not part of this model. */
  datatype EngineSpec = EngineSpec(name: string, level: int, stats: seq<real>)

  /** A shield: a name, a level, a capacity and a recharge rate per second. */
  datatype ShieldSpec = ShieldSpec(name: string, level: int, capacity: real, rechargeRate: real)

  /** A mountable component: an engine, a shield or anything else. */
  datatype Component =
    | Engine(engine: EngineSpec)
    | Shield(shield: ShieldSpec)
    | Other(name: string)

  const StandardThruster: EngineSpec := EngineSpec("Standard Thruster", 1, [20.0, 50.0, 3.0])
  const BasicShield: ShieldSpec := ShieldSpec("Basic Shield", 1, 500.0, 5.0)

  function Min(a: real, b: real): (r: real)
    ensures r <= a && r <= b && (r == a || r == b)
  {
    if a <= b then a else b
  }

  function Max(a: real, b: real): (r: real)
    ensures r >= a && r >= b && (r == a || r == b)
  {
    if a >= b then a else b
  }

  /** The total capacity of the mounted shields, summed in mounting order. */
  function Capacity(shields: seq<ShieldSpec>): real
  {
    if shields == [] then 0.0 else shields[0].capacity + Capacity(shields[1..])
  }

  /** Mounting one more shield adds exactly its capacity to the total. */
  lemma {:induction false} CapacityAppend(shields: seq<ShieldSpec>, s: ShieldSpec)
    ensures Capacity(shields + [s]) == Capacity(shields) + s.capacity
  {
    if shields != [] {
      assert (shields + [s])[1..] == shields[1..] + [s];
      CapacityAppend(shields[1..], s);
    }
  }

  /** Non-negative capacities sum to a non-negative total. */
  lemma {:induction false} CapacityNonNegative(shields: seq<ShieldSpec>)
    requires forall i :: 0 <= i < |shields| ==> shields[i].capacity >= 0.0
    ensures Capacity(shields) >= 0.0
  {
    if shields != [] {
      CapacityNonNegative(shields[1..]);
    }
  }

  /** Shield and hull after a hit. */
  datatype Vitals = Vitals(shield: real, hull: real)

  /**
   * take_damage's damage step: a hit the shield can hold only drains the
   * shield; a bigger hit empties the shield and the rest comes off the hull,
   * which stops at zero.
   */
  function Damage(v: Vitals, amount: real): (r: Vitals)
    ensures amount <= v.shield ==> r.hull == v.hull && r.shield == v.shield - amount
    ensures amount > v.shield ==> r.shield == 0.0 && r.hull == Max(0.0, v.shield + v.hull - amount)
    ensures v.hull >= 0.0 ==> r.hull >= 0.0
    ensures 0.0 <= amount && 0.0 <= v.shield && 0.0 <= v.hull ==> 0.0 <= r.shield <= v.shield && r.hull <= v.hull
    ensures r.hull > 0.0 ==> (v.shield + v.hull) - (r.shield + r.hull) == amount
  {
    if v.shield >= amount then Vitals(v.shield - amount, v.hull)
    else
      var rest := amount - v.shield;
      Vitals(0.0, Max(0.0, v.hull - rest))
  }

  /** A hit never exceeding the shield leaves the hull intact whatever it is. */
  lemma ShieldAbsorbs(v: Vitals, amount: real)
    requires 0.0 <= amount <= v.shield
    ensures Damage(v, amount).hull == v.hull
    ensures Damage(v, amount).shield + amount == v.shield
  {
  }

  /** Two hits that the shield holds are one hit of their sum. */
  lemma ShieldHitsAdd(v: Vitals, a: real, b: real)
    requires 0.0 <= a && 0.0 <= b && a + b <= v.shield
    ensures Damage(Damage(v, a), b) == Damage(v, a + b)
  {
  }

  /**
   * The shield-regeneration part of update: for each mounted shield in
   * order, a shield below its maximum gains rate * dt, capped at the maximum.
   */
  function RegenFold(current: real, maxShield: real, shields: seq<ShieldSpec>, dt: real): real
  {
    if shields == [] then current
    else
      var prev := RegenFold(current, maxShield, shields[..|shields| - 1], dt);
      if prev < maxShield then Min(maxShield, prev + shields[|shields| - 1].rechargeRate * dt) else prev
  }

  /** Regeneration never lifts the shield above its maximum, and never moves it if it starts at or above it. */
  lemma {:induction false} RegenCapped(current: real, maxShield: real, shields: seq<ShieldSpec>, dt: real)
    ensures current <= maxShield ==> RegenFold(current, maxShield, shields, dt) <= maxShield
    ensures current >= maxShield ==> RegenFold(current, maxShield, shields, dt) == current
  {
    if shields != [] {
      RegenCapped(current, maxShield, shields[..|shields| - 1], dt);
    }
  }

  /** With non-negative rates and time step, regeneration never lowers the shield. */
  lemma {:induction false} RegenMonotone(current: real, maxShield: real, shields: seq<ShieldSpec>, dt: real)
    requires forall i :: 0 <= i < |shields| ==> shields[i].rechargeRate >= 0.0
    requires dt >= 0.0 && current <= maxShield
    ensures current <= RegenFold(current, maxShield, shields, dt)
  {
    if shields != [] {
      RegenMonotone(current, maxShield, shields[..|shields| - 1], dt);
      RegenCapped(current, maxShield, shields[..|shields| - 1], dt);
    }
  }

  class Ship {
    /** The entity part: id, registry entry, hull. */
    const base: Entity
    const isLocal: bool
    var engines: seq<EngineSpec>
    var shields: seq<ShieldSpec>
    var maxShield: real
    var currentShield: real

    function GetVitals(): Vitals
      reads this, base
    {
      Vitals(currentShield, base.currentHull)
    }

    /** The mounted equipment and the shield maximum it gives. */
    function Fitting(): (seq<EngineSpec>, seq<ShieldSpec>, real)
      reads this
    {
      (engines, shields, maxShield)
    }

    /**
     * Ship.__init__: registers the entity, sets hull 1000/1000 and shield
     * 0/0, mounts the standard thruster and the basic shield and recomputes
     * the shield maximum, so the ship ends with shield 0/500.
     */
    constructor (world: World, shipId: EntityId, uuid: string, isLocal: bool, name: string)
      requires uuid != ""
      modifies world
      ensures fresh(base)
      ensures base.id == ResolveId(shipId, uuid) && base.world == world && base.kind == ShipKind
      ensures base.isActive && base.hasRoot && base.name == name && base.pos == Origin
      ensures base.maxHull == 1000.0 && base.currentHull == 1000.0
      ensures engines == [StandardThruster] && shields == [BasicShield]
      ensures maxShield == 500.0 && currentShield == 0.0
      ensures this.isLocal == isLocal
      ensures world.entities == old(world.entities)[base.id := base]
      ensures old(world.Valid()) ==> world.Valid()
    {
      var e := new Entity(world, shipId, uuid, name, ShipKind);
      e.maxHull := 1000.0;
      e.currentHull := 1000.0;
      base := e;
      this.isLocal := isLocal;
      engines, shields := [], [];
      maxShield, currentShield := 0.0, 0.0;
      new;
      MountComponent(Engine(StandardThruster));
      MountComponent(Shield(BasicShield));
      RecalculateStats();
    }

    /** mount_component: engines and shields go to their lists; anything else to neither. */
    method MountComponent(c: Component)
      modifies this
      ensures engines == if c.Engine? then old(engines) + [c.engine] else old(engines)
      ensures shields == if c.Shield? then old(shields) + [c.shield] else old(shields)
      ensures maxShield == old(maxShield) && currentShield == old(currentShield)
    {
      if c.Engine? {
        engines := engines + [c.engine];
      } else if c.Shield? {
        shields := shields + [c.shield];
      }
    }

    /** recalculate_stats: the maximum becomes the summed capacity and the current value is clamped to it. */
    method RecalculateStats()
      modifies this
      ensures engines == old(engines) && shields == old(shields)
      ensures maxShield == Capacity(shields)
      ensures currentShield == Min(old(currentShield), maxShield)
    {
      maxShield := Capacity(shields);
      currentShield := Min(currentShield, maxShield);
    }

    /**
     * take_damage: applies the damage step and destroys the ship exactly when
     * the hull is at or below zero afterwards.
     */
    method TakeDamage(amount: real) returns (destroyed: bool)
      modifies this, base, base.world
      ensures GetVitals() == Damage(old(GetVitals()), amount)
      ensures destroyed <==> base.currentHull <= 0.0
      ensures destroyed ==> base.world.entities == Unregister(old(base.world.entities), base.id)
      ensures destroyed ==> !base.isActive && !base.hasRoot
      ensures !destroyed ==> base.world.entities == old(base.world.entities)
      ensures !destroyed ==> base.isActive == old(base.isActive) && base.hasRoot == old(base.hasRoot)
      ensures engines == old(engines) && shields == old(shields) && maxShield == old(maxShield)
      ensures base.maxHull == old(base.maxHull) && base.pos == old(base.pos) && base.hpr == old(base.hpr)
      ensures old(base.world.Valid()) ==> base.world.Valid()
    {
      if currentShield >= amount {
        currentShield := currentShield - amount;
      } else {
        var rest := amount - currentShield;
        currentShield := 0.0;
        base.currentHull := Max(0.0, base.currentHull - rest);
      }
      destroyed := base.currentHull <= 0.0;
      if destroyed {
        Destroy();
      }
    }

    /** Ship.destroy: the destroyed-event is sent out, then the entity is destroyed. */
    method Destroy()
      modifies base, base.world
      ensures base.world.entities == Unregister(old(base.world.entities), base.id)
      ensures !base.isActive && !base.hasRoot
      ensures base.currentHull == old(base.currentHull) && base.maxHull == old(base.maxHull)
      ensures base.pos == old(base.pos) && base.hpr == old(base.hpr)
      ensures old(base.world.Valid()) ==> base.world.Valid()
    {
      base.Destroy();
    }

    /** The shield-regeneration loop of update. */
    method RegenerateShields(dt: real)
      modifies this
      ensures engines == old(engines) && shields == old(shields) && maxShield == old(maxShield)
      ensures currentShield == RegenFold(old(currentShield), maxShield, shields, dt)
    {
      var i := 0;
      while i < |shields|
        invariant 0 <= i <= |shields|
        invariant engines == old(engines) && shields == old(shields) && maxShield == old(maxShield)
        invariant currentShield == RegenFold(old(currentShield), maxShield, shields[..i], dt)
      {
        assert shields[..i + 1][..i] == shields[..i];
        if currentShield < maxShield {
          currentShield := Min(maxShield, currentShield + shields[i].rechargeRate * dt);
        }
        i := i + 1;
      }
      assert shields[..|shields|] == shields;
    }

    /**
     * update: the laser and tractor handling of a local ship is not part of
     * this model; what remains is shield regeneration.
     */
    method Update(dt: real)
      modifies this
      ensures engines == old(engines) && shields == old(shields) && maxShield == old(maxShield)
      ensures currentShield == RegenFold(old(currentShield), maxShield, shields, dt)
    {
      RegenerateShields(dt);
    }
  }

  /** A freshly built ship regenerates 5 per second up to 500. */
  lemma FreshShipRegen(dt: real)
    requires 0.0 <= dt <= 100.0
    ensures RegenFold(0.0, 500.0, [BasicShield], dt) == 5.0 * dt
  {
  }
}

=== FILE: ship_manager.dfy ===
/**
 * The ship manager: spawning a horde of drones under consecutive integer ids,
 * and the per-frame update whose work depends on how far each ship is from
 * the local player.
 */
module ShipManagement {
  import opened Common
  import opened Entities
  import opened Ships

  /** What a manager tick does to one ship. */
  datatype Tier = Full | ShieldOnly | Untouched

  const NearSq: real := 800.0 * 800.0
  const FarSq: real := 2500.0 * 2500.0

  /** The distance tiers: full update inside 800, shield trickle inside 2500, nothing beyond. */
  function TierOf(distSq: real): (t: Tier)
    ensures t == Full <==> distSq < NearSq
    ensures t == ShieldOnly <==> NearSq <= distSq < FarSq
    ensures t == Untouched <==> FarSq <= distSq
  {
    if distSq < NearSq then Full
    else if distSq < FarSq then ShieldOnly
    else Untouched
  }

  /** The shield of one ship after a tick in the given tier. */
  function Ticked(t: Tier, current: real, maxShield: real, shields: seq<ShieldSpec>, dt: real): real
  {
    match t
    case Full => RegenFold(current, maxShield, shields, dt)
    case ShieldOnly => Min(maxShield, current + 1.0 * dt)
    case Untouched => current
  }

  /**
   * In every tier a shield at or below its maximum stays at or below it, and
   * with non-negative rates and time step it does not drop.
   */
  lemma TickBounded(t: Tier, current: real, maxShield: real, shields: seq<ShieldSpec>, dt: real)
    requires forall i :: 0 <= i < |shields| ==> shields[i].rechargeRate >= 0.0
    requires current <= maxShield && dt >= 0.0
    ensures current <= Ticked(t, current, maxShield, shields, dt) <= maxShield
  {
    RegenCapped(current, maxShield, shields, dt);
    RegenMonotone(current, maxShield, shields, dt);
  }

  /** The ids spawn_horde gives out: 5000, 5001, ... */
  function HordeId(i: nat): int { 5000 + i }

  /** Whether the horde ids 5000, 5001, ... file exactly the values `spawned`, in order. */
  ghost predicate FilesHorde<T>(m: map<int, T>, spawned: seq<T>)
  {
    forall j :: 0 <= j < |spawned| ==> HordeId(j) in m && m[HordeId(j)] == spawned[j]
  }

  lemma FilesHordeExtend<T>(m: map<int, T>, spawned: seq<T>, x: T)
    requires FilesHorde(m, spawned)
    ensures FilesHorde(m[HordeId(|spawned|) := x], spawned + [x])
  {
  }

  /** The same run, filed in the entity registry under IntId keys. */
  ghost predicate RegistersHorde<T>(m: map<EntityId, T>, spawned: seq<T>)
  {
    forall j :: 0 <= j < |spawned| ==> IntId(HordeId(j)) in m && m[IntId(HordeId(j))] == spawned[j]
  }

  lemma RegistersHordeExtend<T>(m: map<EntityId, T>, spawned: seq<T>, x: T)
    requires RegistersHorde(m, spawned)
    ensures RegistersHorde(m[IntId(HordeId(|spawned|)) := x], spawned + [x])
  {
  }

  /**
   * Whether `m` is `before` with the horde ids below 5000+n filed: its keys
   * are the old ones and those ids, and every other old entry is unchanged.
   */
  ghost predicate HordeAdded<T>(before: map<int, T>, m: map<int, T>, n: nat)
  {
    && (forall k :: k in m <==> k in before || 5000 <= k < 5000 + n)
    && (forall k :: k in before && !(5000 <= k < 5000 + n) ==> m[k] == before[k])
  }

  lemma HordeAddedStep<T>(before: map<int, T>, m: map<int, T>, n: nat, x: T)
    requires HordeAdded(before, m, n)
    ensures HordeAdded(before, m[HordeId(n) := x], n + 1)
  {
  }

  /** Whether an entity id is one of the horde ids 5000 .. 5000+n-1. */
  predicate InHorde(k: EntityId, n: nat)
  {
    k.IntId? && 5000 <= k.n < 5000 + n
  }

  /**
   * Whether the registry `m` is `before` with the horde ids below 5000+n
   * registered: its keys are the old ones and those ids, and every other
   * old entry is unchanged.
   */
  ghost predicate HordeRegistered<T>(before: map<EntityId, T>, m: map<EntityId, T>, n: nat)
  {
    && (forall k :: k in m <==> k in before || InHorde(k, n))
    && (forall k :: k in before && !InHorde(k, n) ==> m[k] == before[k])
  }

  lemma HordeRegisteredStep<T>(before: map<EntityId, T>, m: map<EntityId, T>, n: nat, x: T)
    requires HordeRegistered(before, m, n)
    ensures HordeRegistered(before, m[IntId(HordeId(n)) := x], n + 1)
  {
  }

  /** A placeholder UUID; ship ids from 5000 on are truthy, so it is never used. */
  const UnusedShipUuid: string := "00000000-0000-0000-0000-000000000000"

  class ShipManager {
    const world: World
    var ships: map<int, Ship>
    /** The keys of `ships` in insertion order, the order in which the update visits them. */
    var order: seq<int>
    var hasMasterModel: bool

    ghost predicate Valid()
      reads this
    {
      && (forall k :: k in ships ==> ships[k].base.id == IntId(k))
      && (forall i, j :: 0 <= i < j < |order| ==> order[i] != order[j])
      && (forall k :: k in ships <==> k in order)
      && (forall j :: 0 <= j < |order| ==> order[j] in ships)
    }

    constructor (world: World)
      ensures this.world == world && ships == map[] && order == [] && !hasMasterModel
      ensures Valid()
    {
      this.world := world;
      ships := map[];
      order := [];
      hasMasterModel := false;
    }

    /** One drone of spawn_horde: Drone-{i} under id 5000+i, at the drawn position. */
    method SpawnDrone(i: nat, position: Vec3)
      requires Valid()
      modifies this, world
      ensures Valid() && hasMasterModel == old(hasMasterModel)
      ensures HordeId(i) in ships && ships == old(ships)[HordeId(i) := ships[HordeId(i)]]
      ensures fresh(ships[HordeId(i)]) && fresh(ships[HordeId(i)].base)
      ensures ships[HordeId(i)].base.name == "Drone-" + NatToString(i)
      ensures ships[HordeId(i)].base.pos == position
      ensures ships[HordeId(i)].base.world == world
      ensures world.entities == old(world.entities)[IntId(HordeId(i)) := ships[HordeId(i)].base]
      ensures order == if HordeId(i) in old(ships) then old(order) else old(order) + [HordeId(i)]
      ensures old(world.Valid()) ==> world.Valid()
    {
      var id := HordeId(i);
      var s := new Ship(world, IntId(id), UnusedShipUuid, false, "Drone-" + NatToString(i));
      s.base.SetPos(position);
      if id !in ships {
        order := order + [id];
      }
      ships := ships[id := s];
    }

    /**
     * spawn_horde: without a master model nothing is spawned; otherwise
     * ships 5000 .. 5000+count-1 are created, registered in the entity
     * registry and filed under their ids. The positions are the random draws.
     */
    method SpawnHorde(count: nat, positions: seq<Vec3>)
      requires Valid() && |positions| == count
      modifies this, world
      ensures Valid() && hasMasterModel == old(hasMasterModel)
      ensures !hasMasterModel ==> ships == old(ships) && order == old(order) && world.entities == old(world.entities)
      ensures hasMasterModel ==> forall i :: 0 <= i < count ==>
        && HordeId(i) in ships
        && IntId(HordeId(i)) in world.entities
        && world.entities[IntId(HordeId(i))] == ships[HordeId(i)].base
      ensures hasMasterModel ==> forall k :: k in ships <==> k in old(ships) || 5000 <= k < 5000 + count
      ensures forall k :: k in old(ships) && !(5000 <= k < 5000 + count) ==> ships[k] == old(ships[k])
      ensures hasMasterModel ==> HordeRegistered(old(world.entities), world.entities, count)
      ensures old(world.Valid()) ==> world.Valid()
    {
      if hasMasterModel {
        SpawnDrones(count, positions);
      }
    }

    /** The loop of spawn_horde. */
    method SpawnDrones(count: nat, positions: seq<Vec3>)
      requires Valid() && |positions| == count
      modifies this, world
      ensures Valid() && hasMasterModel == old(hasMasterModel)
      ensures forall i :: 0 <= i < count ==>
        && HordeId(i) in ships
        && IntId(HordeId(i)) in world.entities
        && world.entities[IntId(HordeId(i))] == ships[HordeId(i)].base
      ensures forall k :: k in ships <==> k in old(ships) || 5000 <= k < 5000 + count
      ensures forall k :: k in old(ships) && !(5000 <= k < 5000 + count) ==> ships[k] == old(ships[k])
      ensures HordeRegistered(old(world.entities), world.entities, count)
      ensures old(world.Valid()) ==> world.Valid()
    {
      var i := 0;
      ghost var drones: seq<Ship> := [];
      ghost var bases: seq<Entity> := [];
      while i < count
        invariant 0 <= i <= count && |drones| == i && |bases| == i
        invariant Valid() && hasMasterModel == old(hasMasterModel)
        invariant FilesHorde(ships, drones)
        invariant RegistersHorde(world.entities, bases)
        invariant forall j :: 0 <= j < i ==> bases[j] == drones[j].base
        invariant HordeAdded(old(ships), ships, i)
        invariant HordeRegistered(old(world.entities), world.entities, i)
        invariant old(world.Valid()) ==> world.Valid()
      {
        ghost var beforeShips := ships;
        ghost var beforeWorld := world.entities;
        SpawnDrone(i, positions[i]);
        ghost var d := ships[HordeId(i)];
        FilesHordeExtend(beforeShips, drones, d);
        RegistersHordeExtend(beforeWorld, bases, d.base);
        HordeAddedStep(old(ships), beforeShips, i, d);
        HordeRegisteredStep(old(world.entities), beforeWorld, i, d.base);
        drones := drones + [d];
        bases := bases + [d.base];
        i := i + 1;
      }
    }

    /** One ship's share of update: the work of its distance tier. */
    static method TickShip(ship: Ship, dt: real, playerPos: Vec3)
      modifies ship
      ensures ship.Fitting() == old(ship.Fitting())
      ensures ship.currentShield ==
        Ticked(TierOf(LengthSquared(Minus(ship.base.pos, playerPos))), old(ship.currentShield), ship.maxShield, ship.shields, dt)
    {
      var distSq := LengthSquared(Minus(ship.base.pos, playerPos));
      if distSq < NearSq {
        ship.Update(dt);
      } else if distSq < FarSq {
        ship.currentShield := Min(ship.maxShield, ship.currentShield + 1.0 * dt);
      }
    }

    /**
     * update: with no local ship nothing happens; otherwise the ships are
     * visited in insertion order and each is ticked by the tier of its
     * squared distance from the player. A destroyed ship has no root, and
     * reading its position raises: the update stops at the first such ship
     * (`ok` is false), the ships before it already ticked and the rest not.
     * `stoppedAt` is how many ships were ticked.
     */
    method Update(dt: real, localShipPos: Option<Vec3>) returns (ok: bool, ghost stoppedAt: nat)
      requires Valid()
      modifies ships.Values
      ensures Valid()
      ensures forall k :: k in ships ==>
        ships[k].engines == old(ships[k].engines) && ships[k].shields == old(ships[k].shields) && ships[k].maxShield == old(ships[k].maxShield)
      ensures localShipPos.None? ==> ok && forall k :: k in ships ==> ships[k].currentShield == old(ships[k].currentShield)
      ensures localShipPos.Some? ==> (ok <==> forall k :: k in ships ==> ships[k].base.hasRoot)
      ensures localShipPos.Some? ==> stoppedAt <= |order| && (ok <==> stoppedAt == |order|)
      ensures localShipPos.Some? ==> forall j :: 0 <= j < stoppedAt ==> ships[order[j]].base.hasRoot
      ensures localShipPos.Some? && !ok ==> !ships[order[stoppedAt]].base.hasRoot
      ensures localShipPos.Some? ==> forall k :: k in ships ==>
        ships[k].currentShield ==
          if k in order[..stoppedAt]
          then Ticked(TierOf(LengthSquared(Minus(ships[k].base.pos, localShipPos.value))),
                      old(ships[k].currentShield), ships[k].maxShield, ships[k].shields, dt)
          else old(ships[k].currentShield)
    {
      stoppedAt := 0;
      if localShipPos.None? {
        return true, 0;
      }
      var playerPos := localShipPos.value;
      var i := 0;
      while i < |order|
        invariant 0 <= i <= |order|
        invariant Valid()
        invariant forall j :: 0 <= j < i ==> ships[order[j]].base.hasRoot
        invariant forall k :: k in ships ==> ships[k].Fitting() == old(ships[k].Fitting())
        invariant forall k :: k in ships ==>
          ships[k].currentShield ==
            if k in order[..i]
            then Ticked(TierOf(LengthSquared(Minus(ships[k].base.pos, playerPos))),
                        old(ships[k].currentShield), old(ships[k].maxShield), old(ships[k].shields), dt)
            else old(ships[k].currentShield)
      {
        var id := order[i];
        var ship := ships[id];
        if !ship.base.hasRoot {
          return false, i;
        }
        forall k | k in ships && k != id
          ensures ships[k] != ship
        {
          assert ships[k].base.id == IntId(k);
        }
        assert order[..i + 1] == order[..i] + [id];
        assert id !in order[..i];
        TickShip(ship, dt, playerPos);
        i := i + 1;
      }
      assert order[..|order|] == order;
      forall k | k in ships
        ensures ships[k].base.hasRoot
      {
        var j :| 0 <= j < |order| && order[j] == k;
      }
      return true, |order|;
    }
  }
}

=== FILE: skills.dfy ===
/**
 * Skill progression: experience accumulates, and while it covers the cost of
 * the next level (and the level is below the cap) that cost is paid and the
 * level goes up.
 */
module Skills {

  /** The experience that takes a skill from `level` to `level + 1`: (level + 1)^2 * 100. */
  function Threshold(level: int): (t: real)
    ensures t >= 0.0
    ensures level >= 0 ==> t >= 100.0
  {
    ((level + 1) * (level + 1) * 100) as real
  }

  /** The total cost of the levels lo..hi-1. */
  function ThresholdSum(lo: int, hi: int): real
    decreases hi - lo
  {
    if hi <= lo then 0.0 else ThresholdSum(lo, hi - 1) + Threshold(hi - 1)
  }

  /** The result of add_xp's loop: the level reached and the experience left over. */
  datatype Progress = Progress(level: int, xp: real)

  /**
   * Repeatedly pay for the next level while the experience covers it and the
   * level is below the cap.
   */
  function Settle(level: int, xp: real, maxLevel: int): Progress
    decreases maxLevel - level
  {
    if xp >= Threshold(level) && level < maxLevel then Settle(level + 1, xp - Threshold(level), maxLevel)
    else Progress(level, xp)
  }

  /** Settling never lowers the level and never lifts it above the cap (or above where it started, if that is higher). */
  lemma {:induction false} SettleLevelBounds(level: int, xp: real, maxLevel: int)
    ensures level <= Settle(level, xp, maxLevel).level
    ensures level <= maxLevel ==> Settle(level, xp, maxLevel).level <= maxLevel
    decreases maxLevel - level
  {
    if xp >= Threshold(level) && level < maxLevel {
      SettleLevelBounds(level + 1, xp - Threshold(level), maxLevel);
    }
  }

  /** Every level gained costs exactly its threshold: xp before = xp after + the thresholds paid. */
  lemma {:induction false} SettleConservesXp(level: int, xp: real, maxLevel: int)
    ensures xp == Settle(level, xp, maxLevel).xp + ThresholdSum(level, Settle(level, xp, maxLevel).level)
    decreases maxLevel - level
  {
    if xp >= Threshold(level) && level < maxLevel {
      var r := Settle(level + 1, xp - Threshold(level), maxLevel);
      SettleConservesXp(level + 1, xp - Threshold(level), maxLevel);
      SettleLevelBounds(level + 1, xp - Threshold(level), maxLevel);
      ThresholdSumFirst(level, r.level);
    }
  }

  /** Splitting off the first term of a threshold sum. */
  lemma {:induction false} ThresholdSumFirst(lo: int, hi: int)
    requires lo < hi
    ensures ThresholdSum(lo, hi) == Threshold(lo) + ThresholdSum(lo + 1, hi)
    decreases hi - lo
  {
    if lo + 1 < hi {
      ThresholdSumFirst(lo, hi - 1);
    }
  }

  /** Below the cap the loop stops only when the leftover no longer covers the next level. */
  lemma {:induction false} SettleBelowCap(level: int, xp: real, maxLevel: int)
    ensures Settle(level, xp, maxLevel).level < maxLevel ==>
      Settle(level, xp, maxLevel).xp < Threshold(Settle(level, xp, maxLevel).level)
    decreases maxLevel - level
  {
    if xp >= Threshold(level) && level < maxLevel {
      SettleBelowCap(level + 1, xp - Threshold(level), maxLevel);
    }
  }

  /** At the cap, experience only accumulates. */
  lemma AtCapAccumulates(level: int, xp: real, maxLevel: int)
    requires level >= maxLevel
    ensures Settle(level, xp, maxLevel) == Progress(level, xp)
  {
  }

  /** Leveling only pays out: with non-negative experience, the leftover stays non-negative. */
  lemma {:induction false} SettleKeepsXpNonNegative(level: int, xp: real, maxLevel: int)
    requires xp >= 0.0
    ensures Settle(level, xp, maxLevel).xp >= 0.0
    decreases maxLevel - level
  {
    if xp >= Threshold(level) && level < maxLevel {
      SettleKeepsXpNonNegative(level + 1, xp - Threshold(level), maxLevel);
    }
  }

  /** The bonus attributes of a skill (stored with a leading underscore), all 0.0 in a fresh skill. */
  const BonusNames: seq<string> := [
    "dmgPlasmaCannon", "dmgMissileLauncher", "dmgRailgun", "dmgIonBlaster",
    "dmgDroneSwarm", "dmgEmpEmitter", "dmgQuantumTorpedo", "dmgEnergyNeutralizer",
    "dmgWebifier", "dmgScrambler", "dmgDisruptor", "dmgSmartbomb", "dmgBombLauncher",
    "resPlasmaCannon", "resMissileLauncher", "resRailgun", "resIonBlaster",
    "resDroneSwarm", "resEmpEmitter", "resShieldGenerator", "resArmorHardener",
    "resHullPlating", "capacitorCapacity", "capacitorRechargeRate",
    "signatureRadiusReduction", "trackingSpeedBonus", "missileVelocityBonus",
    "missileExplosionRadiusReduction",
    "accuracyPlasmaCannon", "accuracyRailgun", "accuracyIonBlaster",
    "shipAgility", "shipMaxVelocity", "moduleCPUReduction", "modulePowergridReduction"
  ]

  class Skill {
    var name: string
    var level: int
    var xp: real
    var maxLevel: int
    /** The underscore-prefixed bonus attributes, by name without the underscore. */
    var bonuses: map<string, real>

    /** Skill.__init__: level 0, no experience, cap 5, every bonus 0.0. */
    constructor (name: string)
      ensures this.name == name && level == 0 && xp == 0.0 && maxLevel == 5
      ensures forall b :: b in bonuses <==> b in BonusNames
      ensures forall b :: b in bonuses ==> bonuses[b] == 0.0
    {
      this.name := name;
      level := 0;
      xp := 0.0;
      maxLevel := 5;
      bonuses := map b | b in BonusNames :: 0.0;
    }

    /** get_xp_for_next_level */
    function XpForNextLevel(): real
      reads this
    {
      Threshold(level)
    }

    /** level_up: one level more. */
    method LevelUp()
      modifies this
      ensures level == old(level) + 1
      ensures xp == old(xp) && maxLevel == old(maxLevel) && bonuses == old(bonuses) && name == old(name)
    {
      level := level + 1;
    }

    /**
     * add_xp: the amount is added, then the level-up loop runs. The outcome
     * is Settle of the old level and the increased experience.
     */
    method AddXp(amount: real)
      modifies this
      ensures Progress(level, xp) == Settle(old(level), old(xp) + amount, maxLevel)
      ensures maxLevel == old(maxLevel) && bonuses == old(bonuses) && name == old(name)
    {
      xp := xp + amount;
      while xp >= XpForNextLevel() && level < maxLevel
        invariant Settle(level, xp, maxLevel) == Settle(old(level), old(xp) + amount, maxLevel)
        invariant maxLevel == old(maxLevel) && bonuses == old(bonuses) && name == old(name)
        decreases maxLevel - level
      {
        xp := xp - XpForNextLevel();
        LevelUp();
      }
    }

    /**
     * get_bonus_value: the stored base times the level for a known bonus,
     * 0.0 for any other name.
     */
    function BonusValue(bonusName: string): (v: real)
      reads this
      ensures bonusName !in bonuses ==> v == 0.0
      ensures level == 0 ==> v == 0.0
      ensures bonusName in bonuses && level > 0 && bonuses[bonusName] >= 0.0 ==> v >= 0.0
    {
      if bonusName in bonuses then bonuses[bonusName] * level as real else 0.0
    }
  }

  /** In a fresh skill every bonus is 0.0, so every name yields 0.0 at every level. */
  lemma FreshBonusesAreZero(s: Skill, bonusName: string)
    requires forall b :: b in s.bonuses ==> s.bonuses[b] == 0.0
    ensures s.BonusValue(bonusName) == 0.0
  {
  }

  /**
   * Starting from a fresh skill, one add_xp of 1500 passes levels 1 (100),
   * 2 (400) and 3 (900) and stops at level 3 with 100 left, short of the 1600
   * that level 4 costs.
   */
  lemma FreshSkillExample()
    ensures Settle(0, 1500.0, 5) == Progress(3, 100.0)
  {
  }
}

=== FILE: wire.dfy ===
/**
 * The datagram wire format the network code writes and reads: unsigned
 * little-endian integers of 1, 2 and 8 bytes, 32-bit two's-complement
 * integers, 64-bit floats carried as their IEEE 754 binary64 bit patterns,
 * and strings with a 16-bit length prefix. A datagram is a growing byte
 * buffer; an iterator reads it from a cursor that only moves forward.
 */
module Wire {
  import opened Common

  type byte = b: int | 0 <= b < 256

  /** 256 to the power w: the number of values w bytes hold. */
  function Pow256(w: nat): (p: nat)
    ensures p >= 1
  {
    if w == 0 then 1 else 256 * Pow256(w - 1)
  }

  const TwoTo16: nat := 0x1_0000
  const TwoTo31: nat := 0x8000_0000
  const TwoTo32: nat := 0x1_0000_0000
  const TwoTo64: nat := 0x1_0000_0000_0000_0000

  lemma Pow256Values()
    ensures Pow256(1) == 256 && Pow256(2) == TwoTo16 && Pow256(4) == TwoTo32 && Pow256(8) == TwoTo64
  {
  }

  /** The w-byte little-endian form of n. */
  function LittleEndian(n: nat, w: nat): (r: seq<byte>)
    requires n < Pow256(w)
    ensures |r| == w
  {
    if w == 0 then [] else [n % 256] + LittleEndian(n / 256, w - 1)
  }

  /** The number a little-endian byte sequence stands for. */
  function FromLittleEndian(s: seq<byte>): (n: nat)
    ensures n < Pow256(|s|)
  {
    if s == [] then 0 else s[0] + 256 * FromLittleEndian(s[1..])
  }

  /** Reading back what was written gives the number. */
  lemma {:induction false} LittleEndianRoundTrip(n: nat, w: nat)
    requires n < Pow256(w)
    ensures FromLittleEndian(LittleEndian(n, w)) == n
  {
    if w > 0 {
      LittleEndianRoundTrip(n / 256, w - 1);
      assert LittleEndian(n, w)[1..] == LittleEndian(n / 256, w - 1);
    }
  }

  /** Writing back what was read gives the bytes: every byte sequence is some number's form. */
  lemma {:induction false} FromLittleEndianRoundTrip(s: seq<byte>)
    ensures LittleEndian(FromLittleEndian(s), |s|) == s
  {
    if s != [] {
      FromLittleEndianRoundTrip(s[1..]);
      var n := FromLittleEndian(s);
      assert n % 256 == s[0] && n / 256 == FromLittleEndian(s[1..]);
    }
  }

  /** A 32-bit signed value: the range Int32 fields can carry. */
  predicate IsInt32(v: int)
  {
    -(TwoTo31 as int) <= v < TwoTo31
  }

  /** The two's-complement bit pattern of a 32-bit signed value. */
  function Int32Bits(v: int): (u: nat)
    requires IsInt32(v)
    ensures u < TwoTo32
    ensures v >= 0 <==> u < TwoTo31
  {
    if v < 0 then v + TwoTo32 else v
  }

  /** The signed value of a 32-bit pattern. */
  function Int32Value(u: nat): (v: int)
    requires u < TwoTo32
    ensures IsInt32(v)
  {
    if u >= TwoTo31 then u - TwoTo32 else u
  }

  lemma Int32RoundTrip(v: int)
    requires IsInt32(v)
    ensures Int32Value(Int32Bits(v)) == v
  {
  }

  lemma Int32BitsRoundTrip(u: nat)
    requires u < TwoTo32
    ensures Int32Bits(Int32Value(u)) == u
  {
  }

  /** A 64-bit float, carried as its IEEE 754 binary64 bit pattern. */
  datatype Float64 = Float64(bits: nat)

  predicate IsFloat64(f: Float64)
  {
    f.bits < TwoTo64
  }

  /** The float 0.0: every bit clear. */
  const Zero64: Float64 := Float64(0)

  /** A string the wire carries: one byte per character (ASCII) and a length that fits the 16-bit prefix. */
  predicate IsWireString(s: string)
  {
    |s| < TwoTo16 && forall i :: 0 <= i < |s| ==> s[i] as int < 128
  }

  function StringBytes(s: string): (b: seq<byte>)
    requires forall i :: 0 <= i < |s| ==> s[i] as int < 128
    ensures |b| == |s|
  {
    seq(|s|, i requires 0 <= i < |s| => s[i] as int)
  }

  function BytesString(b: seq<byte>): (s: string)
    ensures |s| == |b|
  {
    seq(|b|, i requires 0 <= i < |b| => b[i] as char)
  }

  lemma StringRoundTrip(s: string)
    requires forall i :: 0 <= i < |s| ==> s[i] as int < 128
    ensures BytesString(StringBytes(s)) == s
  {
  }

  function EncodeUint8(v: nat): (r: seq<byte>)
    requires v < 256
    ensures |r| == 1
  {
    LittleEndian(v, 1)
  }

  function EncodeUint16(v: nat): (r: seq<byte>)
    requires v < TwoTo16
    ensures |r| == 2
  {
    LittleEndian(v, 2)
  }

  function EncodeInt32(v: int): (r: seq<byte>)
    requires IsInt32(v)
    ensures |r| == 4
  {
    LittleEndian(Int32Bits(v), 4)
  }

  function EncodeFloat64(f: Float64): (r: seq<byte>)
    requires IsFloat64(f)
    ensures |r| == 8
  {
    LittleEndian(f.bits, 8)
  }

  /** A string: its length as an unsigned 16-bit prefix, then its bytes. */
  function EncodeString(s: string): (r: seq<byte>)
    requires IsWireString(s)
    ensures |r| == 2 + |s|
  {
    EncodeUint16(|s|) + StringBytes(s)
  }

  /** An unsigned little-endian read of w bytes at pos: the value and the new position, or None past the end. */
  function ReadUint(data: seq<byte>, pos: nat, w: nat): (r: Option<(nat, nat)>)
    ensures r.Some? <==> pos + w <= |data|
    ensures r.Some? ==> r.value.0 < Pow256(w) && r.value.1 == pos + w
  {
    if pos + w <= |data| then Some((FromLittleEndian(data[pos..pos + w]), pos + w)) else None
  }

  function ReadInt32(data: seq<byte>, pos: nat): (r: Option<(int, nat)>)
    ensures r.Some? <==> pos + 4 <= |data|
    ensures r.Some? ==> IsInt32(r.value.0) && r.value.1 == pos + 4
  {
    match ReadUint(data, pos, 4)
    case None => None
    case Some((u, p)) => Some((Int32Value(u), p))
  }

  function ReadFloat64(data: seq<byte>, pos: nat): (r: Option<(Float64, nat)>)
    ensures r.Some? <==> pos + 8 <= |data|
    ensures r.Some? ==> IsFloat64(r.value.0) && r.value.1 == pos + 8
  {
    match ReadUint(data, pos, 8)
    case None => None
    case Some((u, p)) => Some((Float64(u), p))
  }

  /** A length-prefixed string: None when the prefix or the body runs past the end. */
  function ReadString(data: seq<byte>, pos: nat): (r: Option<(string, nat)>)
    ensures r.Some? ==> r.value.1 == pos + 2 + |r.value.0|
    ensures r.Some? ==> r.value.1 <= |data|
  {
    match ReadUint(data, pos, 2)
    case None => None
    case Some((n, p)) => if p + n <= |data| then Some((BytesString(data[p..p + n]), p + n)) else None
  }

  /** The bytes written at a position come back from it, whatever precedes or follows. */
  lemma ReadUintWritten(prefix: seq<byte>, n: nat, w: nat, rest: seq<byte>)
    requires n < Pow256(w)
    ensures ReadUint(prefix + LittleEndian(n, w) + rest, |prefix|, w) == Some((n, |prefix| + w))
  {
    var data := prefix + LittleEndian(n, w) + rest;
    assert data[|prefix|..|prefix| + w] == LittleEndian(n, w);
    LittleEndianRoundTrip(n, w);
  }

  lemma ReadInt32Written(prefix: seq<byte>, v: int, rest: seq<byte>)
    requires IsInt32(v)
    ensures ReadInt32(prefix + EncodeInt32(v) + rest, |prefix|) == Some((v, |prefix| + 4))
  {
    Pow256Values();
    ReadUintWritten(prefix, Int32Bits(v), 4, rest);
  }

  lemma ReadFloat64Written(prefix: seq<byte>, f: Float64, rest: seq<byte>)
    requires IsFloat64(f)
    ensures ReadFloat64(prefix + EncodeFloat64(f) + rest, |prefix|) == Some((f, |prefix| + 8))
  {
    Pow256Values();
    ReadUintWritten(prefix, f.bits, 8, rest);
  }

  lemma ReadStringWritten(prefix: seq<byte>, s: string, rest: seq<byte>)
    requires IsWireString(s)
    ensures ReadString(prefix + EncodeString(s) + rest, |prefix|) == Some((s, |prefix| + 2 + |s|))
  {
    Pow256Values();
    var data := prefix + EncodeString(s) + rest;
    assert data == prefix + EncodeUint16(|s|) + (StringBytes(s) + rest);
    ReadUintWritten(prefix, |s|, 2, StringBytes(s) + rest);
    var p := |prefix| + 2;
    assert data[p..p + |s|] == StringBytes(s);
    StringRoundTrip(s);
  }

  /** A datagram being built: bytes are only ever appended. */
  class Datagram {
    var data: seq<byte>

    constructor ()
      ensures data == []
    {
      data := [];
    }

    method AddUint8(v: nat)
      requires v < 256
      modifies this
      ensures data == old(data) + EncodeUint8(v)
    {
      data := data + EncodeUint8(v);
    }

    method AddUint16(v: nat)
      requires v < TwoTo16
      modifies this
      ensures data == old(data) + EncodeUint16(v)
    {
      data := data + EncodeUint16(v);
    }

    method AddInt32(v: int)
      requires IsInt32(v)
      modifies this
      ensures data == old(data) + EncodeInt32(v)
    {
      data := data + EncodeInt32(v);
    }

    method AddFloat64(f: Float64)
      requires IsFloat64(f)
      modifies this
      ensures data == old(data) + EncodeFloat64(f)
    {
      data := data + EncodeFloat64(f);
    }

    method AddString(s: string)
      requires IsWireString(s)
      modifies this
      ensures data == old(data) + EncodeString(s)
    {
      data := data + EncodeString(s);
    }
  }

  /**
   * A reader over a received datagram. Each read either succeeds and moves
   * the cursor past what it read, or fails (the source raises) and leaves
   * the cursor where it was.
   */
  class DatagramIterator {
    const data: seq<byte>
    var pos: nat

    constructor (bytes: seq<byte>)
      ensures data == bytes && pos == 0
    {
      data := bytes;
      pos := 0;
    }

    method GetUint(w: nat) returns (r: Option<nat>)
      modifies this
      ensures ReadUint(data, old(pos), w).None? ==> r.None? && pos == old(pos)
      ensures ReadUint(data, old(pos), w).Some? ==>
        r == Some(ReadUint(data, old(pos), w).value.0) && pos == ReadUint(data, old(pos), w).value.1
    {
      if pos + w <= |data| {
        r := Some(FromLittleEndian(data[pos..pos + w]));
        pos := pos + w;
      } else {
        r := None;
      }
    }

    method GetInt32() returns (r: Option<int>)
      modifies this
      ensures ReadInt32(data, old(pos)).None? ==> r.None? && pos == old(pos)
      ensures ReadInt32(data, old(pos)).Some? ==>
        r == Some(ReadInt32(data, old(pos)).value.0) && pos == ReadInt32(data, old(pos)).value.1
    {
      var u := GetUint(4);
      r := if u.Some? then Some(Int32Value(u.value)) else None;
    }

    method GetFloat64() returns (r: Option<Float64>)
      modifies this
      ensures ReadFloat64(data, old(pos)).None? ==> r.None? && pos == old(pos)
      ensures ReadFloat64(data, old(pos)).Some? ==>
        r == Some(ReadFloat64(data, old(pos)).value.0) && pos == ReadFloat64(data, old(pos)).value.1
    {
      var u := GetUint(8);
      r := if u.Some? then Some(Float64(u.value)) else None;
    }

    method GetString() returns (r: Option<string>)
      modifies this
      ensures ReadString(data, old(pos)).None? ==> r.None? && pos == old(pos)
      ensures ReadString(data, old(pos)).Some? ==>
        r == Some(ReadString(data, old(pos)).value.0) && pos == ReadString(data, old(pos)).value.1
    {
      if pos + 2 <= |data| {
        var n := FromLittleEndian(data[pos..pos + 2]);
        if pos + 2 + n <= |data| {
          r := Some(BytesString(data[pos + 2..pos + 2 + n]));
          pos := pos + 2 + n;
          return;
        }
      }
      r := None;
    }
  }
}
